=== FILE: README.md ===
# toke, modelled in Dafny

toke is a byte-level tokenizer. It rewrites text with a configurable filter,
splits it greedily into the longest token definitions of a vocabulary and
decodes token IDs back to bytes. It also has a training tool that builds such
a vocabulary from a corpus. This project models the parts of toke that decide
what comes out of each of those steps and proves properties of them:

- **Filter** (`filter.dfy`, `filter_laws.dfy`). The `key=value,...`
  configuration parser, and the single left-to-right rewriting pass of
  `toke_filter` with its fixed rule priority:
  1. CR/CRLF
  2. tab
  3. Unicode punctuation substitutes
  4. restricted ASCII
  5. lowercase
  6. verbatim copy of one UTF-8 unit
- **Vocabulary text** (`vocab.dfy`, `unescape.dfy`, `roundtrip.dfy`):
  - the training tool's `Vocab::toString` and its `escape`;
  - the unescaping of definition lines in `src/vocab.c`;
  - the proof that the encoder reads a written vocabulary back with definition
    `i` at ID `i`.
- **Encoder** (`trie.dfy`, `encoder.dfy`):
  - the trie of definitions;
  - the line and directive parser;
  - the greedy longest-match step `tokenize_once`;
  - `encode`/`toke_encode`.
- **Decoder** (`decoder.dfy`): the table of vocabulary lines and the two-pass
  `toke_decode`.
- **Model** (`model.dfy`): the sorted, duplicate-free definition set of
  `src/model.c`, code points to UTF-8 per section 3 of RFC 3629, and the
  Unicode block seeding.
- **UTF-8 lead bytes** (`utf8.dfy`): `utf8Length` from `tool/utf8.h` and the
  chunking of a file into the units it announces.
- **Training** (`initializer.dfy`, `pair_counter.dfy`, `training.dfy`):
  - seeding the vocabulary with every distinct unit of the corpus;
  - counting adjacent alphabetic ID pairs per file and summing them;
  - picking the most frequent pair;
  - the merge loop of `tool/main.cpp` and its stop conditions.
- **Archive walk** (`dataset.dfy`). `toke_dataset_walk` over a POSIX ustar
  archive (IEEE Std 1003.1, "ustar Interchange Format"):
  - the octal size at header offset 124;
  - the type flag at 156;
  - the magic at 257;
  - jobs handed out in batches of `max_threads`.

`bytes.dfy` holds the byte type, bounded searches and the split of a text into
`'\n'`-terminated lines. `wrappers.dfy` holds `Option`, the error codes, and
`Outcome`, the status an in-place C operation returns.

Everything is a pure function over values:
- byte strings are `seq<byte>`;
- the encoder's trie is a map from the byte path of each node that holds a
  token ID to that ID;
- a C function that mutates its object and returns an error code becomes a
  function returning the new object together with an `Outcome`. The partial
  updates made before an error are kept, as in the source.

Where the source reads past a buffer, the model returns `None`, or an
`Overrun` step in the filter, instead of a value.

The model follows what the code does, except where a row of "## Findings"
below names a corrected member: there the rest of the model uses the
corrected member, and the code as written is modelled alongside it. It keeps
these behaviours of the code:
- `src/vocab.c` turns the text backslash-`n` into the byte 0x00.
  `src/decoder.c` stores a line that is exactly backslash-`n` as a newline.
- The decoder keeps `#` directive lines as table entries, does no hex
  unescaping, and narrows each ID to its low 8 bits.
- The encoder writes 65535 for input that no definition starts. It never uses
  its stored unknown-token ID.
- Parsing a vocabulary never resets the encoder's trie or filter, and never
  resets the decoder's table.
- The training tool's pair counter looks up both IDs of a pair with
  `Vocab::at`. A filter configuration holding a '\n' is accepted, but
  `Vocab::toString` writes it unescaped, so the encoder reads an extra
  definition line and every ID moves up by one. An ID can then pass the
  vocabulary, and `at` throws inside the OpenMP region, which terminates the
  tool. This is the `OutOfRange` exit.
- The archive walk gives every job file index 0. It treats a zero size (so
  also a directory entry) and a missing magic (so also the zero blocks that
  close an archive) as `TOKE_ERROR_FILE_IO`.

`testing/decoder.cpp:23-30` expects the decoder to skip directives and to
unescape hex. `src/decoder.c` does neither, and the model follows the code.

## Model

| member | source | states |
|---|---|---|
| Bytes.Find | src/filter.c:55-64 | the search result is within the string, at or after the start, and holds the byte searched for unless it is the end |
| Bytes.FindSkips | src/filter.c:55-64 | no occurrence of the byte lies between the start and what the search finds |
| Bytes.FindFirst | src/encoder.c:171-181 | the first occurrence at or after the start is exactly what the search returns |
| Bytes.Lines | src/decoder.c:89-115 | a text splits into at most as many lines as it has bytes |
| Bytes.LinesHaveNoNewline | src/decoder.c:89-108 | no line produced by the split contains a '\n' |
| Bytes.LinesFromIsLines | src/encoder.c:230-270 | the offset-based walk over lines that the C loops make gives the same lines as the reference split of the suffix |
| Bytes.LinesOfLine | src/decoder.c:89-108 | a '\n'-free line followed by '\n' is the first line, and the lines of the rest follow |
| Bytes.FlattenAppend | tool/initializer.cpp:36-53 | concatenating the pieces of two lists is concatenating the two concatenations |
| Filter.With | src/filter.c:92-140 | setting or clearing one flag bit changes that flag to the given value and leaves the other four as they were |
| Filter.KeyFlag | src/filter.c:87-140 | a key selects a flag exactly when it is one of the five recognised key names, and then it selects the flag of that name |
| Filter.KeyNamesDistinct | src/filter.c:92-132 | each of the five key names selects its own flag and no other |
| Filter.ParseFrom | src/filter.c:73-145 | the property loop ends either accepting or with FILTER_SYNTAX, never with another error |
| Filter.InterpretAt | src/filter.c:75-85 | the property runs to the next ',' and its key to the first '=', searched independently: a ',' before the '=' makes it malformed, otherwise the key ends at the '=' and the value follows it, or is absent when there is no '=' at all |
| Filter.InterpretMalformed | src/filter.c:75-79 | a property is rejected for its shape exactly when its next ',' comes before its first '=' |
| Filter.InterpretWithValue | src/filter.c:81-85 | when the '=' comes before the ',', the key is the text before the '=' and the value the text between the '=' and the ',' |
| Filter.InterpretWithoutValue | src/filter.c:75-85 | a final property without any '=' has the whole remaining text as key and no value |
| Filter.InterpretPiece | src/filter.c:81-85 | a piece whose first '=' is at a given position sets the key before it to the value after it |
| Filter.ParseFromIsFold | src/filter.c:71-145 | the index-scanning loop computes exactly what splitting the configuration at ',' and applying the properties in order computes |
| Filter.StepAgrees | src/filter.c:73-143 | on one property the loop and the split reading take the same step: both stop with the same flags, or both go on with the same flags |
| Filter.ParseStep | src/filter.c:73-143 | one round of the loop either rejects the property with FILTER_SYNTAX, keeping the flags set so far, or goes on after the ',' with the property applied |
| Filter.ParseProperty | src/filter.c:75-142 | one round of the loop ends the parse in success or FILTER_SYNTAX and never with another error; ParseStep states how the round continues |
| Filter.FoldSpec | src/filter.c:87-140 | applying properties accepts exactly when every property is acceptable, and then a flag is on exactly when the last property naming it says "true" (or, if none names it, as it was) |
| Filter.ParseConfigSpec | src/filter.c:67-146 | a configuration is accepted exactly when every property is acceptable; then, since every flag starts off, a flag is on exactly when the last property naming it says "true", so a later setting overrides an earlier one |
| Filter.ParseConfig | src/filter.c:67-146 | the parser reports success or FILTER_SYNTAX and no other error, and it accepts the empty configuration with every flag off |
| Filter.ParseUnbounded | src/filter.c:73-145 | handed a length with no end, the property loop stops in bounds only once a ',' and a '=' lie ahead; otherwise it reads past its text |
| Filter.UnboundedAgrees | src/filter.c:73-145 | where the loop without an end stops in bounds, the loop bounded by the same text gives the same flags and FILTER_SYNTAX; where the bounded loop accepts, the loop without an end reads past the text |
| Filter.PropertyStep | src/filter.c:73-143 | on a well-formed property followed by a ',', the loop with and the loop without an end take the same step: both stop (the unbounded one in bounds, the bounded one with FILTER_SYNTAX) or both go on after the ',' with the same flags |
| Filter.UnboundedStopsAsBounded | src/filter.c:73-145 | where the loop without an end stops in bounds, the loop bounded by the same text stops there too, with the same flags and FILTER_SYNTAX |
| Filter.UnboundedReadsPast | src/filter.c:73-145 | where the loop bounded by the text accepts, the loop without an end runs past the end of the text |
| Filter.Apply1Has | src/filter.c:92-140 | an accepted setting changes only the flag its key names, to what its value says |
| Filter.UpdateSpec | src/filter.c:87-142 | a property is rejected exactly when its key names a flag and its value is neither "true" nor "false"; otherwise only the flag its key names changes, to what its value says, and an unknown key changes nothing |
| Filter.LastSettingCons | src/filter.c:92-142 | the last property naming a flag is the last one in the tail, or the head when none in the tail names it |
| Filter.EmptyConfig | src/filter.c:69-73 | the empty configuration is accepted with every flag off, whatever was configured before |
| Filter.Utf8Length | src/filter.c:159-177 | a lead byte announces 2 bytes exactly for 0xC0-0xDF, 3 exactly for 0xE0-0xEF, 4 exactly for 0xF0-0xF7, and 1 otherwise |
| Filter.IsRestrictedAscii | src/filter.c:148-157 | a byte restricted_ascii keeps lies below 0x7F and is a one-byte UTF-8 unit |
| Filter.Substitute | src/filter.c:223-323 | exactly the twelve sequences E2 80 followed by 90, 91, 93, 94, 98, 99, 9C, 9D, A2, A3, B2 or B3 are replaced, each by one of the ASCII bytes '"', ''', '*' and '-', which restricted_ascii keeps |
| Filter.FilterStep | src/filter.c:196-345 | every rule that writes consumes at least one byte and writes at most as many bytes as it consumes |
| Filter.Apply | src/filter.c:180-354 | when the pass does not overrun, its output is no longer than its input |
| FilterLaws.WellFramedIsComplete | src/filter.c:196-345 | an input whose units are properly framed has every announced unit complete |
| FilterLaws.StepOnComplete | src/filter.c:196-345 | on an input whose units are all complete, every step writes something and leaves a rest whose units are all complete |
| FilterLaws.ApplyComplete | src/filter.c:339-344 | whatever the flags, the pass never reads past an input whose last unit is complete |
| FilterLaws.ApplyNoFlags | src/filter.c:339-344 | with no flag set the pass copies its input, and it overruns exactly when the last unit is cut short |
| FilterLaws.ApplyRestricted | src/filter.c:148-157 | with restricted_ascii on, every written byte is printable ASCII, tab, CR, LF or 0x7F, and without unicode_substitutes the pass never overruns |
| FilterLaws.StepRestricted | src/filter.c:325-330 | with restricted_ascii on, one step writes only restricted ASCII or 0x7F, and without unicode_substitutes it never overruns |
| FilterLaws.LowercaseOnly | src/filter.c:332-344 | on a well-framed input, where every lead byte is followed by all its continuation bytes, lowercase alone maps each A-Z byte to its small letter and keeps every other byte and the length |
| FilterLaws.LowercaseIdempotent | src/filter.c:332-344 | applying lowercase alone to its own output changes nothing |
| FilterLaws.StepAgain | src/filter.c:216-344 | for lowercase, normalize_tabs or restricted_ascii alone, what one step writes is written again, consuming the same bytes, by a step over that output |
| FilterLaws.PassAgain | src/filter.c:196-345 | for lowercase, normalize_tabs or restricted_ascii alone, a second pass over the output of an accepted first pass gives that output back |
| FilterLaws.RestrictedIdempotent | src/filter.c:325-330 | restricted_ascii alone accepts every input, and a second pass over its output changes nothing |
| FilterLaws.TabsIdempotent | src/filter.c:216-221 | normalize_tabs alone, run over its own output, changes nothing |
| FilterLaws.TabsOnly | src/filter.c:216-221 | on a well-framed input, where every lead byte is followed by all its continuation bytes, normalize_tabs alone turns every tab into a space and keeps every other byte and the length |
| FilterLaws.CrLf | src/filter.c:202-214 | the reference line normalisation leaves no CR and never lengthens the text |
| FilterLaws.CrLfNoCr | src/filter.c:202-214 | a text without CR is left as it is by the line normalisation |
| FilterLaws.LinesOnly | src/filter.c:202-214 | on a well-framed input, where every lead byte is followed by all its continuation bytes, normalize_lines alone turns each CR LF and each lone CR into one LF and keeps everything else |
| FilterLaws.SubstitutionWins | src/filter.c:223-323 | with unicode_substitutes on, each of the twelve listed three-byte sequences becomes its one ASCII substitute and all three bytes are consumed, whatever else is on, restricted_ascii included |
| FilterLaws.NoSubstitutionNoEffect | src/filter.c:223-323 | any unit that is not a listed sequence is treated as if unicode_substitutes were off |
| Unescape.HexValue | src/vocab.c:5-17 | the digits 0-9 and a-f have their hex value, and every other byte, including A-F, counts as 0 |
| Unescape.ProcessTokenDef | src/vocab.c:19-66 | the unescaped definition is never longer than its line, since each character or escape yields one byte |
| Unescape.ShiftInDigits | src/vocab.c:39-58 | the 8-bit accumulator holds one digit as it is, and two digits as 16 times the first plus the second |
| Unescape.ShiftIn | src/vocab.c:47-49 | after the 8-bit accumulator is shifted left by four and h is or-ed in, its high nibble holds the old low nibble and its low nibble holds h |
| Unescape.PlainText | src/vocab.c:30-37 | a line without '\' is copied unchanged, one byte per character |
| Unescape.EscapePair | src/vocab.c:39-58 | a '\' and two characters become the one byte 16*hex(c1)+hex(c2), and the rest of the line follows |
| Unescape.ShortEscapes | src/vocab.c:39-60 | a '\' with one character left gives hex(c1), and a '\' at the very end gives byte 0 |
| Unescape.BackslashN | src/vocab.c:8-16 | the text backslash-n unescapes to the byte 0x00, not a newline |
| Vocab.Concat | tool/vocab.cpp:6-24 | the new definition holds the bytes of the left one followed by those of the right one |
| Vocab.Define | tool/vocab.cpp:41-53 | defining appends one definition at the end: the size grows by one and every earlier definition keeps its index |
| Vocab.HexDigit | tool/vocab.cpp:71 | the lower-case hex digit written for a value below 16 is read back as that value by the unescaper |
| Vocab.Escape | tool/vocab.cpp:57-75 | the escaped text is never shorter than the definition, and a definition of bytes 33-126 other than '\\' and '#' is written as it is |
| Vocab.EscapeLength | tool/vocab.cpp:62-72 | the escaped text is the definition's length plus two for every byte written in hex |
| Vocab.EscapeAlphabet | tool/vocab.cpp:66-71 | escaped text uses only the bytes 0x21-0x7E, so it contains no '\n', and it never starts with '#' |
| Vocab.UnescapeEscape | tool/vocab.cpp:57-75 | the unescaper of src/vocab.c gives back every byte string that escape wrote |
| Vocab.LinesOfDefLines | tool/vocab.cpp:85-87 | the definition block splits into exactly the escaped definitions, one per line, in order |
| Vocab.ToString | tool/vocab.cpp:79-89 | when the configuration holds no '\n', the text form splits into the version line, the filter line with the configuration, then one escaped definition per line in ID order |
| Vocab.LinesAfterHeader | tool/vocab.cpp:83-84 | the two directive lines are the first two lines, whatever follows them |
| Trie.Insert | src/encoder.c:141-169 | an empty word leaves the trie as it is; otherwise the word's node gets the ID, replacing any earlier one, and no other node changes |
| Trie.TokenizeOnce | src/encoder.c:277-312 | a step consumes at least one byte and no more than remain |
| Trie.WalkBounds | src/encoder.c:290-301 | the descent never goes past the input, and a token it finds is at least one byte long |
| Trie.Walk | src/encoder.c:290-301 | the descent returns the match it was handed, or a defined prefix of the input longer than the depth it started at, together with that prefix's ID |
| Trie.DeeperTokenHasNode | src/encoder.c:148-164 | every prefix of a defined word has a node, so the descent cannot stop before a longer defined prefix |
| Trie.WalkFinds | src/encoder.c:290-301 | the descent keeps the longest defined prefix seen so far, and at the end holds the longest defined prefix of the input |
| Trie.TokenizeOnceSpec | src/encoder.c:277-312 | a step writes the ID of the longest defined prefix of the remaining input and consumes exactly that prefix; it writes 65535 and consumes one byte exactly when no prefix is defined |
| Trie.EncodeRaw | src/encoder.c:314-346 | encoding writes at most one token per input byte |
| Trie.EncodeRawPieces | src/encoder.c:330-341 | the pieces consumed by the steps partition the input, one non-empty piece per token: a defined token's piece is its definition, and a 65535 piece is one byte |
| Trie.EncodeRawCons | src/encoder.c:330-341 | encoding is one step followed by the encoding of the rest |
| Trie.PartitionCons | src/encoder.c:330-341 | a partition of the rest stays a partition with one more token and its piece in front |
| Encoder.Directive | src/encoder.c:183-221 | a directive never changes the trie or the unknown-token ID, and its status is success, VOCAB_SYNTAX or FILTER_SYNTAX |
| Encoder.DirectiveSpec | src/encoder.c:209-220 | "version" changes nothing; "filter" installs a new filter configured by the text after the ':' and passes on that configuration's status; any other name is VOCAB_SYNTAX and changes nothing |
| Encoder.DirectiveValue | src/encoder.c:190-204 | the value of a directive is shorter than its line, or empty |
| Encoder.DirectiveCorrection | src/encoder.c:202-215 | the code as written and the corrected directive agree on every line except the line "filter" with no ':'; on that line the code as written never succeeds, since it reads past the vocabulary or stops with FILTER_SYNTAX in a later line, while the corrected directive installs a filter with every flag off |
| Encoder.FilterWithoutColon | src/encoder.c:202-215 | "#filter" as the last line of the vocabulary, with or without its '\n', makes the code as written read past the vocabulary |
| Encoder.FilterWithoutColonFollowed | src/encoder.c:202-215 | "#filter" followed by the line "x,=" makes the code as written take that line as the configuration and stop in bounds with FILTER_SYNTAX |
| Encoder.FilterWithoutColonParsed | src/encoder.c:224-275 | the parse, which reads each directive with the corrected directive, accepts `#filter\nx,=\n`: it installs a filter with every flag off and takes "x,=" as the one definition, so the unknown-token ID is 1 |
| Encoder.FilterAlone | src/encoder.c:190-215 | the corrected directive reads the line "filter" as an empty configuration: a filter with every flag off, and success |
| Encoder.DirectiveAsWritten | src/encoder.c:184-221 | as written, only the line "filter" without ':' can read past the vocabulary; no directive changes the trie or the unknown-token ID, and the status is success, VOCAB_SYNTAX or FILTER_SYNTAX |
| Encoder.LineStep | src/encoder.c:232-269 | a line that continues the parse leaves the next ID below 65534; a line that ends the parse successfully sets the unknown-token ID to the number of IDs used; the directive of each line is the corrected one, so a "filter" line without ':' installs an empty configuration; `Encoder.DirectiveAsWritten` is the code as written |
| Encoder.ParseFrom | src/encoder.c:230-274 | the loop ends in success, VOCAB_SYNTAX or FILTER_SYNTAX; a successful parse sets the unknown-token ID to at least the IDs already used and at most 65534; the directive of each line is the corrected one, so a "filter" line without ':' installs an empty configuration; `Encoder.DirectiveAsWritten` is the code as written |
| Encoder.ParseLine | src/encoder.c:232-270 | one line and the lines after it end, when successful, with an unknown-token ID between the current ID and 65534; the directive of each line is the corrected one, so a "filter" line without ':' installs an empty configuration; `Encoder.DirectiveAsWritten` is the code as written |
| Encoder.DirectiveText | src/encoder.c:232-238 | searching for the end of a '#' line from just after the '#' finds the same '\n' as searching from the '#', so the directive is the rest of the line |
| Encoder.ParseFromStep | src/encoder.c:230-270 | the loop reads the line at the offset and then goes on after its '\n', unless the line stops the parse |
| Encoder.ParseLinesCons | src/encoder.c:230-270 | the pass over lines reads the first line, then the rest, unless the first line stops it |
| Encoder.ParseFromIsParseLines | src/encoder.c:224-275 | from any offset, for any encoder and next ID, the parse loop computes what the pass over the remaining lines computes |
| Encoder.LineAgrees | src/encoder.c:230-270 | the loop and the pass over lines agree from a line when they agree after it |
| Encoder.ParseVocabByLines | src/encoder.c:224-275 | parsing a vocabulary reads its lines in order with IDs counted from 0 |
| Encoder.ParseVocab | src/encoder.c:224-275 | parsing ends in success, VOCAB_SYNTAX or FILTER_SYNTAX; on success the unknown-token ID is at most 65534, and an empty text succeeds with unknown-token ID 0; the directive of each line is the corrected one, so a "filter" line without ':' installs an empty configuration; `Encoder.DirectiveAsWritten` is the code as written |
| Encoder.InsertAllLookup | src/encoder.c:148-166 | after definitions are inserted with consecutive IDs, a non-empty definition maps to the ID of its last occurrence |
| Encoder.InsertAllKeeps | src/encoder.c:141-169 | inserting other words leaves a word's presence and ID as they were |
| Encoder.Encode | src/encoder.c:348-368 | encoding writes at most one token per byte of the text; without a filter it never fails |
| Encoder.EncodeTokens | src/encoder.c:348-368 | without a filter, or with one that has every flag off on text whose units are complete, the tokens partition the text exactly: each token's piece is its definition, or one byte no definition starts with |
| RoundTrip.EscapedLines | tool/vocab.cpp:85-87 | the definition lines are the escaped definitions, one per definition |
| RoundTrip.ParseEscaped | src/encoder.c:242-272 | escaped definitions are read back one ID each from the next ID until the IDs run out, and the unknown-token ID is the next one |
| RoundTrip.EscapedStep | src/encoder.c:242-269 | an escaped definition is read as a definition, never as a directive |
| RoundTrip.VersionLine | tool/vocab.cpp:83 | the header line "#version:1" is accepted and changes nothing |
| RoundTrip.FilterLine | tool/vocab.cpp:84 | the header line "#filter:" plus a configuration installs the filter that configuration describes |
| RoundTrip.ToStringLines | tool/vocab.cpp:79-89 | the lines of a written vocabulary are the two header lines and then one escaped definition per line |
| RoundTrip.HeaderLines | tool/vocab.cpp:83-84 | the two header lines install the filter and take no ID |
| RoundTrip.ParseToString | tool/vocab.cpp:79-89 | reading back a written vocabulary installs its filter; when the configuration is accepted, the first 65534 definitions take IDs 0, 1, ... in order and the unknown-token ID is the number read |
| RoundTrip.ReadBack | src/encoder.c:224-275 | in a vocabulary of at most 65534 definitions, each distinct non-empty definition is read back at its own index |
| Decoder.Entries | src/decoder.c:89-115 | there is one table entry per line |
| Decoder.Entry | src/decoder.c:66-75 | an entry differs from its line only for the line backslash-'n', stored as one '\n'; an entry is a lone '\n' exactly for that line or a line that is itself a '\n' |
| Decoder.LineEntry | src/decoder.c:89-107 | the line up to the next '\n' becomes the next entry, and the lines after it follow |
| Decoder.LastEntry | src/decoder.c:110-113 | a final unterminated line becomes one more entry, and a trailing '\n' adds no empty entry |
| Decoder.ParseVocab | src/decoder.c:82-116 | every line of the text is appended to the table in order, directives included, after the entries already there |
| Decoder.ScanByte | src/decoder.c:88-108 | one byte of the scan: a byte other than a newline adds nothing and keeps the start of the line; a newline adds the line before it and starts the next line after it, so the lines still to come plus the table are unchanged |
| Decoder.LineEnd | src/decoder.c:93-107 | at a '\n', the line since the last one moves from the pending text to the table |
| Decoder.DecodeAppend | src/decoder.c:182-192 | decoding maps concatenated ID sequences to concatenated texts |
| Decoder.DecodeCons | src/decoder.c:182-192 | decoding is the first ID's bytes followed by the decoding of the rest |
| Decoder.DecodeLowByte | src/decoder.c:166 | IDs that agree in their low 8 bits decode the same, so k and k+256 are indistinguishable |
| Decoder.Lookup | src/decoder.c:182-191 | an ID gives one of the table's entries or the single byte 0x7F; an ID below 256 inside the table gives its own entry, and an ID gives something outside the table only when its low byte is past the table |
| Decoder.Decode | src/decoder.c:160-199 | when no entry is empty, the decoded text has at least one byte per ID |
| Decoder.DecodePieces | src/decoder.c:165-192 | the decoded text is one piece per ID: the entry at the ID's low byte, or the single byte 0x7F when that is past the table |
| Decoder.DecodedLengthAppend | src/decoder.c:165-173 | the first pass adds each ID's contribution to the length |
| Decoder.DecodeTwoPass | src/decoder.c:160-199 | the length summed by the first pass equals the number of bytes the second pass copies, and the result is the decoding of the IDs |
| Decoder.ExampleLines | src/decoder.c:89-115 | the text "aa\nb\n \n" has the lines "aa", "b", " " |
| Decoder.ExampleTable | src/decoder.c:66-75 | those three lines are stored as they are |
| Decoder.DecodeExampleTable | src/decoder.c:165-192 | with those entries, the IDs 1, 0xFFFF, 2, 0 decode to "b", 0x7F, " ", "aa" |
| Decoder.DecodeExample | src/decoder.c:82-199 | parsing "aa\nb\n \n" and decoding the IDs 1, 0xFFFF, 2, 0 gives "b", 0x7F, " ", "aa" |
| Model.MemCmp | src/model.c:98 | the comparison of the shared bytes is zero exactly when they are equal |
| Model.Compare | src/model.c:89-107 | the comparator has the sign of memcmp over the shared bytes, and when those agree the shorter definition is the smaller; the model records that sign alone |
| Model.CompareStep | src/model.c:89-107 | comparing two non-empty definitions looks at their first bytes, then at the rest |
| Model.CompareEqual | src/model.c:89-107 | the comparator is zero exactly on equal definitions |
| Model.PrefixFirst | src/model.c:95-107 | a proper prefix sorts before every definition it starts, since the shared bytes agree and the shorter one is the smaller |
| Model.CompareAntisymmetric | src/model.c:89-107 | swapping the operands negates the result |
| Model.LessTransitive | src/model.c:89-107 | the order the comparator defines is transitive |
| Model.LessTotal | src/model.c:89-107 | any two different definitions are ordered one way and not the other |
| Model.FindToken | src/model.c:80-87 | the binary search finds a definition exactly when it is in the sorted array, and returns its index |
| Model.PositionSplits | src/model.c:116-139 | in the sorted array, everything before a new definition's place is below it and everything after is above |
| Model.InsertKeepsSorted | src/model.c:116-139 | adding a new definition keeps the array strictly sorted, adds exactly that member and grows by one |
| Model.InsertAt | src/model.c:116-139 | the array with the definition added holds the smaller elements, then the definition, then the larger elements |
| Model.SortedUnique | src/model.c:139 | two strictly sorted arrays with the same members are equal, so sorting after appending gives the array with the definition in place |
| Model.Include | src/model.c:109-142 | including a definition keeps the array sorted; the array is unchanged when the definition is there and one longer otherwise |
| Model.AddToken | src/model.c:109-142 | a definition already present changes nothing; a new one is added once, the size grows by one and the array stays strictly sorted |
| Model.ToUtf8 | src/model.c:144-167 | a code point takes 1, 2, 3 or 4 bytes up to 0x7F, 0x7FF, 0xFFFF and 0x10FFFF, and none above |
| Model.ToUtf8RoundTrip | src/model.c:144-167 | the UTF-8 form decodes back to its code point, its continuation bytes are 10xxxxxx, and utf8_length reads from its lead byte the length to_utf8 produced |
| Model.ToUtf8Injective | src/model.c:144-167 | different code points have different UTF-8 forms |
| Model.AddCodepoint | src/model.c:169-180 | a code point past U+10FFFF is refused with INVALID_UNICODE and leaves the model unchanged; any other adds its UTF-8 form and keeps the array sorted |
| Model.BlockRange | src/model.c:182-207 | every block is a non-empty range of valid code points |
| Model.AddUnicodeBlock | src/model.c:182-207 | the UTF-8 form of every code point of the block is added; on an empty model that is one definition per code point, 128 for Basic Latin and 112 for General Punctuation |
| Model.GetDef | src/model.c:209-213 | there is a definition exactly for an index below the size, and it is the definition at that index |
| Model.GetSize | src/model.c:215-219 | the size at an index is the length of its definition, or 0 past the end |
| Model.GettersEnumerate | src/model.c:209-219 | on a sorted model, the indices below the size give every definition of the model, each once, in ascending order |
| Utf8.LeadLengthRanges | tool/utf8.h:6-22 | the result is 1 to 4: 2 for 110xxxxx, 3 for 1110xxxx, 4 for 11110xxx, and 1 for every byte below 0xC0 or from 0xF8 |
| Utf8.LeadLength | tool/utf8.h:6-22 | a unit is 1 to 4 bytes long, and an ASCII byte is a unit of its own |
| Utf8.Chunks | tool/initializer.cpp:32-53 | there are never more chunks than bytes, and ASCII data has one chunk per byte |
| Utf8.AgreesWithFilter | tool/utf8.h:6-22 | the classifier agrees with utf8_length of src/filter.c on all 256 byte values |
| Utf8.ChunksPrefix | tool/initializer.cpp:32-53 | the chunks concatenate to a prefix of the data, and the scan stops before the end only where a lead announces more bytes than remain |
| Utf8.UnitThenRest | tool/initializer.cpp:36-53 | one unit followed by the chunks of the rest keeps both properties of the scan |
| Utf8.ChunksCons | tool/initializer.cpp:36-53 | the chunks are the first unit followed by the chunks of the rest |
| Utf8.ChunksAreUnits | tool/initializer.cpp:42-52 | every chunk is one whole unit of 1 to 4 bytes |
| Initializer.Prepare | tool/initializer.cpp:19-26 | prepare leaves exactly one empty set per file |
| Initializer.IncludeAll | tool/initializer.cpp:50 | adding items to a set keeps it sorted and gives the union |
| Initializer.VisitFile | tool/initializer.cpp:28-54 | visiting a file adds exactly its units to its own set and leaves the other files' sets unchanged |
| Initializer.VisitAllSets | tool/initializer.cpp:28-54 | after the visits, each file's set holds exactly the units of that file |
| Initializer.Combined | tool/initializer.cpp:58-64 | the combined set is sorted and holds exactly what some file's set holds |
| Initializer.Finalize | tool/initializer.cpp:56-69 | finalize appends, after the existing definitions, each distinct unit of any file once, in ascending byte order |
| Initializer.SeedSpec | tool/initializer.cpp:19-69 | seeding appends, once each and in strictly ascending order, exactly the units found in the files, each a whole UTF-8 unit of 1 to 4 bytes |
| Initializer.Seed | tool/initializer.cpp:19-69 | seeding keeps the configuration and the definitions already there, and appends the new ones in ascending byte order |
| PairCounter.PackUnpack | tool/pair_counter.cpp:56 | the key l | r<<16 is inverted exactly by the mask and shift of getHighestFrequencyPair, both ways |
| PairCounter.Pack | tool/pair_counter.cpp:56 | the left ID is the low 16 bits of the key and the right ID the bits above them |
| PairCounter.Unpack | tool/pair_counter.cpp:87-88 | the two halves read back out of a key pack to that same key |
| PairCounter.IsAlphaDef | tool/pair_counter.cpp:102-107 | a definition counted as alphabetic is non-empty and starts with an ASCII byte |
| PairCounter.Eligible | tool/pair_counter.cpp:47-54 | a pair is counted exactly when neither ID is 0xFFFF and both name definitions in the vocabulary that start with a letter |
| PairCounter.Throws | tool/pair_counter.cpp:47-54 | `at` throws exactly when neither ID is 0xFFFF and the left ID is past the vocabulary, or the left definition starts with a letter and the right ID is past the vocabulary, since the logical or short-circuits |
| PairCounter.Check | tool/pair_counter.cpp:47-54 | a pair is skipped exactly when it holds the unknown ID, or the left definition exists and is not alphabetic, or both exist and only the left one is alphabetic; Throws and Eligible give the other two verdicts |
| PairCounter.PairsIn | tool/pair_counter.cpp:42-63 | a key is counted at most once per adjacent position |
| PairCounter.CountedPairsOccur | tool/pair_counter.cpp:42-63 | a pair is counted only if it is eligible and occurs at adjacent positions |
| PairCounter.CountPairs | tool/pair_counter.cpp:42-63 | counting fails exactly when some adjacent pair makes `at` throw; otherwise each key's count grows by the number of adjacent positions holding that eligible pair |
| PairCounter.CountAt | tool/pair_counter.cpp:42-63 | one position: it fails exactly when its pair makes `at` throw, and otherwise the counts cover the positions up to and including it |
| PairCounter.Prepare | tool/pair_counter.cpp:23-34 | prepare empties every per-file table and counts against the current definitions |
| PairCounter.VisitFile | tool/pair_counter.cpp:36-64 | the visit reads past the text exactly when encoding would, and otherwise throws exactly when the encoding holds a pair on which `at` throws; else the file's table gains the adjacent eligible pairs of its encoding and other files' tables stay |
| PairCounter.Merge | tool/pair_counter.cpp:70-78 | merging one file's table adds its count to every key |
| PairCounter.MergeAllTotal | tool/pair_counter.cpp:66-79 | the combined count of a key is the sum of its per-file counts |
| PairCounter.TotalAppend | tool/pair_counter.cpp:70-78 | the sum over two lists of files is the sum of the two sums |
| PairCounter.MergeOrderIndependent | tool/pair_counter.cpp:66-79 | the combined counts do not depend on the order of the files |
| PairCounter.Finalize | tool/pair_counter.cpp:66-79 | after finalize each key's count is the sum over the files |
| PairCounter.ConsiderStep | tool/pair_counter.cpp:85-91 | taking the next larger key keeps the best of the keys seen, with ties going to the earlier key |
| PairCounter.ScanStep | tool/pair_counter.cpp:85-91 | one step of the ascending scan keeps its invariant |
| PairCounter.ScanDone | tool/pair_counter.cpp:85-93 | when every key is seen, the result is the highest pair |
| PairCounter.MinKey | tool/pair_counter.cpp:85 | the next key of the ascending scan is the smallest remaining one |
| PairCounter.ScanFinds | tool/pair_counter.cpp:81-94 | the scan over the remaining keys ends with a highest pair |
| PairCounter.GetHighest | tool/pair_counter.cpp:81-94 | the result has a maximal count, ties go to the smallest packed key, and with no pair it is count 0 with left and right 0 |
| Training.TotalIsCorpusCount | tool/pair_counter.cpp:40-79 | the per-file counts add up to the count of the pair over the whole corpus |
| Training.CountedIsEligible | tool/pair_counter.cpp:47-54 | a pair counted anywhere in the corpus names two alphabetic definitions |
| Training.VisitAll | tool/pair_counter.cpp:36-64 | the loop is undefined exactly when some encoding would read past its text; otherwise it throws exactly when some file's encoding holds a pair on which `at` throws; else each file is visited once and its table holds its own pairs |
| Training.CountRound | tool/main.cpp:67-69 | one pass of the pair counter gives the error of the vocabulary parse, or a read past a file's text, or an out_of_range throw exactly when some file's encoding holds a pair on which `at` throws, or else each key's corpus count |
| Training.MergedAppend | tool/main.cpp:74-76 | appending the concatenation of two alphabetic definitions keeps every new definition a merge of two earlier ones |
| Training.MergeRound | tool/main.cpp:63-76 | a round aborts on a failed parse, is undefined on a read past a text, ends with out_of_range exactly when a pair makes `at` throw, stops with success when no pair occurs more than once, and else appends exactly the concatenation of the most frequent eligible pair's definitions |
| Training.MergeLoop | tool/main.cpp:63-95 | the loop only appends merges, never passes the target size and never exits with failure; each early stop has the cause of its round, and a seed whose first round throws ends at once with out_of_range |
| Training.HighestBounds | tool/pair_counter.cpp:81-94 | the highest pair's count bounds every key's count, and no key with the same count is smaller |
| Training.Train | tool/main.cpp:41-97 | a bad filter configuration aborts, an empty seed exits with failure, a seed already at the target is written unchanged, and the merge path returns without writing the trained vocabulary, ending with out_of_range on the seed when its first round throws; the corpus is the file set's texts, already filtered once |
| Training.TrainAndSave | tool/main.cpp:52-97 | the trained vocabulary is written exactly when the tool succeeds, in its text form, after only merges that stay within the target size; a first round that throws ends with out_of_range and writes nothing |
| Training.NewlineConfigAccepted | src/filter.c:67-146 | the configuration "x\nq" is accepted with every flag off, its one key being unknown |
| Training.SeedOfAb | tool/initializer.cpp:19-69 | the one file "ab" seeds the vocabulary with "a", "b" |
| Training.NewlineConfigThrows | tool/pair_counter.cpp:40-54 | with that configuration and that file, the written vocabulary's extra line shifts every ID up by one, the pair counter's encoder reads "ab" as IDs 1 and 2, and `at(2)` throws |
| Training.NewlineConfigRun | tool/main.cpp:41-69 | the tool on the configuration "x\nq", the one file "ab" and a target of 10 tokens ends with out_of_range and writes nothing |
| Dataset.ParseSizeSpec | src/train/dataset.c:63-83 | parse_size reads the 11 bytes as an octal number, and gives 0 when any of them is not '0'-'7' |
| Dataset.ParseSize | src/train/dataset.c:63-83 | a size other than 0 was read from 11 octal digits |
| Dataset.OctalDigits | src/train/dataset.c:63-83 | a size field written by a tar writer has the given width and only octal digits |
| Dataset.OctalDigitsValue | src/train/dataset.c:63-83 | the digits written for a number read back as that number modulo 8 to the width |
| Dataset.SizeRoundTrip | src/train/dataset.c:63-83 | a size below 8^11 written as 11 octal digits is read back as itself |
| Dataset.BatchesSpec | src/train/dataset.c:171-184 | batching keeps the jobs and their order, no batch is empty or larger than the thread count, and every batch but the last is full |
| Dataset.WalkFromIsBatched | src/train/dataset.c:135-184 | the walk hands out the scanned jobs in batches after the pending ones, and an error drops the partial batch |
| Dataset.Scan | src/train/dataset.c:135-184 | the scan of the headers ends in success or FILE_IO, and each job it finds has a non-zero size, file index 0 and data after the header it started at |
| Dataset.WalkFrom | src/train/dataset.c:135-184 | the walk loop ends in success or FILE_IO, and every batch it hands out holds between 1 and max_threads jobs |
| Dataset.WalkSpec | src/train/dataset.c:109-189 | the batches concatenate to the archive's regular entries in order, all of them on success and those of the full batches on error; no batch is empty or larger than max_threads, and all but the last are full |
| Dataset.WalkArchive | src/train/dataset.c:109-189 | the walk ends with FILE_NOT_FOUND, handing out nothing, exactly when there is no archive, and no batch is empty or larger than max_threads |
| Dataset.FailureDropsAll | src/train/dataset.c:144-154 | a failing walk over fewer regular entries than max_threads hands out nothing |
| Dataset.ZeroBlockFails | src/train/dataset.c:144-148 | a zero header block, like those that close an archive, has no magic, so the walk stops there with FILE_IO |
| Dataset.NextHeaderAligned | src/train/dataset.c:156-177 | the next header is strictly further on, at the same offset modulo 512 |
| Dataset.ScanJobs | src/train/dataset.c:135-180 | every job comes from a regular entry with the magic and a non-zero size whose header sits just before the data, with file index 0; data offsets strictly increase and are aligned to blocks |

## Left out

- Loading files: `toke_encoder_load_vocab`, `toke_decoder_load_vocab` and
  the directory walk of `tool/file_set.cpp` are not part of this model.
  Vocabulary texts are given as byte strings, and corpus files as the texts
  the file set hands on, after its own filter pass (see `Training.Train`).
- The memory map: `src/train/memmap_unix.c` is not part of this model. An
  archive is an immutable byte string, or `None` when no file is open.
- Allocation: `malloc`, `realloc` and `free`, `free_trie`, and every
  TOKE_ERROR_MEMORY_ALLOCATION path. Allocation is taken to succeed.
- Parallelism: OpenMP `run_jobs` in `src/train/dataset.c` and the parallel
  loop of `tool/file_set.cpp`.
  - Jobs are modelled as batches handed to the walker, and files are visited
    in order.
  - Per-file tables make the results independent of the order
    (`PairCounter.MergeOrderIndependent`).
- The walker callback of the archive walk. A batch is the list of jobs
  dispatched together.
- Console output and timing: the `printf` calls of `src/train/dataset.c`, and
  the iostream, chrono and floating-point remaining-time report in
  `tool/main.cpp`.
- Command-line parsing (`tool/options.cpp`).
- Error message strings (`src/error.c`).
- `include/toke/normalizer.h`, which has no implementation.
- The language bindings and the C++ wrappers over the C API. The one effect
  the training tool depends on is that a wrapper throws on a failed parse. It
  is modelled as an `Aborted` exit.
- The prototypes in `include/toke/train/dataset.h`, which differ from the
  definitions in `src/train/dataset.c`. The definitions are modelled.
- `Dataset.WalkArchive`: requires `max_threads` > 0. With 0 the source writes
  past its empty job array.
- `Training.Train`, with `Training.TrainAndSave` and `Initializer.Seed`: the
  corpus `files` are the texts the file set hands to its visitors, that is
  each file after `filter.filter(buffer)` in `openFile`
  (`tool/file_set.cpp:79`), which `buildCache` applies to every file. The
  tool therefore filters each file twice: once in the file set and once in
  the pair counter's encoder. The first pass is not part of this model, and
  neither is its read past a file whose last UTF-8 unit is cut short. With
  lowercase, normalize_tabs or restricted_ascii alone the second pass
  changes nothing (`FilterLaws.LowercaseIdempotent`,
  `FilterLaws.TabsIdempotent`, `FilterLaws.RestrictedIdempotent`). Raw
  file contents given as `files` seed a different vocabulary from the
  tool's under a filter that changes them.
- `Encoder.ParseVocab`, with `Encoder.LineStep`, `Encoder.ParseFrom` and
  `Encoder.ParseLine`: the parse reads a "filter" line without ':' with the
  corrected directive `Encoder.Directive`, which installs a filter with every
  flag off. The code hands the configuration parser the lines that follow,
  so on `#filter\nx,=\n` it stops with FILTER_SYNTAX where the model
  succeeds (`Encoder.FilterWithoutColonParsed`), and on a last line `#filter` it reads past the vocabulary.
  `Encoder.DirectiveAsWritten` models that line as written, and
  `Encoder.DirectiveCorrection` proves the two directives agree on every
  other line.
- `Model.Compare`: returns memcmp's sign as -1, 0 or 1 where the source
  passes on memcmp's own value. `qsort` and `bsearch` use only the sign.
- `PairCounter.IsAlphaDef`: treats an empty definition as not alphabetic,
  where the source reads its first byte. Definitions are never empty after
  seeding.
- `Filter.Apply`: returns `None` where a truncated final unit makes the
  source read past its buffers, instead of modelling the bytes read. On a
  truncated unit, restricted ASCII consumes past the end and ends the loop
  without reading, as in the source.
- `Encoder.Encode`: returns `None` where the filter would read past the text.
  The model then gives no tokens at all.
- `Model.AddToken`: the source appends and re-sorts the whole array with
  `qsort`. The model inserts in place. `Model.SortedUnique` proves that the two
  give the same array.
- `Training.MergeLoop`: stops with `Undefined` where encoding a file would read
  past its text, and says nothing about what the tool does after that. A round
  where one file reads past its text and another makes `at` throw is
  `Undefined` too.

## Findings

| source | as written | input that shows it | evidently intended | confidence | as-written member | corrected member |
|---|---|---|---|---|---|---|
| src/encoder.c:202-215 | a directive line without ':' gets the value length size - (size + 1), which wraps to SIZE_MAX, and a "filter" directive passes that length to the configuration parser, which reads on through the lines that follow and either stops with FILTER_SYNTAX in one of them or reads past the vocabulary | the vocabulary `#filter` as its last line | a filter line without ':' has an empty configuration | not executed | Encoder.DirectiveAsWritten | Encoder.Directive |
| tool/main.cpp:54-97 | the vocabulary is written to the output file only when the seed already meets the target; after the merge loop the tool returns EXIT_SUCCESS without writing the vocabulary it trained | an empty filter configuration, one corpus file `abab` and a target of 10 tokens: the seed is `a`, `b`, one round adds `ab`, the next finds no pair twice and stops | the trained vocabulary is written when the tool succeeds | not executed | Training.Train | Training.TrainAndSave |

=== FILE: bytes.dfy ===
/** Byte strings and the byte-level helpers the C sources use everywhere:
    bounded searches for one byte, and splitting text into '\n'-terminated lines. */
module Bytes {

  type byte = x: int | 0 <= x < 0x100
  type uint16 = x: int | 0 <= x < 0x1_0000
  type uint32 = x: int | 0 <= x < 0x1_0000_0000

  const TAB: byte := 0x09
  const LF: byte := 0x0A
  const CR: byte := 0x0D
  const SPACE: byte := 0x20
  const HASH: byte := 0x23
  const COMMA: byte := 0x2C
  const COLON: byte := 0x3A
  const EQUALS: byte := 0x3D
  const BACKSLASH: byte := 0x5C
  const DEL: byte := 0x7F

  /** The index of the first `c` in `s` at or after `from`, or `|s|` when there
      is none (find_char in src/filter.c; line_length and find_line_size in
      src/encoder.c are the same search for '\n'). */
  function Find(s: seq<byte>, from: nat, c: byte): (r: nat)
    ensures r <= |s|
    ensures from <= |s| ==> from <= r
    ensures r < |s| ==> s[r] == c
    decreases |s| - from
  {
    if from >= |s| then |s|
    else if s[from] == c then from
    else Find(s, from + 1, c)
  }

  /** No `c` lies between `from` and what Find finds: it finds the first one. */
  lemma {:induction false} FindSkips(s: seq<byte>, from: nat, c: byte)
    ensures forall i | from <= i < Find(s, from, c) :: s[i] != c
    decreases |s| - from
  {
    if from < |s| && s[from] != c {
      FindSkips(s, from + 1, c);
    }
  }

  /** The first `c` at or after `from` is what Find finds. */
  lemma {:induction false} FindFirst(s: seq<byte>, from: nat, c: byte, r: nat)
    requires from <= r < |s| && s[r] == c
    requires forall i | from <= i < r :: s[i] != c
    ensures Find(s, from, c) == r
    decreases r - from
  {
    if from < r {
      FindFirst(s, from + 1, c, r);
    }
  }

  /** Find stops at the latest at any `c` at or after `from`. */
  lemma {:induction false} FindAtMost(s: seq<byte>, from: nat, c: byte, r: nat)
    requires from <= r < |s| && s[r] == c
    ensures Find(s, from, c) <= r
    decreases r - from
  {
    if from < r && s[from] != c {
      FindAtMost(s, from + 1, c, r);
    }
  }

  /** Searching a slice finds what searching the whole finds, when that lies inside the slice. */
  lemma FindInSlice(s: seq<byte>, a: nat, b: nat, c: byte)
    requires a <= b <= |s|
    ensures Find(s[a..b], 0, c) == (if Find(s, a, c) < b then Find(s, a, c) - a else b - a)
  {
    var k := Find(s, a, c);
    var k' := Find(s[a..b], 0, c);
    FindSkips(s, a, c);
    FindSkips(s[a..b], 0, c);
    assert forall i | 0 <= i < b - a :: s[a..b][i] == s[a + i];
    assert forall i | 0 <= i < k - a && i < b - a :: s[a..b][i] != c;
    if k < b {
      assert s[a..b][k - a] == c;
    }
  }

  /** The lines of a text: every '\n'-terminated piece, plus a final
      unterminated piece when it is non-empty (so a trailing '\n' adds no empty
      line). */
  function Lines(text: seq<byte>): (r: seq<seq<byte>>)
    ensures |r| <= |text|
    decreases |text|
  {
    if |text| == 0 then []
    else
      var n := Find(text, 0, LF);
      if n == |text| then [text]
      else [text[..n]] + Lines(text[n + 1..])
  }

  /** No line holds a '\n'. */
  lemma {:induction false} LinesHaveNoNewline(text: seq<byte>)
    ensures forall i | 0 <= i < |Lines(text)| :: LF !in Lines(text)[i]
    decreases |text|
  {
    if |text| > 0 {
      var n := Find(text, 0, LF);
      FindSkips(text, 0, LF);
      assert LF !in text[..n];
      if n < |text| {
        LinesHaveNoNewline(text[n + 1..]);
        assert Lines(text) == [text[..n]] + Lines(text[n + 1..]);
      }
    }
  }

  /** The lines from offset `start`, as the line loops of src/encoder.c and
      src/decoder.c walk them: a line runs to the next '\n' or to the end. */
  function LinesFrom(text: seq<byte>, start: nat): seq<seq<byte>>
    decreases |text| - start, 1
  {
    if start >= |text| then [] else LineAndRest(text, start)
  }

  /** The line at `start` and the lines after it. */
  function LineAndRest(text: seq<byte>, start: nat): seq<seq<byte>>
    requires start < |text|
    decreases |text| - start, 0
  {
    var end := Find(text, start, LF);
    [text[start..end]] + LinesFrom(text, end + 1)
  }

  lemma {:induction false} LinesFromIsLines(text: seq<byte>, start: nat)
    requires start <= |text|
    ensures LinesFrom(text, start) == Lines(text[start..])
    decreases |text| - start
  {
    if start < |text| {
      var end := Find(text, start, LF);
      if end < |text| {
        LinesFromIsLines(text, end + 1);
        LineThenRest(text, start);
      } else {
        LastLine(text, start);
      }
    }
  }

  /** A '\n'-terminated line read both ways, given that the two agree after it. */
  lemma LineThenRest(text: seq<byte>, start: nat)
    requires start < |text| && Find(text, start, LF) < |text|
    requires LinesFrom(text, Find(text, start, LF) + 1) == Lines(text[Find(text, start, LF) + 1..])
    ensures LinesFrom(text, start) == Lines(text[start..])
  {
    var end := Find(text, start, LF);
    LinesStep(text, start);
    LinesFromStep(text, start);
  }

  /** An unterminated last line read both ways. */
  lemma LastLine(text: seq<byte>, start: nat)
    requires start < |text| && Find(text, start, LF) == |text|
    ensures LinesFrom(text, start) == Lines(text[start..])
  {
    LinesStep(text, start);
    LinesFromStep(text, start);
    assert LinesFrom(text, |text| + 1) == [];
    assert text[start..|text|] == text[start..];
  }

  lemma LinesFromStep(text: seq<byte>, start: nat)
    requires start < |text|
    ensures LinesFrom(text, start) == [text[start..Find(text, start, LF)]] + LinesFrom(text, Find(text, start, LF) + 1)
  {
  }

  /** The first line of a suffix, and the lines after it. */
  lemma LinesStep(text: seq<byte>, start: nat)
    requires start < |text|
    ensures var end := Find(text, start, LF);
      Lines(text[start..]) ==
        if end < |text| then [text[start..end]] + Lines(text[end + 1..]) else [text[start..]]
  {
    var end := Find(text, start, LF);
    var s := text[start..];
    FindInSuffix(text, start, LF);
    var n := Find(s, 0, LF);
    assert n == end - start;
    if end < |text| {
      assert Lines(s) == [s[..n]] + Lines(s[n + 1..]);
      SuffixSlices(text, start, n);
    } else {
      assert Lines(s) == [s];
    }
  }

  lemma FindInSuffix(text: seq<byte>, start: nat, c: byte)
    requires start <= |text|
    ensures Find(text[start..], 0, c) == Find(text, start, c) - start
  {
    assert text[start..] == text[start..|text|];
    FindInSlice(text, start, |text|, c);
  }

  lemma SuffixSlices(text: seq<byte>, start: nat, n: nat)
    requires start + n < |text|
    ensures text[start..][..n] == text[start..start + n]
    ensures text[start..][n + 1..] == text[start + n + 1..]
  {
  }

  lemma {:induction false} LinesOfLine(a: seq<byte>, rest: seq<byte>)
    requires LF !in a
    ensures Lines(a + [LF] + rest) == [a] + Lines(rest)
  {
    var t := a + [LF] + rest;
    FindPastPrefix(t, a);
    assert t[|a|] == LF;
    FindAtMost(t, 0, LF, |a|);
    assert t[..|a|] == a;
    assert t[|a| + 1..] == rest;
  }

  lemma {:induction false} LinesOfLastLine(a: seq<byte>)
    requires LF !in a
    requires a != []
    ensures Lines(a) == [a]
  {
    FindPastPrefix(a, a);
  }

  /** Searching for '\n' from 0 skips a '\n'-free prefix. */
  lemma FindPastPrefix(t: seq<byte>, a: seq<byte>)
    requires a <= t
    requires LF !in a
    ensures Find(t, 0, LF) >= |a|
  {
    assert forall i | 0 <= i < |a| :: t[i] == a[i] && t[i] != LF;
  }

  lemma PrefixOfSlice(s: seq<byte>, a: nat, b: nat, j: nat)
    requires a <= b <= |s| && j <= b - a
    ensures s[a..b][..j] == s[a..a + j]
  {
    assert forall k | 0 <= k < j :: s[a..b][..j][k] == s[a..a + j][k];
  }

  lemma SuffixOfSlice(s: seq<byte>, a: nat, b: nat, i: nat)
    requires a <= b <= |s| && i <= b - a
    ensures s[a..b][i..] == s[a + i..b]
  {
    assert forall k | 0 <= k < b - a - i :: s[a..b][i..][k] == s[a + i..b][k];
  }

  lemma NotInAppend(a: seq<byte>, b: seq<byte>, c: byte)
    requires c !in a && c !in b
    ensures c !in a + b
  {
    assert forall i | 0 <= i < |a + b| :: (a + b)[i] == if i < |a| then a[i] else b[i - |a|];
  }

  /** The concatenation of a sequence of byte strings. */
  function Flatten(ss: seq<seq<byte>>): seq<byte>
  {
    if |ss| == 0 then [] else ss[0] + Flatten(ss[1..])
  }

  lemma {:induction false} FlattenAppend(a: seq<seq<byte>>, b: seq<seq<byte>>)
    ensures Flatten(a + b) == Flatten(a) + Flatten(b)
    decreases |a|
  {
    if |a| == 0 {
      assert a + b == b;
    } else {
      assert (a + b)[1..] == a[1..] + b;
      FlattenAppend(a[1..], b);
    }
  }
}

=== FILE: dataset.dfy ===
/** The archive walk of src/train/dataset.c: the corpus is one POSIX ustar
    archive (the "ustar Interchange Format" of IEEE Std 1003.1), read header
    block by header block; every regular entry becomes a job (where its data
    starts, its size, a file index), and jobs are handed out in batches of
    `max_threads`. The walker callback and the parallel loop that runs a
    batch are not modelled: a batch is the sequence of jobs dispatched
    together. */
module Dataset {
  import opened Wrappers
  import opened Bytes

  const BLOCK_SIZE: nat := 512
  /** Where the size field, the type flag and the magic sit in a header. */
  const SIZE_OFFSET: nat := 124
  const SIZE_DIGITS: nat := 11
  const TYPE_OFFSET: nat := 156
  const MAGIC_OFFSET: nat := 257
  /** "ustar" and its terminating NUL. */
  const TAR_MAGIC: seq<byte> := [0x75, 0x73, 0x74, 0x61, 0x72, 0x00]

  const ZERO: byte := 0x30

  predicate IsOctal(b: byte)
  {
    ZERO <= b <= ZERO + 7
  }

  predicate AllOctal(digits: seq<byte>)
  {
    forall i | 0 <= i < |digits| :: IsOctal(digits[i])
  }

  /** The value of a string of octal digits, most significant first. */
  function OctalValue(digits: seq<byte>): nat
    requires AllOctal(digits)
    decreases |digits|
  {
    if |digits| == 0 then 0
    else OctalValue(digits[..|digits| - 1]) * 8 + (digits[|digits| - 1] - ZERO)
  }

  /** parse_size's loop from digit `i` on, with `acc` read so far: a byte
      other than '0' to '7' makes the whole result 0. Any byte outside that
      range gives a digit value outside 0 to 7 whether `char` is signed or
      not, so the test is a plain range test. */
  function ParseSizeFrom(field: seq<byte>, i: nat, acc: nat): (r: nat)
    requires i <= SIZE_DIGITS <= |field|
    ensures r != 0 ==> forall j | i <= j < SIZE_DIGITS :: IsOctal(field[j])
    decreases SIZE_DIGITS - i
  {
    if i == SIZE_DIGITS then acc
    else if !IsOctal(field[i]) then 0
    else ParseSizeFrom(field, i + 1, acc * 8 + (field[i] - ZERO))
  }

  /** parse_size: the 11 octal digits at the start of `field`. A size other
      than 0 was read from 11 octal digits. */
  function ParseSize(field: seq<byte>): (r: nat)
    requires SIZE_DIGITS <= |field|
    ensures r != 0 ==> AllOctal(field[..SIZE_DIGITS])
  {
    ParseSizeFrom(field, 0, 0)
  }

  lemma {:induction false} ParseSizeFromValue(field: seq<byte>, i: nat)
    requires i <= SIZE_DIGITS <= |field| && AllOctal(field[..i])
    ensures ParseSizeFrom(field, i, OctalValue(field[..i])) ==
      if AllOctal(field[..SIZE_DIGITS]) then OctalValue(field[..SIZE_DIGITS]) else 0
    decreases SIZE_DIGITS - i
  {
    if i < SIZE_DIGITS {
      if IsOctal(field[i]) {
        assert field[..i + 1][..i] == field[..i];
        ParseSizeFromValue(field, i + 1);
      } else {
        assert field[..SIZE_DIGITS][i] == field[i];
      }
    }
  }

  /** parse_size reads the 11 digits as an octal number, and returns 0 as
      soon as one of them is not an octal digit. */
  lemma ParseSizeSpec(field: seq<byte>)
    requires SIZE_DIGITS <= |field|
    ensures AllOctal(field[..SIZE_DIGITS]) ==> ParseSize(field) == OctalValue(field[..SIZE_DIGITS])
    ensures !AllOctal(field[..SIZE_DIGITS]) ==> ParseSize(field) == 0
  {
    ParseSizeFromValue(field, 0);
  }

  function Pow8(n: nat): (r: nat)
    ensures r > 0
  {
    if n == 0 then 1 else 8 * Pow8(n - 1)
  }

  /** The `width` lowest octal digits of `n`, most significant first, as a
      tar writer fills the size field. */
  function OctalDigits(n: nat, width: nat): (r: seq<byte>)
    ensures |r| == width && AllOctal(r)
  {
    if width == 0 then [] else OctalDigits(n / 8, width - 1) + [ZERO + n % 8]
  }

  lemma DivMod(n: nat, p: nat)
    requires p > 0
    ensures (n / 8) % p * 8 + n % 8 == n % (8 * p)
  {
    var q, r := n / 8, n % 8;
    var a, b := q / p, q % p;
    assert n == 8 * p * a + (8 * b + r);
    ModUnique(n, 8 * p, a, 8 * b + r);
  }

  lemma ModUnique(n: nat, m: nat, a: nat, c: nat)
    requires m > 0 && c < m && n == m * a + c
    ensures n % m == c
  {
    var q, r := n / m, n % m;
    var d: int := a - q;
    assert m * d == m * a - m * q;
    MultipleBound(m, d);
  }

  /** A non-zero multiple of `m` is at least `m` away from 0. */
  lemma MultipleBound(m: int, d: int)
    requires m > 0
    ensures d == 0 || m * d >= m || m * d <= -m
  {
    if d > 0 {
      assert m * d == m + m * (d - 1);
    } else if d < 0 {
      assert m * d == -m - m * (-d - 1);
    }
  }

  lemma {:induction false} OctalDigitsValue(n: nat, width: nat)
    ensures OctalValue(OctalDigits(n, width)) == n % Pow8(width)
  {
    if width > 0 {
      var d := OctalDigits(n, width);
      assert d[..width - 1] == OctalDigits(n / 8, width - 1);
      OctalDigitsValue(n / 8, width - 1);
      DivMod(n, Pow8(width - 1));
    }
  }

  /** A size written as 11 octal digits reads back as itself. */
  lemma SizeRoundTrip(n: nat)
    requires n < Pow8(SIZE_DIGITS)
    ensures ParseSize(OctalDigits(n, SIZE_DIGITS)) == n
  {
    var d := OctalDigits(n, SIZE_DIGITS);
    assert d[..SIZE_DIGITS] == d;
    ParseSizeSpec(d);
    assert ParseSize(d) == OctalValue(d);
    OctalDigitsValue(n, SIZE_DIGITS);
    ModSmall(n, Pow8(SIZE_DIGITS));
  }

  /** A job: where the entry's data starts in the archive, how many bytes
      it has, and the file index handed to the walker. Nothing checks that
      the data lies within the archive. */
  datatype Job = Job(text: nat, size: nat, fileIndex: nat)

  predicate HasMagic(header: seq<byte>)
    requires |header| == BLOCK_SIZE
  {
    header[MAGIC_OFFSET..MAGIC_OFFSET + |TAR_MAGIC|] == TAR_MAGIC
  }

  /** Type flag NUL or '0': a regular file. */
  predicate IsRegular(header: seq<byte>)
    requires |header| == BLOCK_SIZE
  {
    header[TYPE_OFFSET] == 0 || header[TYPE_OFFSET] == ZERO
  }

  function EntrySize(header: seq<byte>): nat
    requires |header| == BLOCK_SIZE
  {
    ParseSize(header[SIZE_OFFSET..])
  }

  /** The header after one holding `size` bytes of data: one header block
      and the data rounded up to whole blocks. */
  function NextHeader(offset: nat, size: nat): nat
  {
    offset + (1 + (size + BLOCK_SIZE - 1) / BLOCK_SIZE) * BLOCK_SIZE
  }

  /** The walk without batches: the jobs of the regular entries from the
      header at `offset` on, in archive order, and how the walk ends. */
  function Scan(archive: seq<byte>, offset: nat): (r: (seq<Job>, Outcome))
    ensures r.1 == Pass || r.1 == Fail(FileIo)
    ensures forall i | 0 <= i < |r.0| :: offset + BLOCK_SIZE <= r.0[i].text && 0 < r.0[i].size && r.0[i].fileIndex == 0
    decreases |archive| - offset
  {
    if offset + BLOCK_SIZE > |archive| then ([], Pass)
    else
      var header := archive[offset..offset + BLOCK_SIZE];
      if !HasMagic(header) then ([], Fail(FileIo))
      else
        var size := EntrySize(header);
        if size == 0 then ([], Fail(FileIo))
        else
          var rest := Scan(archive, NextHeader(offset, size));
          if IsRegular(header) then ([Job(offset + BLOCK_SIZE, size, 0)] + rest.0, rest.1)
          else rest
  }

  /** The walk's result: the batches handed to the walker, and the status. */
  datatype Walk = Walk(batches: seq<seq<Job>>, outcome: Outcome)

  /** toke_dataset_walk's loop from the header at `offset`, with `pending`
      the jobs of the batch being filled. A full batch is dispatched at
      once; the last, partial one only when the loop ends without error. */
  function WalkFrom(archive: seq<byte>, maxThreads: nat, offset: nat, pending: seq<Job>): (r: Walk)
    requires 0 < maxThreads && |pending| < maxThreads
    ensures r.outcome == Pass || r.outcome == Fail(FileIo)
    ensures forall i | 0 <= i < |r.batches| :: 0 < |r.batches[i]| <= maxThreads
    decreases |archive| - offset
  {
    if offset + BLOCK_SIZE > |archive| then
      Walk(if |pending| > 0 then [pending] else [], Pass)
    else
      var header := archive[offset..offset + BLOCK_SIZE];
      if !HasMagic(header) then Walk([], Fail(FileIo))
      else
        var size := EntrySize(header);
        if size == 0 then Walk([], Fail(FileIo))
        else
          var next := NextHeader(offset, size);
          if IsRegular(header) then
            var filled := pending + [Job(offset + BLOCK_SIZE, size, 0)];
            if |filled| == maxThreads then
              var rest := WalkFrom(archive, maxThreads, next, []);
              Walk([filled] + rest.batches, rest.outcome)
            else WalkFrom(archive, maxThreads, next, filled)
          else WalkFrom(archive, maxThreads, next, pending)
  }

  /** toke_dataset_walk. `archive` is `None` when no file is open or it
      could not be mapped. A `max_threads` of 0 would make the source write
      past its job array, so it is required positive. The walk ends with
      FILE_NOT_FOUND, handing out nothing, exactly when there is no archive;
      no batch is empty or larger than `max_threads`. */
  function WalkArchive(archive: Option<seq<byte>>, maxThreads: nat): (r: Walk)
    requires 0 < maxThreads
    ensures r.outcome == Fail(FileNotFound) <==> archive.None?
    ensures archive.None? ==> r.batches == []
    ensures forall i | 0 <= i < |r.batches| :: 0 < |r.batches[i]| <= maxThreads
  {
    if archive.None? then Walk([], Fail(FileNotFound))
    else WalkFrom(archive.value, maxThreads, 0, [])
  }

  /** Jobs cut into batches of `n`, the last one possibly shorter. */
  function Batches(jobs: seq<Job>, n: nat): seq<seq<Job>>
    requires 0 < n
    decreases |jobs|
  {
    if |jobs| == 0 then []
    else if |jobs| <= n then [jobs]
    else [jobs[..n]] + Batches(jobs[n..], n)
  }

  /** The jobs of the full batches only. */
  function FullBatches(jobs: seq<Job>, n: nat): seq<Job>
    requires 0 < n
  {
    jobs[..|jobs| - |jobs| % n]
  }

  function Joined(batches: seq<seq<Job>>): seq<Job>
  {
    if |batches| == 0 then [] else batches[0] + Joined(batches[1..])
  }

  /** Batching keeps the jobs and their order, and every batch but the last
      is full. */
  lemma {:induction false} BatchesSpec(jobs: seq<Job>, n: nat)
    requires 0 < n
    ensures Joined(Batches(jobs, n)) == jobs
    ensures forall i | 0 <= i < |Batches(jobs, n)| :: 0 < |Batches(jobs, n)[i]| <= n
    ensures forall i | 0 <= i < |Batches(jobs, n)| - 1 :: |Batches(jobs, n)[i]| == n
    decreases |jobs|
  {
    if |jobs| > n {
      BatchesSpec(jobs[n..], n);
      var b := Batches(jobs, n);
      assert b[1..] == Batches(jobs[n..], n);
      assert jobs[..n] + jobs[n..] == jobs;
    }
  }

  /** A full batch in front of the rest. */
  lemma BatchesFull(p: seq<Job>, jobs: seq<Job>, n: nat)
    requires 0 < n && |p| == n
    ensures Batches(p + jobs, n) == [p] + Batches(jobs, n)
    ensures FullBatches(p + jobs, n) == p + FullBatches(jobs, n)
  {
    assert (p + jobs)[..n] == p && (p + jobs)[n..] == jobs;
    ModUnique(|p + jobs|, n, 1 + |jobs| / n, |jobs| % n);
    assert (p + jobs)[..|p + jobs| - |p + jobs| % n] == p + jobs[..|jobs| - |jobs| % n];
  }

  lemma ModSmall(k: nat, n: nat)
    requires k < n
    ensures k % n == k
  {
  }

  /** The walk that hands out the jobs of `Scan`, batched by `maxThreads`
      after the pending ones; an error drops the partial batch. */
  ghost function Expected(archive: seq<byte>, maxThreads: nat, offset: nat, pending: seq<Job>): Walk
    requires 0 < maxThreads
  {
    var (jobs, outcome) := Scan(archive, offset);
    Walk(Batches(if outcome.Pass? then pending + jobs else FullBatches(pending + jobs, maxThreads), maxThreads), outcome)
  }

  ghost predicate Batched(archive: seq<byte>, maxThreads: nat, offset: nat, pending: seq<Job>)
    requires 0 < maxThreads && |pending| < maxThreads
  {
    WalkFrom(archive, maxThreads, offset, pending) == Expected(archive, maxThreads, offset, pending)
  }

  lemma {:induction false} WalkFromIsBatched(archive: seq<byte>, maxThreads: nat, offset: nat, pending: seq<Job>)
    requires 0 < maxThreads && |pending| < maxThreads
    ensures Batched(archive, maxThreads, offset, pending)
    decreases |archive| - offset
  {
    if !Proceeds(archive, offset) {
      StopStep(archive, maxThreads, offset, pending);
    } else {
      var header := archive[offset..offset + BLOCK_SIZE];
      var size := EntrySize(header);
      var next := NextHeader(offset, size);
      if !IsRegular(header) {
        WalkFromIsBatched(archive, maxThreads, next, pending);
        SkipStep(archive, maxThreads, offset, pending);
      } else if |pending| + 1 < maxThreads {
        WalkFromIsBatched(archive, maxThreads, next, pending + [Job(offset + BLOCK_SIZE, size, 0)]);
        AddStep(archive, maxThreads, offset, pending);
      } else {
        WalkFromIsBatched(archive, maxThreads, next, []);
        FullStep(archive, maxThreads, offset, pending);
      }
    }
  }

  /** The walk goes past the header at `offset`: it is whole, has the
      magic and a non-zero size. */
  predicate Proceeds(archive: seq<byte>, offset: nat)
  {
    && offset + BLOCK_SIZE <= |archive|
    && HasMagic(archive[offset..offset + BLOCK_SIZE])
    && EntrySize(archive[offset..offset + BLOCK_SIZE]) != 0
  }

  lemma StopStep(archive: seq<byte>, maxThreads: nat, offset: nat, pending: seq<Job>)
    requires 0 < maxThreads && |pending| < maxThreads
    requires !Proceeds(archive, offset)
    ensures Batched(archive, maxThreads, offset, pending)
  {
    ModSmall(|pending|, maxThreads);
    assert Scan(archive, offset).0 == [];
    assert pending + [] == pending;
  }

  lemma SkipStep(archive: seq<byte>, maxThreads: nat, offset: nat, pending: seq<Job>)
    requires 0 < maxThreads && |pending| < maxThreads
    requires Proceeds(archive, offset) && !IsRegular(archive[offset..offset + BLOCK_SIZE])
    requires Batched(archive, maxThreads, NextHeader(offset, EntrySize(archive[offset..offset + BLOCK_SIZE])), pending)
    ensures Batched(archive, maxThreads, offset, pending)
  {
  }

  lemma AddStep(archive: seq<byte>, maxThreads: nat, offset: nat, pending: seq<Job>)
    requires 0 < maxThreads && |pending| + 1 < maxThreads
    requires Proceeds(archive, offset) && IsRegular(archive[offset..offset + BLOCK_SIZE])
    requires var size := EntrySize(archive[offset..offset + BLOCK_SIZE]);
      Batched(archive, maxThreads, NextHeader(offset, size), pending + [Job(offset + BLOCK_SIZE, size, 0)])
    ensures Batched(archive, maxThreads, offset, pending)
  {
    RegularStep(archive, maxThreads, offset, pending);
    ExpectedRegular(archive, maxThreads, offset, pending);
  }

  lemma ExpectedRegular(archive: seq<byte>, maxThreads: nat, offset: nat, pending: seq<Job>)
    requires 0 < maxThreads
    requires Proceeds(archive, offset) && IsRegular(archive[offset..offset + BLOCK_SIZE])
    ensures var size := EntrySize(archive[offset..offset + BLOCK_SIZE]);
      Expected(archive, maxThreads, offset, pending) ==
        Expected(archive, maxThreads, NextHeader(offset, size), pending + [Job(offset + BLOCK_SIZE, size, 0)])
  {
    var size := EntrySize(archive[offset..offset + BLOCK_SIZE]);
    var job := Job(offset + BLOCK_SIZE, size, 0);
    var rest := Scan(archive, NextHeader(offset, size));
    assert Scan(archive, offset) == ([job] + rest.0, rest.1);
    assert pending + ([job] + rest.0) == (pending + [job]) + rest.0;
  }

  /** A regular entry is one more job for the scan, and one more pending
      job for the walk. */
  lemma RegularStep(archive: seq<byte>, maxThreads: nat, offset: nat, pending: seq<Job>)
    requires 0 < maxThreads && |pending| + 1 < maxThreads
    requires Proceeds(archive, offset) && IsRegular(archive[offset..offset + BLOCK_SIZE])
    ensures var size := EntrySize(archive[offset..offset + BLOCK_SIZE]);
      var next := NextHeader(offset, size);
      var job := Job(offset + BLOCK_SIZE, size, 0);
      && WalkFrom(archive, maxThreads, offset, pending) == WalkFrom(archive, maxThreads, next, pending + [job])
      && Scan(archive, offset) == ([job] + Scan(archive, next).0, Scan(archive, next).1)
  {
  }

  lemma FullStep(archive: seq<byte>, maxThreads: nat, offset: nat, pending: seq<Job>)
    requires 0 < maxThreads && |pending| + 1 == maxThreads
    requires Proceeds(archive, offset) && IsRegular(archive[offset..offset + BLOCK_SIZE])
    requires Batched(archive, maxThreads, NextHeader(offset, EntrySize(archive[offset..offset + BLOCK_SIZE])), [])
    ensures Batched(archive, maxThreads, offset, pending)
  {
    var size := EntrySize(archive[offset..offset + BLOCK_SIZE]);
    var rest := Scan(archive, NextHeader(offset, size));
    var filled := pending + [Job(offset + BLOCK_SIZE, size, 0)];
    assert pending + Scan(archive, offset).0 == filled + rest.0;
    assert [] + rest.0 == rest.0;
    BatchesFull(filled, rest.0, maxThreads);
  }

  /** The batches of a walk concatenate to the archive's regular entries
      in order, all of them when the walk succeeds and those of the full
      batches when it fails; no batch is empty or larger than
      `maxThreads`, and all but the last are full. */
  lemma WalkSpec(archive: seq<byte>, maxThreads: nat)
    requires 0 < maxThreads
    ensures var (jobs, outcome) := Scan(archive, 0);
      var w := WalkArchive(Some(archive), maxThreads);
      && w.outcome == outcome
      && (outcome.Pass? ==> Joined(w.batches) == jobs)
      && (outcome.Fail? ==> Joined(w.batches) == FullBatches(jobs, maxThreads))
      && (forall i | 0 <= i < |w.batches| :: 0 < |w.batches[i]| <= maxThreads)
      && (forall i | 0 <= i < |w.batches| - 1 :: |w.batches[i]| == maxThreads)
  {
    var scan := Scan(archive, 0);
    WalkFromIsBatched(archive, maxThreads, 0, []);
    assert [] + scan.0 == scan.0;
    BatchesSpec(if scan.1.Pass? then scan.0 else FullBatches(scan.0, maxThreads), maxThreads);
  }

  /** A failing walk over fewer regular entries than `maxThreads` hands
      out nothing at all. */
  lemma FailureDropsAll(archive: seq<byte>, maxThreads: nat)
    requires 0 < maxThreads
    requires Scan(archive, 0).1.Fail? && |Scan(archive, 0).0| < maxThreads
    ensures WalkArchive(Some(archive), maxThreads).batches == []
  {
    WalkFromIsBatched(archive, maxThreads, 0, []);
    ModSmall(|Scan(archive, 0).0|, maxThreads);
  }

  /** A header block of zeros, as the two that close every ustar archive,
      has no magic, so the walk stops there with FILE_IO. */
  lemma ZeroBlockFails(archive: seq<byte>, offset: nat)
    requires offset + BLOCK_SIZE <= |archive|
    requires forall i | offset <= i < offset + BLOCK_SIZE :: archive[i] == 0
    ensures Scan(archive, offset) == ([], Fail(FileIo))
  {
    var header := archive[offset..offset + BLOCK_SIZE];
    assert header[MAGIC_OFFSET] == 0;
  }

  /** A job the walk can produce from the header just before its data. */
  predicate FromHeader(archive: seq<byte>, job: Job)
  {
    && BLOCK_SIZE <= job.text <= |archive|
    && job.fileIndex == 0 && 0 < job.size
    && var header := archive[job.text - BLOCK_SIZE..job.text];
       HasMagic(header) && IsRegular(header) && job.size == EntrySize(header)
  }

  /** Jobs whose data starts at least one block past `offset`, each from
      its header. */
  predicate AfterFromHeaders(archive: seq<byte>, offset: nat, jobs: seq<Job>)
  {
    forall i | 0 <= i < |jobs| :: offset + BLOCK_SIZE <= jobs[i].text && FromHeader(archive, jobs[i])
  }

  predicate Aligned(jobs: seq<Job>)
  {
    forall i | 0 <= i < |jobs| :: jobs[i].text % BLOCK_SIZE == 0
  }

  predicate Increasing(jobs: seq<Job>)
  {
    forall i, j | 0 <= i < j < |jobs| :: jobs[i].text < jobs[j].text
  }

  /** The jobs of a walk from `offset`: from their headers, in strictly
      increasing order of data offset, and aligned to blocks when `offset`
      is. */
  predicate JobsAfter(archive: seq<byte>, offset: nat, jobs: seq<Job>)
  {
    && AfterFromHeaders(archive, offset, jobs)
    && (offset % BLOCK_SIZE == 0 ==> Aligned(jobs))
    && Increasing(jobs)
  }

  lemma JobsAfterEarlier(archive: seq<byte>, offset: nat, next: nat, jobs: seq<Job>)
    requires offset < next && next % BLOCK_SIZE == offset % BLOCK_SIZE
    requires JobsAfter(archive, next, jobs)
    ensures JobsAfter(archive, offset, jobs)
  {
  }

  lemma JobsAfterCons(archive: seq<byte>, offset: nat, next: nat, job: Job, jobs: seq<Job>)
    requires offset < next && next % BLOCK_SIZE == offset % BLOCK_SIZE
    requires job.text == offset + BLOCK_SIZE && FromHeader(archive, job)
    requires JobsAfter(archive, next, jobs)
    ensures JobsAfter(archive, offset, [job] + jobs)
  {
    HeadersCons(archive, offset, next, job, jobs);
    IncreasingCons(job, jobs);
    if offset % BLOCK_SIZE == 0 {
      AlignedCons(job, jobs);
    }
  }

  lemma AlignedCons(job: Job, jobs: seq<Job>)
    requires job.text % BLOCK_SIZE == 0 && Aligned(jobs)
    ensures Aligned([job] + jobs)
  {
    var all := [job] + jobs;
    assert forall i | 1 <= i < |all| :: all[i] == jobs[i - 1];
  }

  lemma HeadersCons(archive: seq<byte>, offset: nat, next: nat, job: Job, jobs: seq<Job>)
    requires offset < next
    requires job.text == offset + BLOCK_SIZE && FromHeader(archive, job)
    requires AfterFromHeaders(archive, next, jobs)
    ensures AfterFromHeaders(archive, offset, [job] + jobs)
  {
    var all := [job] + jobs;
    forall i | 0 <= i < |all|
      ensures offset + BLOCK_SIZE <= all[i].text && FromHeader(archive, all[i])
    {
      if i > 0 {
        assert all[i] == jobs[i - 1];
      }
    }
  }

  lemma IncreasingCons(job: Job, jobs: seq<Job>)
    requires Increasing(jobs)
    requires forall i | 0 <= i < |jobs| :: job.text < jobs[i].text
    ensures Increasing([job] + jobs)
  {
    var all := [job] + jobs;
    assert forall i | 1 <= i < |all| :: all[i] == jobs[i - 1];
  }

  lemma NextHeaderAligned(offset: nat, size: nat)
    ensures offset < NextHeader(offset, size) && NextHeader(offset, size) % BLOCK_SIZE == offset % BLOCK_SIZE
  {
    var k := 1 + (size + BLOCK_SIZE - 1) / BLOCK_SIZE;
    assert NextHeader(offset, size) == offset + BLOCK_SIZE * k;
  }

  /** Every job comes from a regular entry with the magic and a non-zero
      size whose header block sits just before the data; the file index is
      always 0. Data offsets are at least one block past the walk's start,
      aligned to blocks when the start is, and strictly increasing. */
  lemma {:induction false} ScanJobs(archive: seq<byte>, offset: nat)
    ensures JobsAfter(archive, offset, Scan(archive, offset).0)
    decreases |archive| - offset
  {
    if offset + BLOCK_SIZE <= |archive| {
      var header := archive[offset..offset + BLOCK_SIZE];
      if HasMagic(header) && EntrySize(header) > 0 {
        var size := EntrySize(header);
        var next := NextHeader(offset, size);
        NextHeaderAligned(offset, size);
        ScanJobs(archive, next);
        var rest := Scan(archive, next).0;
        if IsRegular(header) {
          var job := Job(offset + BLOCK_SIZE, size, 0);
          assert archive[job.text - BLOCK_SIZE..job.text] == header;
          JobsAfterCons(archive, offset, next, job, rest);
        } else {
          JobsAfterEarlier(archive, offset, next, rest);
        }
      }
    }
  }
}

=== FILE: decoder.dfy ===
/** The decoder of src/decoder.c: a table of vocabulary lines indexed by
    token ID, and decoding by table lookup. */
module Decoder {
  import opened Bytes

  datatype Decoder = Decoder(table: seq<seq<byte>>)

  /** toke_decoder_new: an empty table. */
  const NewDecoder: Decoder := Decoder([])

  const NEWLINE_ESCAPE: seq<byte> := [BACKSLASH, 'n' as int]

  /** add_token_def: the line made of a backslash and 'n' is stored as a
      newline byte; every other line, directives and hex escapes included,
      is stored as it is. */
  function Entry(line: seq<byte>): (r: seq<byte>)
    ensures r != line ==> line == NEWLINE_ESCAPE && r == [LF]
    ensures r == [LF] <==> line == NEWLINE_ESCAPE || line == [LF]
  {
    if line == NEWLINE_ESCAPE then [LF] else line
  }

  function Entries(lines: seq<seq<byte>>): (r: seq<seq<byte>>)
    ensures |r| == |lines|
    decreases |lines|
  {
    if |lines| == 0 then [] else [Entry(lines[0])] + Entries(lines[1..])
  }

  lemma EntriesCons(line: seq<byte>, rest: seq<seq<byte>>)
    ensures Entries([line] + rest) == [Entry(line)] + Entries(rest)
  {
    assert ([line] + rest)[1..] == rest;
  }

  /** The line from `start` to the next '\n' (or to the end of the text),
      and the lines after it. */
  lemma LineEntry(vocab: seq<byte>, start: nat, end: nat)
    requires start < |vocab| && end == Find(vocab, start, LF)
    ensures Entries(LinesFrom(vocab, start)) == [Entry(vocab[start..end])] + Entries(LinesFrom(vocab, end + 1))
  {
    EntriesCons(vocab[start..end], LinesFrom(vocab, end + 1));
  }

  /** The text after the last '\n' is one more line, unless it is empty. */
  lemma LastEntry(table: seq<seq<byte>>, vocab: seq<byte>, start: nat)
    requires start <= |vocab| && Find(vocab, start, LF) >= |vocab|
    ensures table + Entries(LinesFrom(vocab, start)) ==
      if start < |vocab| then table + [Entry(vocab[start..|vocab|])] else table
  {
    if start < |vocab| {
      LineEntry(vocab, start, |vocab|);
      assert LinesFrom(vocab, |vocab| + 1) == [];
    } else {
      assert LinesFrom(vocab, start) == [];
    }
  }

  lemma Regroup(table: seq<seq<byte>>, entry: seq<byte>, rest: seq<seq<byte>>)
    ensures table + ([entry] + rest) == (table + [entry]) + rest
  {
  }

  lemma AllLines(vocab: seq<byte>)
    ensures LinesFrom(vocab, 0) == Lines(vocab)
  {
    LinesFromIsLines(vocab, 0);
    assert vocab[0..] == vocab;
  }

  /** toke_decoder_parse_vocab: every line of the text is appended to the
      table, in order, after the entries already there. */
  method ParseVocab(d: Decoder, vocab: seq<byte>) returns (r: Decoder)
    ensures r.table == d.table + Entries(Lines(vocab))
  {
    var table := d.table;
    var offset: nat := 0;
    var wordOffset: nat := 0;
    AllLines(vocab);
    while offset < |vocab|
      invariant wordOffset <= offset <= |vocab|
      invariant Find(vocab, wordOffset, LF) >= offset
      invariant table + Entries(LinesFrom(vocab, wordOffset)) == d.table + Entries(Lines(vocab))
    {
      table, wordOffset := ScanByte(table, vocab, wordOffset, offset);
      offset := offset + 1;
    }
    LastEntry(table, vocab, wordOffset);
    if wordOffset < offset {
      table := table + [Entry(vocab[wordOffset..offset])];
    }
    r := Decoder(table);
  }

  /** One round of the loop of toke_decoder_parse_vocab: a '\n' at
      `offset` closes the line since `wordOffset`, and the lines still to be
      stored shrink by that one line. */
  method ScanByte(table: seq<seq<byte>>, vocab: seq<byte>, wordOffset: nat, offset: nat)
    returns (table': seq<seq<byte>>, wordOffset': nat)
    requires wordOffset <= offset < |vocab|
    requires Find(vocab, wordOffset, LF) >= offset
    ensures wordOffset' <= offset + 1 && Find(vocab, wordOffset', LF) >= offset + 1
    ensures table' + Entries(LinesFrom(vocab, wordOffset')) == table + Entries(LinesFrom(vocab, wordOffset))
    ensures vocab[offset] != LF ==> table' == table && wordOffset' == wordOffset
  {
    if vocab[offset] == LF {
      LineEnd(table, vocab, wordOffset, offset);
      table' := table + [Entry(vocab[wordOffset..offset])];
      wordOffset' := offset + 1;
    } else {
      FindPast(vocab, wordOffset, offset);
      table', wordOffset' := table, wordOffset;
    }
  }

  /** A byte other than '\n' does not end the line. */
  lemma FindPast(vocab: seq<byte>, wordOffset: nat, offset: nat)
    requires offset < |vocab| && vocab[offset] != LF
    requires Find(vocab, wordOffset, LF) >= offset
    ensures Find(vocab, wordOffset, LF) >= offset + 1
  {
  }

  /** At a '\n', the line since `wordOffset` moves from the pending lines
      to the table. */
  lemma LineEnd(table: seq<seq<byte>>, vocab: seq<byte>, wordOffset: nat, offset: nat)
    requires wordOffset <= offset < |vocab| && vocab[offset] == LF
    requires Find(vocab, wordOffset, LF) >= offset
    ensures table + Entries(LinesFrom(vocab, wordOffset)) ==
      (table + [Entry(vocab[wordOffset..offset])]) + Entries(LinesFrom(vocab, offset + 1))
  {
    FindAtMost(vocab, wordOffset, LF, offset);
    LineEntry(vocab, wordOffset, offset);
    Regroup(table, Entry(vocab[wordOffset..offset]), Entries(LinesFrom(vocab, offset + 1)));
  }

  /** The bytes one token ID decodes to: IDs are cut to their low 8 bits,
      and an ID past the end of the table gives the byte 0x7F. */
  function Lookup(d: Decoder, id: uint16): (r: seq<byte>)
    ensures r in d.table || r == [DEL]
    ensures id < 256 && id < |d.table| ==> r == d.table[id]
    ensures r !in d.table ==> |d.table| <= id % 256
  {
    var k := id % 256;
    if k < |d.table| then d.table[k] else [DEL]
  }

  /** toke_decode, as the bytes it returns. When no table entry is empty,
      every ID gives at least one byte. */
  function Decode(d: Decoder, ids: seq<uint16>): (r: seq<byte>)
    ensures (forall k | 0 <= k < |d.table| :: |d.table[k]| > 0) ==> |r| >= |ids|
    decreases |ids|
  {
    if |ids| == 0 then [] else Lookup(d, ids[0]) + Decode(d, ids[1..])
  }

  /** Decoding takes each ID on its own: it maps concatenation of ID
      sequences to concatenation of texts. */
  lemma {:induction false} DecodeAppend(d: Decoder, a: seq<uint16>, b: seq<uint16>)
    ensures Decode(d, a + b) == Decode(d, a) + Decode(d, b)
    decreases |a|
  {
    if |a| > 0 {
      assert (a + b)[1..] == a[1..] + b;
      DecodeAppend(d, a[1..], b);
    } else {
      assert a + b == b;
    }
  }

  /** IDs that agree in their low 8 bits decode the same; so k and k + 256
      are indistinguishable. */
  lemma {:induction false} DecodeLowByte(d: Decoder, a: seq<uint16>, b: seq<uint16>)
    requires |a| == |b|
    requires forall i | 0 <= i < |a| :: a[i] % 256 == b[i] % 256
    ensures Decode(d, a) == Decode(d, b)
    decreases |a|
  {
    if |a| > 0 {
      DecodeLowByte(d, a[1..], b[1..]);
    }
  }

  /** The decoded text is one piece per ID: the table entry named by the
      ID's low byte, or the single byte 0x7F. */
  lemma {:induction false} DecodePieces(d: Decoder, ids: seq<uint16>)
    ensures Decode(d, ids) == Flatten(seq(|ids|, i requires 0 <= i < |ids| => Lookup(d, ids[i])))
    ensures forall i | 0 <= i < |ids| ::
      Lookup(d, ids[i]) == if ids[i] % 256 < |d.table| then d.table[ids[i] % 256] else [DEL]
    decreases |ids|
  {
    if |ids| > 0 {
      DecodePieces(d, ids[1..]);
      var ps := seq(|ids|, i requires 0 <= i < |ids| => Lookup(d, ids[i]));
      assert ps[1..] == seq(|ids[1..]|, i requires 0 <= i < |ids[1..]| => Lookup(d, ids[1..][i]));
    }
  }

  /** The number of bytes a sequence of IDs decodes to. */
  function DecodedLength(d: Decoder, ids: seq<uint16>): nat
    decreases |ids|
  {
    if |ids| == 0 then 0 else |Lookup(d, ids[0])| + DecodedLength(d, ids[1..])
  }

  lemma {:induction false} DecodedLengthAppend(d: Decoder, a: seq<uint16>, id: uint16)
    ensures DecodedLength(d, a + [id]) == DecodedLength(d, a) + |Lookup(d, id)|
    decreases |a|
  {
    if |a| > 0 {
      assert (a + [id])[1..] == a[1..] + [id];
      DecodedLengthAppend(d, a[1..], id);
    } else {
      assert a + [id] == [id];
    }
  }

  /** toke_decode's two passes: the first sums the bytes each ID decodes
      to, the second copies them out; the sum is the length of the text
      the copy produces. */
  method DecodeTwoPass(d: Decoder, ids: seq<uint16>) returns (result: seq<byte>, outLength: nat)
    ensures result == Decode(d, ids)
    ensures outLength == |result|
  {
    outLength := 0;
    var i := 0;
    while i < |ids|
      invariant 0 <= i <= |ids|
      invariant outLength == DecodedLength(d, ids[..i])
    {
      assert ids[..i + 1] == ids[..i] + [ids[i]];
      DecodedLengthAppend(d, ids[..i], ids[i]);
      var k := ids[i] % 256;
      if k >= |d.table| {
        outLength := outLength + 1;
      } else {
        outLength := outLength + |d.table[k]|;
      }
      i := i + 1;
    }
    result := [];
    i := 0;
    while i < |ids|
      invariant 0 <= i <= |ids|
      invariant result == Decode(d, ids[..i])
      invariant |result| == DecodedLength(d, ids[..i])
    {
      assert ids[..i + 1] == ids[..i] + [ids[i]];
      DecodeAppend(d, ids[..i], [ids[i]]);
      DecodedLengthAppend(d, ids[..i], ids[i]);
      assert Decode(d, [ids[i]]) == Lookup(d, ids[i]);
      var k := ids[i] % 256;
      if k >= |d.table| {
        result := result + [DEL];
      } else {
        result := result + d.table[k];
      }
      i := i + 1;
    }
    assert ids[..|ids|] == ids;
  }

  /** "aa\nb\n \n" */
  const EXAMPLE_VOCAB: seq<byte> := [0x61, 0x61, 0x0a, 0x62, 0x0a, 0x20, 0x0a]

  lemma ExampleLines()
    ensures Lines(EXAMPLE_VOCAB) == [[0x61, 0x61], [0x62], [0x20]]
  {
    var vocab := EXAMPLE_VOCAB;
    assert vocab == [0x61, 0x61, LF, 0x62, LF, 0x20, LF];
    FindFirst(vocab, 0, LF, 2);
    FindFirst(vocab, 3, LF, 4);
    FindFirst(vocab, 5, LF, 6);
    assert LinesFrom(vocab, 7) == [];
    assert vocab[5..6] == [0x20] && vocab[3..4] == [0x62] && vocab[0..2] == [0x61, 0x61];
    assert LinesFrom(vocab, 5) == [vocab[5..6]] + LinesFrom(vocab, 7);
    assert LinesFrom(vocab, 3) == [vocab[3..4]] + LinesFrom(vocab, 5);
    assert LinesFrom(vocab, 0) == [vocab[0..2]] + LinesFrom(vocab, 3);
    AllLines(vocab);
  }

  /** The vocabulary "aa", "b", " ": IDs 1, 0xFFFF, 2, 0 decode to "b",
      0x7F (0xFF is past the table), " " and "aa". */
  lemma DecodeExample()
    ensures Decode(Decoder(Entries(Lines(EXAMPLE_VOCAB))), [1, 0xFFFF, 2, 0]) == [0x62, DEL, 0x20, 0x61, 0x61]
  {
    ExampleTable();
    DecodeExampleTable();
  }

  lemma ExampleTable()
    ensures Entries(Lines(EXAMPLE_VOCAB)) == [[0x61, 0x61], [0x62], [0x20]]
  {
    ExampleLines();
    EntriesCons([0x20], []);
    EntriesCons([0x62], [[0x20]]);
    EntriesCons([0x61, 0x61], [[0x62], [0x20]]);
  }

  lemma DecodeExampleTable()
    ensures Decode(Decoder([[0x61, 0x61], [0x62], [0x20]]), [1, 0xFFFF, 2, 0]) == [0x62, DEL, 0x20, 0x61, 0x61]
  {
    var d := Decoder([[0x61, 0x61], [0x62], [0x20]]);
    DecodeCons(d, 0, []);
    DecodeCons(d, 2, [0]);
    DecodeCons(d, 0xFFFF, [2, 0]);
    DecodeCons(d, 1, [0xFFFF, 2, 0]);
  }

  lemma DecodeCons(d: Decoder, id: uint16, rest: seq<uint16>)
    ensures Decode(d, [id] + rest) == Lookup(d, id) + Decode(d, rest)
  {
    assert ([id] + rest)[1..] == rest;
  }
}

=== FILE: encoder.dfy ===
/** The encoder of src/encoder.c: the vocabulary parser that fills the trie
    and sets the filter, and encoding with the greedy longest-match step. */
module Encoder {
  import opened Wrappers
  import opened Bytes
  import opened Trie
  import Filter
  import FilterLaws
  import Unescape

  /** MAX_TOKEN_ID: parsing stops once this many IDs less one are used,
      leaving one for the unknown-token ID. */
  const MAX_TOKEN_ID: nat := 65535

  datatype Encoder = Encoder(trie: Trie, unknownTokenId: nat, filter: Option<Filter.Flags>)

  /** toke_encoder_new: an empty trie, no filter. */
  const NewEncoder: Encoder := Encoder(map[], 0, None)

  /** "version" */
  const VERSION: seq<byte> := [0x76, 0x65, 0x72, 0x73, 0x69, 0x6f, 0x6e]
  /** "filter" */
  const FILTER: seq<byte> := [0x66, 0x69, 0x6c, 0x74, 0x65, 0x72]

  /** A directive name, the text before the first ':' of the line, and the
      configuration after it, when there is a ':'. */
  function DirectiveName(line: seq<byte>): seq<byte>
  {
    line[..Find(line, 0, COLON)]
  }

  /** parse_directive on the text of a '#' line after the '#': "version" is
      accepted and ignored; "filter" replaces the filter with a new one
      configured by the text after the ':' (kept even when that
      configuration is rejected); any other name is a syntax error. A filter
      line without ':' is read as an empty configuration (see
      DirectiveAsWritten). */
  function Directive(e: Encoder, line: seq<byte>): (r: (Encoder, Outcome))
    ensures r.0.trie == e.trie && r.0.unknownTokenId == e.unknownTokenId
    ensures ParseOutcome(r.1)
  {
    var name := DirectiveName(line);
    if name == VERSION then (e, Pass)
    else if name == FILTER then
      var parsed := Filter.ParseConfig(DirectiveValue(line));
      (e.(filter := Some(parsed.0)), parsed.1)
    else (e, Fail(VocabSyntax))
  }

  /** "version" changes nothing, "filter" installs the filter its value
      configures and passes on that configuration's outcome, and any other
      name is rejected without changing anything. */
  lemma DirectiveSpec(e: Encoder, line: seq<byte>)
    ensures var r := Directive(e, line);
      && (DirectiveName(line) == VERSION ==> r == (e, Pass))
      && (DirectiveName(line) == FILTER ==>
            r == (e.(filter := Some(Filter.ParseConfig(DirectiveValue(line)).0)), Filter.ParseConfig(DirectiveValue(line)).1))
      && (DirectiveName(line) != VERSION && DirectiveName(line) != FILTER ==> r == (e, Fail(VocabSyntax)))
  {
  }

  /** The outcomes the vocabulary parser can report: success, a syntax
      error in the vocabulary, or one in the filter configuration. */
  predicate ParseOutcome(o: Outcome)
  {
    o == Pass || o == Fail(VocabSyntax) || o == Fail(FilterSyntax)
  }

  /** The text after the first ':', or nothing when the line has no ':'. */
  function DirectiveValue(line: seq<byte>): (r: seq<byte>)
    ensures |r| < |line| || r == []
  {
    var n := Find(line, 0, COLON);
    if n < |line| then line[n + 1..] else []
  }

  /** parse_directive as written, on the directive that starts at `offset`
      (just after the '#'). Without a ':' the value starts one past the end
      of the line and its length is computed as size - (size + 1), which
      wraps to SIZE_MAX. A "filter" line then hands the configuration parser
      the text of the lines that follow, with no end: the parser stops with
      FILTER_SYNTAX somewhere in them, or reads past the vocabulary (`None`).
      On the last line, with no '\n', the value already starts past the
      vocabulary. Only the line "filter" can read out of bounds, and no
      directive touches the trie or the unknown-token ID. */
  function DirectiveAsWritten(e: Encoder, vocab: seq<byte>, offset: nat): (r: Option<(Encoder, Outcome)>)
    requires offset <= |vocab|
    ensures r.None? ==> vocab[offset..Find(vocab, offset, LF)] == FILTER
    ensures r.Some? ==> r.value.0.trie == e.trie && r.value.0.unknownTokenId == e.unknownTokenId
    ensures r.Some? ==> ParseOutcome(r.value.1)
  {
    var end := Find(vocab, offset, LF);
    var line := vocab[offset..end];
    var n := Find(line, 0, COLON);
    var name := line[..n];
    if name == VERSION then Some((e, Pass))
    else if name == FILTER then
      if n < |line| then
        var parsed := Filter.ParseConfig(line[n + 1..]);
        Some((e.(filter := Some(parsed.0)), parsed.1))
      else if end == |vocab| then
        assert line[..n] == line;
        None
      else
        assert line[..n] == line;
        match Filter.ParseUnbounded(vocab[end + 1..], 0, Filter.NoFlags)
        case None => None
        case Some(flags) => Some((e.(filter := Some(flags)), Fail(FilterSyntax)))
    else Some((e, Fail(VocabSyntax)))
  }

  /** The code as written and the corrected directive agree on every line
      except the line "filter" with no ':'. On that line the code as written
      never succeeds: it reads past the vocabulary or stops with
      FILTER_SYNTAX in a later line, where the corrected directive installs
      a filter with every flag off. */
  lemma DirectiveCorrection(e: Encoder, vocab: seq<byte>, offset: nat)
    requires offset <= |vocab|
    ensures var line := vocab[offset..Find(vocab, offset, LF)];
      && (line != FILTER ==> DirectiveAsWritten(e, vocab, offset) == Some(Directive(e, line)))
      && (line == FILTER ==>
            && (DirectiveAsWritten(e, vocab, offset).None? || DirectiveAsWritten(e, vocab, offset).value.1 == Fail(FilterSyntax))
            && Directive(e, line) == (e.(filter := Some(Filter.NoFlags)), Pass))
  {
    var line := vocab[offset..Find(vocab, offset, LF)];
    assert COLON !in FILTER;
    var n := Find(line, 0, COLON);
    if n == |line| {
      assert line[..n] == line;
    }
    if line == FILTER {
      FilterAlone(e);
    }
  }

  /** The corrected directive reads the line "filter" as an empty
      configuration. */
  lemma FilterAlone(e: Encoder)
    ensures Directive(e, FILTER) == (e.(filter := Some(Filter.NoFlags)), Pass)
  {
    assert COLON !in FILTER;
    assert Find(FILTER, 0, COLON) == |FILTER|;
    assert FILTER[..|FILTER|] == FILTER;
  }

  /** "#filter" as the last line of the vocabulary, with or without its
      '\n': the code as written reads past the vocabulary. */
  lemma FilterWithoutColon(e: Encoder, terminated: bool)
    ensures var vocab := [HASH] + FILTER + (if terminated then [LF] else []);
      DirectiveAsWritten(e, vocab, 1).None?
  {
    var vocab := [HASH] + FILTER + (if terminated then [LF] else []);
    assert COLON !in FILTER;
    assert vocab[1..7] == FILTER;
    assert Find(FILTER, 0, COLON) == |FILTER| && FILTER[..6] == FILTER;
    if terminated {
      FindFirst(vocab, 1, LF, 7);
      assert vocab[8..] == [];
    } else {
      assert forall i | 0 <= i < |vocab| :: vocab[i] != LF;
      assert Find(vocab, 1, LF) == 7 == |vocab|;
    }
  }

  /** "#filter" followed by the line "x,=": the code as written parses
      "x,=" as the configuration and stops in bounds with FILTER_SYNTAX,
      since the ',' comes before the '='. */
  lemma FilterWithoutColonFollowed(e: Encoder)
    ensures var vocab := [HASH] + FILTER + [LF, 0x78, COMMA, EQUALS, LF];
      DirectiveAsWritten(e, vocab, 1) == Some((e.(filter := Some(Filter.NoFlags)), Fail(FilterSyntax)))
  {
    var vocab := [HASH] + FILTER + [LF, 0x78, COMMA, EQUALS, LF];
    FindFirst(vocab, 1, LF, 7);
    assert COLON !in FILTER;
    assert vocab[1..7] == FILTER;
    assert Find(FILTER, 0, COLON) == |FILTER| && FILTER[..6] == FILTER;
    var rest := vocab[8..];
    assert rest == [0x78, COMMA, EQUALS, LF];
    FindFirst(rest, 0, COMMA, 1);
    FindFirst(rest, 0, EQUALS, 2);
  }

  /** The parse of the same vocabulary, which reads each directive with the
      corrected Directive: "#filter" installs an empty configuration, the
      line "x,=" becomes definition 0, and the parse succeeds. */
  lemma FilterWithoutColonParsed(e: Encoder)
    ensures var vocab := [HASH] + FILTER + [LF, 0x78, COMMA, EQUALS, LF];
      && ParseVocab(e, vocab).1 == Pass
      && ParseVocab(e, vocab).0.filter == Some(Filter.NoFlags)
      && ParseVocab(e, vocab).0.unknownTokenId == 1
  {
    var vocab := [HASH] + FILTER + [LF, 0x78, COMMA, EQUALS, LF];
    FindFirst(vocab, 0, LF, 7);
    FindFirst(vocab, 8, LF, 11);
    assert vocab[0..7][1..] == FILTER;
    FilterAlone(e);
    var e' := e.(filter := Some(Filter.NoFlags));
    assert LineStep(e, vocab[0..7], 0) == Continue(e', 0);
    var line := vocab[8..11];
    assert !IsDirective(line);
    var e'' := e'.(trie := Insert(e'.trie, Unescape.ProcessTokenDef(line), 0));
    assert LineStep(e', line, 0) == Continue(e'', 1);
    assert ParseFrom(e'', vocab, 12, 1) == (e''.(unknownTokenId := 1), Pass);
    assert ParseFrom(e', vocab, 8, 0) == ParseFrom(e'', vocab, 12, 1);
    assert ParseFrom(e, vocab, 0, 0) == ParseFrom(e', vocab, 8, 0);
  }

  /** What one line of the vocabulary does: a '#' line is a directive and
      takes no ID; any other line is unescaped and inserted with the next ID,
      an empty definition included (it takes an ID but inserts nothing).
      Parsing stops on a failed directive, and after ID MAX_TOKEN_ID - 2 is
      used, with the unknown-token ID set to the number of IDs used. */
  datatype Next = Stop(result: (Encoder, Outcome)) | Continue(e: Encoder, tokenId: nat)

  function LineStep(e: Encoder, line: seq<byte>, tokenId: nat): (r: Next)
    requires tokenId < MAX_TOKEN_ID - 1
    ensures r.Continue? ==> r.tokenId < MAX_TOKEN_ID - 1
    ensures r.Stop? ==> ParseOutcome(r.result.1)
    ensures r.Stop? && r.result.1 == Pass ==> r.result.0.unknownTokenId == tokenId + 1
  {
    if IsDirective(line) then
      var d := Directive(e, line[1..]);
      if d.1.Fail? then Stop(d) else Continue(d.0, tokenId)
    else
      var e' := e.(trie := Insert(e.trie, Unescape.ProcessTokenDef(line), tokenId));
      if tokenId + 1 == MAX_TOKEN_ID - 1 then Stop((e'.(unknownTokenId := tokenId + 1), Pass))
      else Continue(e', tokenId + 1)
  }

  predicate IsDirective(line: seq<byte>)
  {
    |line| > 0 && line[0] == HASH
  }

  /** toke_encoder_parse_vocab from offset `offset` with the next ID `tokenId`.
      The source searches for the end of a '#' line from just after the '#',
      which finds the same '\n' as searching from the '#' itself. At the end
      of the text the unknown-token ID is set to the number of IDs used. */
  function ParseFrom(e: Encoder, vocab: seq<byte>, offset: nat, tokenId: nat): (r: (Encoder, Outcome))
    requires tokenId < MAX_TOKEN_ID - 1
    ensures r.1 == Pass ==> tokenId <= r.0.unknownTokenId <= MAX_TOKEN_ID - 1
    ensures ParseOutcome(r.1)
    decreases |vocab| - offset, 1
  {
    if offset >= |vocab| then (e.(unknownTokenId := tokenId), Pass)
    else ParseLine(e, vocab, offset, tokenId)
  }

  /** One round of the loop: the line at `offset` runs to the next '\n'. */
  function ParseLine(e: Encoder, vocab: seq<byte>, offset: nat, tokenId: nat): (r: (Encoder, Outcome))
    requires tokenId < MAX_TOKEN_ID - 1 && offset < |vocab|
    ensures r.1 == Pass ==> tokenId <= r.0.unknownTokenId <= MAX_TOKEN_ID - 1
    ensures ParseOutcome(r.1)
    decreases |vocab| - offset, 0
  {
    var end := Find(vocab, offset, LF);
    match LineStep(e, vocab[offset..end], tokenId)
    case Stop(result) => result
    case Continue(e', next) => ParseFrom(e', vocab, end + 1, next)
  }

  /** toke_encoder_parse_vocab: the ID count starts again at 0 on every call,
      but the trie and the filter carry over from earlier calls. The outcome
      is success or a syntax error; on success the unknown-token ID is the
      number of IDs used, at most MAX_TOKEN_ID - 1, and an empty text uses
      none. */
  function ParseVocab(e: Encoder, vocab: seq<byte>): (r: (Encoder, Outcome))
    ensures ParseOutcome(r.1)
    ensures r.1 == Pass ==> r.0.unknownTokenId <= MAX_TOKEN_ID - 1
    ensures |vocab| == 0 ==> r == (e.(unknownTokenId := 0), Pass)
  {
    ParseFrom(e, vocab, 0, 0)
  }

  /** The directive text the source hands parse_directive: from after the '#'
      to the '\n' found by searching from there. */
  lemma DirectiveText(vocab: seq<byte>, offset: nat)
    requires offset < |vocab| && vocab[offset] == HASH
    ensures Find(vocab, offset + 1, LF) == Find(vocab, offset, LF)
    ensures vocab[offset..Find(vocab, offset, LF)][1..] == vocab[offset + 1..Find(vocab, offset + 1, LF)]
  {
  }

  // ---------------------------------------------------------------------------
  // A reference reading: the same parse as a pass over the lines of the text.

  function ParseLines(e: Encoder, lines: seq<seq<byte>>, tokenId: nat): (Encoder, Outcome)
    requires tokenId < MAX_TOKEN_ID - 1
    decreases |lines|, 1
  {
    if |lines| == 0 then (e.(unknownTokenId := tokenId), Pass)
    else ParseFirstLine(e, lines, tokenId)
  }

  function ParseFirstLine(e: Encoder, lines: seq<seq<byte>>, tokenId: nat): (Encoder, Outcome)
    requires tokenId < MAX_TOKEN_ID - 1 && |lines| > 0
    decreases |lines|, 0
  {
    match LineStep(e, lines[0], tokenId)
    case Stop(result) => result
    case Continue(e', next) => ParseLines(e', lines[1..], next)
  }

  /** The loop reads the line at `offset`, then goes on after its '\n'. */
  lemma ParseFromStep(e: Encoder, vocab: seq<byte>, offset: nat, tokenId: nat)
    requires tokenId < MAX_TOKEN_ID - 1 && offset < |vocab|
    ensures var end := Find(vocab, offset, LF);
      var step := LineStep(e, vocab[offset..end], tokenId);
      ParseFrom(e, vocab, offset, tokenId) ==
        if step.Stop? then step.result else ParseFrom(step.e, vocab, end + 1, step.tokenId)
  {
  }

  /** The first line is read, then the rest, unless it stops the parse. */
  lemma ParseLinesCons(e: Encoder, line: seq<byte>, rest: seq<seq<byte>>, tokenId: nat)
    requires tokenId < MAX_TOKEN_ID - 1
    ensures var step := LineStep(e, line, tokenId);
      ParseLines(e, [line] + rest, tokenId) ==
        if step.Stop? then step.result else ParseLines(step.e, rest, step.tokenId)
  {
    assert ([line] + rest)[0] == line;
    assert ([line] + rest)[1..] == rest;
  }

  /** From `offset`, for any encoder and next ID, the loop computes what the
      pass over the remaining lines computes. */
  ghost predicate AgreeFrom(vocab: seq<byte>, offset: nat)
  {
    forall e: Encoder, tokenId: nat | tokenId < MAX_TOKEN_ID - 1 ::
      ParseFrom(e, vocab, offset, tokenId) == ParseLines(e, LinesFrom(vocab, offset), tokenId)
  }

  lemma {:induction false} ParseFromIsParseLines(vocab: seq<byte>, offset: nat)
    ensures AgreeFrom(vocab, offset)
    decreases |vocab| - offset
  {
    if offset < |vocab| {
      ParseFromIsParseLines(vocab, Find(vocab, offset, LF) + 1);
      forall e: Encoder, tokenId: nat | tokenId < MAX_TOKEN_ID - 1
        ensures ParseFrom(e, vocab, offset, tokenId) == ParseLines(e, LinesFrom(vocab, offset), tokenId)
      {
        LineAgrees(e, vocab, offset, tokenId);
      }
    }
  }

  /** One line read by the loop and by the pass over lines, given that the
      two agree on everything after it. */
  lemma LineAgrees(e: Encoder, vocab: seq<byte>, offset: nat, tokenId: nat)
    requires tokenId < MAX_TOKEN_ID - 1 && offset < |vocab|
    requires AgreeFrom(vocab, Find(vocab, offset, LF) + 1)
    ensures ParseFrom(e, vocab, offset, tokenId) == ParseLines(e, LinesFrom(vocab, offset), tokenId)
  {
    var end := Find(vocab, offset, LF);
    assert LinesFrom(vocab, offset) == [vocab[offset..end]] + LinesFrom(vocab, end + 1);
    ParseLinesCons(e, vocab[offset..end], LinesFrom(vocab, end + 1), tokenId);
    ParseFromStep(e, vocab, offset, tokenId);
  }

  /** The parser reads the text line by line. */
  lemma ParseVocabByLines(e: Encoder, vocab: seq<byte>)
    ensures ParseVocab(e, vocab) == ParseLines(e, Lines(vocab), 0)
  {
    ParseFromIsParseLines(vocab, 0);
    LinesFromIsLines(vocab, 0);
    assert vocab[0..] == vocab;
  }

  // ---------------------------------------------------------------------------
  // ID assignment.

  /** Definitions inserted with consecutive IDs from `firstId`. */
  function InsertAll(t: Trie, defs: seq<seq<byte>>, firstId: nat): Trie
    requires firstId + |defs| <= MAX_TOKEN_ID
    decreases |defs|
  {
    if |defs| == 0 then t
    else InsertAll(Insert(t, defs[0], firstId), defs[1..], firstId + 1)
  }

  /** After inserting, a non-empty definition maps to the ID of its last
      occurrence; an empty definition is never a key; nothing else changes. */
  lemma {:induction false} InsertAllLookup(t: Trie, defs: seq<seq<byte>>, firstId: nat, i: nat)
    requires firstId + |defs| <= MAX_TOKEN_ID
    requires i < |defs| && |defs[i]| > 0
    requires forall j | i < j < |defs| :: defs[j] != defs[i]
    ensures defs[i] in InsertAll(t, defs, firstId)
    ensures InsertAll(t, defs, firstId)[defs[i]] == firstId + i
    decreases |defs|
  {
    var t' := Insert(t, defs[0], firstId);
    if i == 0 {
      InsertAllKeeps(t', defs[1..], firstId + 1, defs[0]);
    } else {
      assert forall j | i - 1 < j < |defs[1..]| :: defs[1..][j] == defs[j + 1];
      InsertAllLookup(t', defs[1..], firstId + 1, i - 1);
    }
  }

  /** Inserting words other than `w` leaves `w` as it was. */
  lemma {:induction false} InsertAllKeeps(t: Trie, defs: seq<seq<byte>>, firstId: nat, w: seq<byte>)
    requires firstId + |defs| <= MAX_TOKEN_ID
    requires forall j | 0 <= j < |defs| :: defs[j] != w
    ensures (w in InsertAll(t, defs, firstId)) == (w in t)
    ensures w in t ==> InsertAll(t, defs, firstId)[w] == t[w]
    decreases |defs|
  {
    if |defs| > 0 {
      InsertAllKeeps(Insert(t, defs[0], firstId), defs[1..], firstId + 1, w);
    }
  }

  // ---------------------------------------------------------------------------
  // Encoding.

  /** toke_encode: the text goes through the filter, when one is set, and
      the result is split greedily into tokens. `None` where the filter
      would read past the text. Bytes no definition starts with come out as
      INVALID_TOKEN_ID; the unknown-token ID is never emitted. */
  function Encode(e: Encoder, text: seq<byte>): (r: Option<seq<uint16>>)
    ensures r.Some? ==> |r.value| <= |text|
    ensures e.filter.None? ==> r.Some?
  {
    match e.filter
    case None => Some(EncodeRaw(e.trie, text))
    case Some(flags) =>
      match Filter.Apply(flags, text)
      case None => None
      case Some(filtered) => Some(EncodeRaw(e.trie, filtered))
  }

  /** Without a filter, or with one that has every flag off on text whose
      multi-byte characters are whole, the tokens cover the text exactly:
      each token's piece of text is its definition, or a single byte that
      starts no definition. */
  lemma EncodeTokens(e: Encoder, text: seq<byte>)
    requires e.filter.None? || (e.filter == Some(Filter.NoFlags) && FilterLaws.Complete(text))
    ensures Encode(e, text).Some?
    ensures Partition(e.trie, Encode(e, text).value, Pieces(e.trie, text), text)
  {
    if e.filter.Some? {
      FilterLaws.ApplyNoFlags(text);
    }
    EncodeRawPieces(e.trie, text);
  }
}

=== FILE: filter.dfy ===
/** The text filter of src/filter.c: a `key=value,...` configuration parser
    and a single left-to-right rewriting pass over a byte string. */
module Filter {
  import opened Wrappers
  import opened Bytes

  /** The five switches of a filter (the `enum flag` bits). */
  datatype Flag = NormalizeLines | NormalizeTabs | RestrictedAscii | Lowercase | UnicodeSubstitutes

  /** The flag word of `struct config`: one bit per flag. */
  datatype Flags = Flags(lines: bool, tabs: bool, restricted: bool, lower: bool, unicode: bool)

  /** default_config: every bit clear. */
  const NoFlags := Flags(false, false, false, false, false)

  /** Whether the bit of `f` is set. */
  predicate Has(flags: Flags, f: Flag)
  {
    match f
    case NormalizeLines => flags.lines
    case NormalizeTabs => flags.tabs
    case RestrictedAscii => flags.restricted
    case Lowercase => flags.lower
    case UnicodeSubstitutes => flags.unicode
  }

  /** The flag word with the bit of `f` set (`|=`) or cleared (`&= ~`). */
  function With(flags: Flags, f: Flag, on: bool): (r: Flags)
    ensures Has(r, f) == on
    ensures forall g: Flag | g != f :: Has(r, g) == Has(flags, g)
  {
    match f
    case NormalizeLines => flags.(lines := on)
    case NormalizeTabs => flags.(tabs := on)
    case RestrictedAscii => flags.(restricted := on)
    case Lowercase => flags.(lower := on)
    case UnicodeSubstitutes => flags.(unicode := on)
  }

  /** A flag word with only the bit of `f` set. */
  function Only(f: Flag): Flags
  {
    With(NoFlags, f, true)
  }

  /** The configuration key that names a flag. */
  function KeyName(f: Flag): seq<byte>
  {
    match f
    case NormalizeLines => [0x6e, 0x6f, 0x72, 0x6d, 0x61, 0x6c, 0x69, 0x7a, 0x65, 0x5f, 0x6c, 0x69, 0x6e, 0x65, 0x73]  // normalize_lines
    case NormalizeTabs => [0x6e, 0x6f, 0x72, 0x6d, 0x61, 0x6c, 0x69, 0x7a, 0x65, 0x5f, 0x74, 0x61, 0x62, 0x73]  // normalize_tabs
    case RestrictedAscii => [0x72, 0x65, 0x73, 0x74, 0x72, 0x69, 0x63, 0x74, 0x65, 0x64, 0x5f, 0x61, 0x73, 0x63, 0x69, 0x69]  // restricted_ascii
    case Lowercase => [0x6c, 0x6f, 0x77, 0x65, 0x72, 0x63, 0x61, 0x73, 0x65]  // lowercase
    case UnicodeSubstitutes => [0x75, 0x6e, 0x69, 0x63, 0x6f, 0x64, 0x65, 0x5f, 0x73, 0x75, 0x62, 0x73, 0x74, 0x69, 0x74, 0x75, 0x74, 0x65, 0x73]  // unicode_substitutes
  }

  /** The flag a key names, if it is one of the five recognised keys. */
  function KeyFlag(key: seq<byte>): (r: Option<Flag>)
    ensures r.Some? <==> exists f: Flag :: key == KeyName(f)
    ensures r.Some? ==> key == KeyName(r.value)
  {
    if key == KeyName(NormalizeLines) then Some(NormalizeLines)
    else if key == KeyName(NormalizeTabs) then Some(NormalizeTabs)
    else if key == KeyName(RestrictedAscii) then Some(RestrictedAscii)
    else if key == KeyName(Lowercase) then Some(Lowercase)
    else if key == KeyName(UnicodeSubstitutes) then Some(UnicodeSubstitutes)
    else None
  }

  /** "true" and "false" */
  const TRUE: seq<byte> := [0x74, 0x72, 0x75, 0x65]
  const FALSE: seq<byte> := [0x66, 0x61, 0x6c, 0x73, 0x65]

  /** One `key=value` property applied to the flags, or `None` for a syntax
      error. A recognised key accepts exactly "true" or "false"; any other key
      is ignored whatever its value. `value` is `None` when the property has no
      '=' at all: the source then computes the value length with a size_t
      wrap-around, a length that can equal neither 4 nor 5. */
  function Update(flags: Flags, key: seq<byte>, value: Option<seq<byte>>): Option<Flags>
  {
    match KeyFlag(key)
    case None => Some(flags)
    case Some(f) =>
      if value == Some(TRUE) then Some(With(flags, f, true))
      else if value == Some(FALSE) then Some(With(flags, f, false))
      else None
  }

  /** The property loop of toke_filter_parse_config from offset `start`. */
  function ParseFrom(config: seq<byte>, start: nat, flags: Flags): (r: (Flags, Outcome))
    ensures r.1 == Pass || r.1 == Fail(FilterSyntax)
    decreases |config| - start, 1
  {
    if start >= |config| then (flags, Pass)
    else ParseProperty(config, start, flags)
  }

  /** One round of the loop: the property at `start` runs to the next ',' and
      its key to the first '=', searched independently; a '=' past the ','
      is a syntax error. */
  function ParseProperty(config: seq<byte>, start: nat, flags: Flags): (r: (Flags, Outcome))
    requires start < |config|
    ensures r.1 == Pass || r.1 == Fail(FilterSyntax)
    decreases |config| - start, 0
  {
    var propEnd := Find(config, start, COMMA);
    var keyEnd := Find(config, start, EQUALS);
    if propEnd < keyEnd then (flags, Fail(FilterSyntax))
    else
      var key := config[start..keyEnd];
      var value := if keyEnd < |config| then Some(config[keyEnd + 1..propEnd]) else None;
      match Update(flags, key, value)
      case None => (flags, Fail(FilterSyntax))
      case Some(flags') => ParseFrom(config, propEnd + 1, flags')
  }

  /** toke_filter_parse_config: every flag is reset before the properties are
      applied, so the result never depends on an earlier configuration. On a
      syntax error the flags set so far are kept, as in the source. */
  function ParseConfig(config: seq<byte>): (r: (Flags, Outcome))
    ensures r.1 == Pass || r.1 == Fail(FilterSyntax)
    ensures |config| == 0 ==> r == (NoFlags, Pass)
  {
    ParseFrom(config, 0, NoFlags)
  }

  /** The property loop handed a length past the end of its text, as
      toke_filter_parse_config is when parse_directive computes the value
      length SIZE_MAX: it never ends by running out of properties, so it
      stops with FILTER_SYNTAX, returning the flags set so far, or one of
      its two searches runs off the end of the text (`None`, a read out of
      bounds). It stops in bounds only once a ',' and a '=' lie ahead. */
  function ParseUnbounded(text: seq<byte>, start: nat, flags: Flags): (r: Option<Flags>)
    ensures r.Some? ==> start < |text| && Find(text, start, COMMA) < |text| && Find(text, start, EQUALS) < |text|
    decreases |text| - start
  {
    var propEnd := Find(text, start, COMMA);
    var keyEnd := Find(text, start, EQUALS);
    if propEnd == |text| || keyEnd == |text| then None
    else if propEnd < keyEnd then Some(flags)
    else
      match Update(flags, text[start..keyEnd], Some(text[keyEnd + 1..propEnd]))
      case None => Some(flags)
      case Some(flags') => ParseUnbounded(text, propEnd + 1, flags')
  }

  /** Where the unbounded loop stops inside its text, it stops as the
      bounded loop over the same text does; and on a text the bounded loop
      accepts, the unbounded one reads past the end. */
  lemma UnboundedAgrees(text: seq<byte>, start: nat, flags: Flags)
    ensures ParseUnbounded(text, start, flags).Some? ==>
      ParseFrom(text, start, flags) == (ParseUnbounded(text, start, flags).value, Fail(FilterSyntax))
    ensures ParseFrom(text, start, flags).1.Pass? ==> ParseUnbounded(text, start, flags).None?
  {
    UnboundedStopsAsBounded(text, start, flags);
    UnboundedReadsPast(text, start, flags);
  }

  lemma {:induction false} UnboundedStopsAsBounded(text: seq<byte>, start: nat, flags: Flags)
    ensures ParseUnbounded(text, start, flags).Some? ==>
      ParseFrom(text, start, flags) == (ParseUnbounded(text, start, flags).value, Fail(FilterSyntax))
    decreases |text| - start
  {
    var propEnd := Find(text, start, COMMA);
    var keyEnd := Find(text, start, EQUALS);
    if start >= |text| || propEnd == |text| || keyEnd == |text| {
      assert ParseUnbounded(text, start, flags).None?;
    } else if propEnd < keyEnd {
      assert ParseUnbounded(text, start, flags) == Some(flags);
      assert ParseFrom(text, start, flags) == (flags, Fail(FilterSyntax));
    } else {
      var u := PropertyStep(text, start, flags);
      if u.Some? {
        UnboundedStopsAsBounded(text, propEnd + 1, u.value);
      }
    }
  }

  lemma {:induction false} UnboundedReadsPast(text: seq<byte>, start: nat, flags: Flags)
    ensures ParseFrom(text, start, flags).1.Pass? ==> ParseUnbounded(text, start, flags).None?
    decreases |text| - start
  {
    var propEnd := Find(text, start, COMMA);
    var keyEnd := Find(text, start, EQUALS);
    if start >= |text| || propEnd == |text| || keyEnd == |text| {
      assert ParseUnbounded(text, start, flags).None?;
    } else if propEnd < keyEnd {
      assert ParseFrom(text, start, flags) == (flags, Fail(FilterSyntax));
    } else {
      var u := PropertyStep(text, start, flags);
      if u.Some? {
        UnboundedReadsPast(text, propEnd + 1, u.value);
      }
    }
  }

  /** One property inside the text, read by both loops: they fail together
      or go on together to the same offset with the same flags `u`. */
  lemma PropertyStep(text: seq<byte>, start: nat, flags: Flags) returns (u: Option<Flags>)
    requires start < |text|
    requires Find(text, start, EQUALS) <= Find(text, start, COMMA) < |text|
    ensures u.None? ==> ParseUnbounded(text, start, flags) == Some(flags) &&
                        ParseFrom(text, start, flags) == (flags, Fail(FilterSyntax))
    ensures u.Some? ==>
      ParseUnbounded(text, start, flags) == ParseUnbounded(text, Find(text, start, COMMA) + 1, u.value) &&
      ParseFrom(text, start, flags) == ParseFrom(text, Find(text, start, COMMA) + 1, u.value)
  {
    var propEnd := Find(text, start, COMMA);
    var keyEnd := Find(text, start, EQUALS);
    u := Update(flags, text[start..keyEnd], Some(text[keyEnd + 1..propEnd]));
    assert ParseFrom(text, start, flags) == ParseProperty(text, start, flags);
  }

  // ---------------------------------------------------------------------------
  // A reference reading of the configuration syntax: split at ',' first, then
  // interpret each property on its own.

  /** A property: its text, and whether a ',' follows it. */
  datatype Prop = Prop(text: seq<byte>, commaFollows: bool)

  /** The properties of a configuration from offset `start`: every
      ','-terminated piece, and the final piece when it is non-empty. */
  function PropsFrom(config: seq<byte>, start: nat): seq<Prop>
    decreases |config| - start
  {
    if start >= |config| then []
    else
      var n := Find(config, start, COMMA);
      [Prop(config[start..n], n < |config|)] + PropsFrom(config, n + 1)
  }

  function Props(config: seq<byte>): seq<Prop>
  {
    PropsFrom(config, 0)
  }

  /** What one property means on its own. */
  datatype Setting = Setting(key: seq<byte>, value: Option<seq<byte>>) | Malformed

  /** A property without '=' is malformed when a ',' follows it; the last
      property may lack '=' and then has no value. */
  function Interpret(p: Prop): Setting
  {
    var eq := Find(p.text, 0, EQUALS);
    if eq < |p.text| then Setting(p.text[..eq], Some(p.text[eq + 1..]))
    else if p.commaFollows then Malformed
    else Setting(p.text, None)
  }

  /** A setting the parser accepts. */
  predicate Acceptable(s: Setting)
  {
    s.Setting? && (KeyFlag(s.key).None? || s.value == Some(TRUE) || s.value == Some(FALSE))
  }

  /** A setting applied to the flags, or `None` when the parser rejects it. */
  function Apply1(flags: Flags, s: Setting): Option<Flags>
  {
    match s
    case Malformed => None
    case Setting(k, v) => Update(flags, k, v)
  }

  /** The properties applied in order. */
  function Fold(flags: Flags, props: seq<Prop>): (Flags, Outcome)
    decreases |props|, 1
  {
    if |props| == 0 then (flags, Pass) else FoldFirst(flags, props)
  }

  /** The first property applied, then the rest. */
  function FoldFirst(flags: Flags, props: seq<Prop>): (Flags, Outcome)
    requires |props| > 0
    decreases |props|, 0
  {
    match Apply1(flags, Interpret(props[0]))
    case None => (flags, Fail(FilterSyntax))
    case Some(flags') => Fold(flags', props[1..])
  }

  /** The meaning of the last property that names `f`, if any does. */
  function LastSetting(props: seq<Prop>, f: Flag): Option<Setting>
  {
    if |props| == 0 then None
    else
      var s := Interpret(props[|props| - 1]);
      if s.Setting? && s.key == KeyName(f) then Some(s)
      else LastSetting(props[..|props| - 1], f)
  }

  /** What the property at `start` means, in terms of the two searches the loop makes. */
  lemma InterpretAt(config: seq<byte>, start: nat) returns (head: Setting)
    requires start < |config|
    ensures var propEnd := Find(config, start, COMMA);
      head == Interpret(Prop(config[start..propEnd], propEnd < |config|))
    ensures var propEnd := Find(config, start, COMMA);
      var keyEnd := Find(config, start, EQUALS);
      && (propEnd < keyEnd <==> head.Malformed?)
      && (keyEnd <= propEnd ==>
            head == Setting(config[start..keyEnd], if keyEnd < |config| then Some(config[keyEnd + 1..propEnd]) else None))
  {
    var propEnd := Find(config, start, COMMA);
    head := Interpret(Prop(config[start..propEnd], propEnd < |config|));
    InterpretMalformed(config, start);
    InterpretWithValue(config, start);
    InterpretWithoutValue(config, start);
  }

  lemma InterpretMalformed(config: seq<byte>, start: nat)
    requires start < |config|
    ensures var propEnd := Find(config, start, COMMA);
      var keyEnd := Find(config, start, EQUALS);
      propEnd < keyEnd <==> Interpret(Prop(config[start..propEnd], propEnd < |config|)).Malformed?
  {
    var propEnd := Find(config, start, COMMA);
    var keyEnd := Find(config, start, EQUALS);
    FindInSlice(config, start, propEnd, EQUALS);
    assert keyEnd == propEnd ==> propEnd == |config|;
  }

  lemma InterpretWithValue(config: seq<byte>, start: nat)
    requires start < |config|
    ensures var propEnd := Find(config, start, COMMA);
      var keyEnd := Find(config, start, EQUALS);
      keyEnd < propEnd ==>
        Interpret(Prop(config[start..propEnd], propEnd < |config|)) ==
        Setting(config[start..keyEnd], Some(config[keyEnd + 1..propEnd]))
  {
    var propEnd := Find(config, start, COMMA);
    var keyEnd := Find(config, start, EQUALS);
    if keyEnd < propEnd {
      FindSkips(config, start, EQUALS);
      InterpretPiece(config, start, keyEnd, propEnd, propEnd < |config|);
    }
  }

  /** A piece whose first '=' is at `e` sets the key before it to the value after it. */
  lemma InterpretPiece(config: seq<byte>, a: nat, e: nat, b: nat, commaFollows: bool)
    requires a <= e < b <= |config| && config[e] == EQUALS
    requires forall i | a <= i < e :: config[i] != EQUALS
    ensures Interpret(Prop(config[a..b], commaFollows)) == Setting(config[a..e], Some(config[e + 1..b]))
  {
    var piece := config[a..b];
    FindFirst(piece, 0, EQUALS, e - a);
    PrefixOfSlice(config, a, b, e - a);
    SuffixOfSlice(config, a, b, e - a + 1);
  }

  lemma InterpretWithoutValue(config: seq<byte>, start: nat)
    requires start < |config|
    ensures var propEnd := Find(config, start, COMMA);
      var keyEnd := Find(config, start, EQUALS);
      keyEnd == propEnd ==>
        Interpret(Prop(config[start..propEnd], propEnd < |config|)) == Setting(config[start..keyEnd], None)
  {
    var propEnd := Find(config, start, COMMA);
    FindInSlice(config, start, propEnd, EQUALS);
  }

  /** The index-scanning loop computes the same thing as splitting first. */
  lemma {:induction false} ParseFromIsFold(config: seq<byte>, start: nat, flags: Flags)
    ensures ParseFrom(config, start, flags) == Fold(flags, PropsFrom(config, start))
    decreases |config| - start
  {
    if start < |config| {
      var next := StepAgrees(config, start, flags);
      if next.Some? {
        ParseFromIsFold(config, Find(config, start, COMMA) + 1, next.value);
      }
    }
  }

  /** The loop and the fold take the same step on the property at `start`:
      both stop with the same result, or both go on after the ',' with the
      same flags `next`. */
  lemma StepAgrees(config: seq<byte>, start: nat, flags: Flags) returns (next: Option<Flags>)
    requires start < |config|
    ensures next.None? ==> ParseFrom(config, start, flags) == Fold(flags, PropsFrom(config, start))
    ensures next.Some? ==>
      && ParseFrom(config, start, flags) == ParseFrom(config, Find(config, start, COMMA) + 1, next.value)
      && Fold(flags, PropsFrom(config, start)) == Fold(next.value, PropsFrom(config, Find(config, start, COMMA) + 1))
  {
    next := ParseStep(config, start, flags);
    var next' := FoldStep(config, start, flags);
  }

  /** The fold's side of one property: `next` is the property at `start`
      applied to the flags; the fold stops there or goes on with it. */
  lemma FoldStep(config: seq<byte>, start: nat, flags: Flags) returns (next: Option<Flags>)
    requires start < |config|
    ensures var propEnd := Find(config, start, COMMA);
      next == Apply1(flags, Interpret(Prop(config[start..propEnd], propEnd < |config|)))
    ensures next.None? ==> Fold(flags, PropsFrom(config, start)) == (flags, Fail(FilterSyntax))
    ensures next.Some? ==>
      Fold(flags, PropsFrom(config, start)) == Fold(next.value, PropsFrom(config, Find(config, start, COMMA) + 1))
  {
    var propEnd := Find(config, start, COMMA);
    var p := Prop(config[start..propEnd], propEnd < |config|);
    var rest := PropsFrom(config, propEnd + 1);
    next := Apply1(flags, Interpret(p));
    PropsStep(config, start);
    FoldCons(flags, p, rest);
  }

  /** One round of the loop, read through the meaning of the property it
      scans: `next` is that property applied to the flags. */
  lemma ParseStep(config: seq<byte>, start: nat, flags: Flags) returns (next: Option<Flags>)
    requires start < |config|
    ensures var propEnd := Find(config, start, COMMA);
      next == Apply1(flags, Interpret(Prop(config[start..propEnd], propEnd < |config|)))
    ensures next.None? ==> ParseFrom(config, start, flags) == (flags, Fail(FilterSyntax))
    ensures next.Some? ==> ParseFrom(config, start, flags) == ParseFrom(config, Find(config, start, COMMA) + 1, next.value)
  {
    var propEnd := Find(config, start, COMMA);
    var keyEnd := Find(config, start, EQUALS);
    var head := InterpretAt(config, start);
    next := Apply1(flags, head);
    assert ParseFrom(config, start, flags) == ParseProperty(config, start, flags);
    if propEnd >= keyEnd {
      var value := if keyEnd < |config| then Some(config[keyEnd + 1..propEnd]) else None;
      assert next == Update(flags, config[start..keyEnd], value);
      if next.Some? {
        assert ParseProperty(config, start, flags) == ParseFrom(config, propEnd + 1, next.value);
      }
    }
  }

  lemma PropsStep(config: seq<byte>, start: nat)
    requires start < |config|
    ensures var propEnd := Find(config, start, COMMA);
      PropsFrom(config, start) == [Prop(config[start..propEnd], propEnd < |config|)] + PropsFrom(config, propEnd + 1)
  {
  }

  lemma FoldCons(flags: Flags, p: Prop, rest: seq<Prop>)
    ensures var next := Apply1(flags, Interpret(p));
      Fold(flags, [p] + rest) == if next.None? then (flags, Fail(FilterSyntax)) else Fold(next.value, rest)
  {
    assert ([p] + rest)[1..] == rest;
  }

  /** The parser accepts a configuration exactly when every property is
      acceptable; then a flag is on exactly when the last property naming it
      says "true" (so a later setting overrides an earlier one). */
  lemma ParseConfigSpec(config: seq<byte>)
    ensures var props := Props(config);
      && (ParseConfig(config).1.Pass? <==> forall i | 0 <= i < |props| :: Acceptable(Interpret(props[i])))
      && (ParseConfig(config).1.Pass? ==>
            forall f: Flag :: Has(ParseConfig(config).0, f) <==>
              LastSetting(props, f) == Some(Setting(KeyName(f), Some(TRUE))))
  {
    ParseFromIsFold(config, 0, NoFlags);
    FoldSpec(NoFlags, Props(config));
  }

  lemma {:induction false} FoldSpec(flags: Flags, props: seq<Prop>)
    ensures Fold(flags, props).1.Pass? <==> forall i | 0 <= i < |props| :: Acceptable(Interpret(props[i]))
    ensures Fold(flags, props).1.Pass? ==>
      forall f: Flag :: Has(Fold(flags, props).0, f) <==>
        (if LastSetting(props, f).None? then Has(flags, f)
         else LastSetting(props, f) == Some(Setting(KeyName(f), Some(TRUE))))
    decreases |props|
  {
    if |props| > 0 {
      var s := Interpret(props[0]);
      if Apply1(flags, s).Some? {
        var flags' := Apply1(flags, s).value;
        FoldSpec(flags', props[1..]);
        assert forall i | 1 <= i < |props| :: props[i] == props[1..][i - 1];
        if Fold(flags, props).1.Pass? {
          forall f: Flag
            ensures Has(Fold(flags, props).0, f) <==>
              (if LastSetting(props, f).None? then Has(flags, f)
               else LastSetting(props, f) == Some(Setting(KeyName(f), Some(TRUE))))
          {
            LastSettingCons(props, f);
            Apply1Has(flags, s, f);
          }
        }
      }
    }
  }

  /** An accepted setting changes only the flag its key names, to what its value says. */
  lemma Apply1Has(flags: Flags, s: Setting, f: Flag)
    requires Apply1(flags, s).Some?
    ensures Has(Apply1(flags, s).value, f) ==
      if s.key == KeyName(f) then s.value == Some(TRUE) else Has(flags, f)
  {
    if s.key == KeyName(f) {
      KeyNamesDistinct(f);
    }
  }

  /** The key and value tests of the property loop: a property is rejected exactly when its key names a flag
      and its value is neither "true" nor "false"; otherwise only the flag
      its key names changes, to what its value says, and an unknown key
      changes nothing. */
  lemma UpdateSpec(flags: Flags, key: seq<byte>, value: Option<seq<byte>>, f: Flag)
    ensures Update(flags, key, value).None? <==>
      KeyFlag(key).Some? && value != Some(TRUE) && value != Some(FALSE)
    ensures Update(flags, key, value).Some? ==>
      Has(Update(flags, key, value).value, f) == if key == KeyName(f) then value == Some(TRUE) else Has(flags, f)
  {
    if Update(flags, key, value).Some? {
      Apply1Has(flags, Setting(key, value), f);
    }
  }

  /** Only the name of `f` selects `f`. */
  lemma KeyNamesDistinct(f: Flag)
    ensures KeyFlag(KeyName(f)) == Some(f)
  {
  }

  /** The last property naming `f` is in the tail, or is the head. */
  lemma {:induction false} LastSettingCons(props: seq<Prop>, f: Flag)
    requires |props| > 0
    ensures var s := Interpret(props[0]);
      LastSetting(props, f) ==
        (if LastSetting(props[1..], f).Some? then LastSetting(props[1..], f)
         else if s.Setting? && s.key == KeyName(f) then Some(s)
         else None)
    decreases |props|
  {
    if |props| > 1 {
      var init := props[..|props| - 1];
      assert init[0] == props[0];
      assert init[1..] == props[1..][..|props[1..]| - 1];
      assert props[1..][|props[1..]| - 1] == props[|props| - 1];
      LastSettingCons(init, f);
    } else {
      assert props[1..] == [];
      assert props[..|props| - 1] == [];
    }
  }

  lemma EmptyConfig()
    ensures ParseConfig([]) == (NoFlags, Pass)
  {
  }

  // ---------------------------------------------------------------------------
  // The rewriting pass.

  /** utf8_length in src/filter.c: the length of the sequence a lead byte
      announces, from its high bits (110xxxxx, 1110xxxx, 11110xxx; else 1). */
  function Utf8Length(c: byte): (r: nat)
    ensures 1 <= r <= 4
    ensures r == 2 <==> 0xC0 <= c < 0xE0
    ensures r == 3 <==> 0xE0 <= c < 0xF0
    ensures r == 4 <==> 0xF0 <= c < 0xF8
  {
    if c / 32 == 0x06 then 2
    else if c / 16 == 0x0E then 3
    else if c / 8 == 0x1E then 4
    else 1
  }

  /** is_restricted_ascii: printable ASCII, or one of CR, LF, TAB. */
  predicate IsRestrictedAscii(c: byte)
    ensures IsRestrictedAscii(c) ==> c < DEL && Utf8Length(c) == 1
  {
    (SPACE <= c <= 0x7E) || c == CR || c == LF || c == TAB
  }

  /** The twelve three-byte punctuation sequences and their ASCII substitutes:
      em dash, en dash, hyphen, non-breaking hyphen; three double quotes; three
      single quotes; two bullets. */
  function Substitute(t: seq<byte>): (r: Option<byte>)
    requires |t| == 3
    ensures r.Some? <==>
      (t[0] == 0xE2 && t[1] == 0x80 && t[2] in {0x90, 0x91, 0x93, 0x94, 0x98, 0x99, 0x9C, 0x9D, 0xA2, 0xA3, 0xB2, 0xB3})
    ensures r.Some? ==> IsRestrictedAscii(r.value) && r.value in {0x22, 0x27, 0x2A, 0x2D}
  {
    if t[0] != 0xE2 || t[1] != 0x80 then None
    else match t[2]
      case 0x94 => Some('-' as int)
      case 0x93 => Some('-' as int)
      case 0x90 => Some('-' as int)
      case 0x91 => Some('-' as int)
      case 0x9C => Some('"' as int)
      case 0x9D => Some('"' as int)
      case 0xB3 => Some('"' as int)
      case 0x98 => Some('\'' as int)
      case 0x99 => Some('\'' as int)
      case 0xB2 => Some('\'' as int)
      case 0xA2 => Some('*' as int)
      case 0xA3 => Some('*' as int)
      case _ => None
  }

  /** One iteration of the filter loop: the bytes written and the bytes
      consumed, or `Overrun` when the source reads past the end of the input. */
  datatype Step = Emit(out: seq<byte>, consumed: nat) | Overrun

  /** The loop body of toke_filter at the start of `s`, rules in their fixed
      priority order. */
  function FilterStep(flags: Flags, s: seq<byte>): (r: Step)
    requires |s| > 0
    ensures r.Emit? ==> 1 <= r.consumed && |r.out| <= r.consumed && |r.out| <= |s|
  {
    var c := s[0];
    var n := Utf8Length(c);
    if Has(flags, NormalizeLines) && c == CR then
      if |s| > 1 && s[1] == LF then Emit([LF], 2) else Emit([LF], 1)
    else if Has(flags, NormalizeTabs) && c == TAB then Emit([SPACE], 1)
    else if Has(flags, UnicodeSubstitutes) && n == 3 && |s| < 3 then Overrun
    else if Has(flags, UnicodeSubstitutes) && n == 3 && Substitute(s[..3]).Some? then
      Emit([Substitute(s[..3]).value], 3)
    else if Has(flags, RestrictedAscii) && !IsRestrictedAscii(c) then Emit([DEL], n)
    else if Has(flags, Lowercase) && 'A' as int <= c <= 'Z' as int then Emit([c + 32], 1)
    else if n > |s| then Overrun
    else Emit(s[..n], n)
  }

  /** toke_filter: the whole pass, or `None` when some step overruns. A step
      that consumes past the end (restricted-ASCII on a truncated sequence)
      ends the loop without reading further. */
  function Apply(flags: Flags, s: seq<byte>): (r: Option<seq<byte>>)
    ensures r.Some? ==> |r.value| <= |s|
    decreases |s|
  {
    if |s| == 0 then Some([])
    else match FilterStep(flags, s)
      case Overrun => None
      case Emit(out, k) =>
        if k >= |s| then Some(out)
        else match Apply(flags, s[k..])
          case None => None
          case Some(rest) => Some(out + rest)
  }
}

=== FILE: filter_laws.dfy ===
/** What the rewriting pass of src/filter.c does, stated against reference
    readings of the input: byte strings cut into UTF-8 units, and per-byte maps. */
module FilterLaws {
  import opened Wrappers
  import opened Bytes
  import opened Filter

  /** Every unit announced by a lead byte fits in the input: the pass then
      never reads past the end. */
  predicate Complete(s: seq<byte>)
    decreases |s|
  {
    |s| == 0 || (Utf8Length(s[0]) <= |s| && Complete(s[Utf8Length(s[0])..]))
  }

  predicate IsContinuation(b: byte)
  {
    0x80 <= b < 0xC0
  }

  /** Complete, and every byte after a lead is a continuation byte (10xxxxxx). */
  predicate WellFramed(s: seq<byte>)
    decreases |s|
  {
    |s| == 0 ||
    (var n := Utf8Length(s[0]);
     n <= |s| && (forall i | 1 <= i < n :: IsContinuation(s[i])) && WellFramed(s[n..]))
  }

  lemma {:induction false} WellFramedIsComplete(s: seq<byte>)
    requires WellFramed(s)
    ensures Complete(s)
    decreases |s|
  {
    if |s| > 0 {
      WellFramedIsComplete(s[Utf8Length(s[0])..]);
    }
  }

  // ---------------------------------------------------------------------------
  // Memory safety.

  /** One step on a complete input writes something, and leaves a complete rest. */
  lemma StepOnComplete(flags: Flags, s: seq<byte>)
    requires |s| > 0 && Complete(s)
    ensures FilterStep(flags, s).Emit?
    ensures var k := FilterStep(flags, s).consumed; k < |s| ==> Complete(s[k..])
  {
    if Has(flags, NormalizeLines) && s[0] == CR && |s| > 1 && s[1] == LF {
      assert Complete(s[1..]);
      assert s[1..][1..] == s[2..];
    }
  }

  /** The pass never overruns a complete input, whatever the flags. */
  lemma {:induction false} ApplyComplete(flags: Flags, s: seq<byte>)
    requires Complete(s)
    ensures Apply(flags, s).Some?
    decreases |s|
  {
    if |s| > 0 {
      StepOnComplete(flags, s);
      var k := FilterStep(flags, s).consumed;
      if k < |s| {
        ApplyComplete(flags, s[k..]);
      }
    }
  }

  /** With no flag set the pass copies its input, and fails exactly when the
      last unit is cut short. */
  lemma {:induction false} ApplyNoFlags(s: seq<byte>)
    ensures Apply(NoFlags, s) == if Complete(s) then Some(s) else None
    decreases |s|
  {
    if |s| > 0 {
      var n := Utf8Length(s[0]);
      assert FilterStep(NoFlags, s) == if n > |s| then Overrun else Emit(s[..n], n);
      if n < |s| {
        ApplyNoFlags(s[n..]);
        assert s[..n] + s[n..] == s;
        assert Complete(s) == Complete(s[n..]);
      } else if n == |s| {
        assert s[..n] == s;
        assert Complete(s[n..]);
      }
    }
  }

  /** With restricted_ascii on every written byte is restricted ASCII or DEL,
      and only a cut-short substitution candidate can make the pass overrun. */
  lemma {:induction false} ApplyRestricted(flags: Flags, s: seq<byte>)
    requires Has(flags, RestrictedAscii)
    ensures !Has(flags, UnicodeSubstitutes) ==> Apply(flags, s).Some?
    ensures Apply(flags, s).Some? ==>
      forall i | 0 <= i < |Apply(flags, s).value| ::
        IsRestrictedAscii(Apply(flags, s).value[i]) || Apply(flags, s).value[i] == DEL
    decreases |s|
  {
    if |s| > 0 {
      StepRestricted(flags, s);
      match FilterStep(flags, s)
      case Overrun =>
      case Emit(out, k) =>
        if k < |s| {
          ApplyRestricted(flags, s[k..]);
        }
    }
  }

  lemma StepRestricted(flags: Flags, s: seq<byte>)
    requires Has(flags, RestrictedAscii) && |s| > 0
    ensures !Has(flags, UnicodeSubstitutes) ==> FilterStep(flags, s).Emit?
    ensures FilterStep(flags, s).Emit? ==>
      forall i | 0 <= i < |FilterStep(flags, s).out| ::
        IsRestrictedAscii(FilterStep(flags, s).out[i]) || FilterStep(flags, s).out[i] == DEL
  {
  }

  // ---------------------------------------------------------------------------
  // Single flags against per-byte references.

  function Lower(b: byte): byte
  {
    if 'A' as int <= b <= 'Z' as int then b + 32 else b
  }

  /** lowercase alone maps every ASCII capital to its small letter and keeps
      every other byte of a well-framed input. */
  lemma {:induction false} LowercaseOnly(s: seq<byte>)
    requires WellFramed(s)
    ensures Apply(Only(Lowercase), s).Some?
    ensures var o := Apply(Only(Lowercase), s).value;
      |o| == |s| && forall i | 0 <= i < |s| :: o[i] == Lower(s[i])
    decreases |s|
  {
    if |s| > 0 {
      var n := Utf8Length(s[0]);
      var out := LowerStep(s);
      if n < |s| {
        var tail := s[n..];
        LowercaseOnly(tail);
        var rest := Apply(Only(Lowercase), tail).value;
        assert Apply(Only(Lowercase), s) == Some(out + rest);
        LowerConcat(s, n, out, rest);
      } else {
        assert Apply(Only(Lowercase), s) == Some(out);
      }
    }
  }

  /** One step of lowercase alone over a well-framed input: it emits the
      whole sequence at the front, with a capital made small. */
  lemma LowerStep(s: seq<byte>) returns (out: seq<byte>)
    requires WellFramed(s) && |s| > 0
    ensures FilterStep(Only(Lowercase), s) == Emit(out, Utf8Length(s[0]))
    ensures |out| == Utf8Length(s[0]) && forall i | 0 <= i < |out| :: out[i] == Lower(s[i])
    ensures WellFramed(s[Utf8Length(s[0])..])
  {
    out := FilterStep(Only(Lowercase), s).out;
  }

  lemma LowerConcat(s: seq<byte>, n: nat, out: seq<byte>, rest: seq<byte>)
    requires n <= |s| && |out| == n && |rest| == |s| - n
    requires forall i | 0 <= i < n :: out[i] == Lower(s[i])
    requires forall j | 0 <= j < |rest| :: rest[j] == Lower(s[n..][j])
    ensures forall i | 0 <= i < |s| :: (out + rest)[i] == Lower(s[i])
  {
    forall i | n <= i < |s|
      ensures (out + rest)[i] == Lower(s[i])
    {
      assert s[n..][i - n] == s[i];
    }
  }

  /** The single flags whose every step writes what a second pass copies:
      lowercase writes no capital, normalize_tabs no TAB, and
      restricted_ascii only restricted ASCII and DEL, each a one-byte unit. */
  predicate Settled(f: Flag)
  {
    f == Lowercase || f == NormalizeTabs || f == RestrictedAscii
  }

  /** Running the pass of one such flag twice is running it once, on any
      input the pass accepts. */
  lemma {:induction false} PassAgain(f: Flag, s: seq<byte>)
    requires Settled(f) && Apply(Only(f), s).Some?
    ensures var o := Apply(Only(f), s).value; Apply(Only(f), o) == Some(o)
    decreases |s|
  {
    if |s| > 0 {
      var out := FilterStep(Only(f), s).out;
      var k := FilterStep(Only(f), s).consumed;
      var o := Apply(Only(f), s).value;
      if k < |s| {
        PassAgain(f, s[k..]);
        var rest := Apply(Only(f), s[k..]).value;
        assert o == out + rest;
        assert o[..|out|] == out && o[|out|..] == rest;
        StepAgain(f, s, o);
      } else {
        assert o == out;
        assert o[..|out|] == out;
        StepAgain(f, s, o);
      }
    }
  }

  /** What one step writes is copied unchanged by the next pass. */
  lemma StepAgain(f: Flag, s: seq<byte>, o: seq<byte>)
    requires Settled(f) && |s| > 0 && FilterStep(Only(f), s).Emit?
    requires var out := FilterStep(Only(f), s).out; |out| <= |o| && o[..|out|] == out
    ensures var out := FilterStep(Only(f), s).out;
      |o| > 0 && FilterStep(Only(f), o) == Emit(out, |out|)
  {
    var out := FilterStep(Only(f), s).out;
    assert o[0] == out[0];
  }

  /** Lower-casing twice is lower-casing once, on any input the pass accepts. */
  lemma LowercaseIdempotent(s: seq<byte>)
    requires Apply(Only(Lowercase), s).Some?
    ensures var o := Apply(Only(Lowercase), s).value; Apply(Only(Lowercase), o) == Some(o)
  {
    PassAgain(Lowercase, s);
  }

  /** restricted_ascii alone accepts every input, and a second pass over its
      output changes nothing. */
  lemma RestrictedIdempotent(s: seq<byte>)
    ensures Apply(Only(RestrictedAscii), s).Some?
    ensures var o := Apply(Only(RestrictedAscii), s).value; Apply(Only(RestrictedAscii), o) == Some(o)
  {
    ApplyRestricted(Only(RestrictedAscii), s);
    PassAgain(RestrictedAscii, s);
  }

  /** normalize_tabs twice is normalize_tabs once, on any input the pass
      accepts. */
  lemma TabsIdempotent(s: seq<byte>)
    requires Apply(Only(NormalizeTabs), s).Some?
    ensures var o := Apply(Only(NormalizeTabs), s).value; Apply(Only(NormalizeTabs), o) == Some(o)
  {
    PassAgain(NormalizeTabs, s);
  }

  function Untab(b: byte): byte
  {
    if b == TAB then SPACE else b
  }

  /** normalize_tabs alone turns every tab of a well-framed input into a space. */
  lemma {:induction false} TabsOnly(s: seq<byte>)
    requires WellFramed(s)
    ensures Apply(Only(NormalizeTabs), s).Some?
    ensures var o := Apply(Only(NormalizeTabs), s).value;
      |o| == |s| && forall i | 0 <= i < |s| :: o[i] == Untab(s[i])
    decreases |s|
  {
    if |s| > 0 {
      var n := Utf8Length(s[0]);
      var out := TabsStep(s);
      if n < |s| {
        var tail := s[n..];
        TabsOnly(tail);
        var rest := Apply(Only(NormalizeTabs), tail).value;
        assert Apply(Only(NormalizeTabs), s) == Some(out + rest);
        UntabConcat(s, n, out, rest);
      } else {
        assert Apply(Only(NormalizeTabs), s) == Some(out);
      }
    }
  }

  lemma UntabConcat(s: seq<byte>, n: nat, out: seq<byte>, rest: seq<byte>)
    requires n <= |s| && |out| == n && |rest| == |s| - n
    requires forall i | 0 <= i < n :: out[i] == Untab(s[i])
    requires forall j | 0 <= j < |rest| :: rest[j] == Untab(s[n..][j])
    ensures forall i | 0 <= i < |s| :: (out + rest)[i] == Untab(s[i])
  {
    forall i | n <= i < |s|
      ensures (out + rest)[i] == Untab(s[i])
    {
      assert s[n..][i - n] == s[i];
    }
  }

  /** One step of normalize_tabs alone over a well-framed input: it emits the
      whole sequence at the front, with a tab turned into a space. */
  lemma TabsStep(s: seq<byte>) returns (out: seq<byte>)
    requires WellFramed(s) && |s| > 0
    ensures FilterStep(Only(NormalizeTabs), s) == Emit(out, Utf8Length(s[0]))
    ensures |out| == Utf8Length(s[0]) && forall i | 0 <= i < |out| :: out[i] == Untab(s[i])
    ensures WellFramed(s[Utf8Length(s[0])..])
  {
    out := FilterStep(Only(NormalizeTabs), s).out;
  }

  /** Line-ending normalisation on bytes: CR LF and a lone CR both become LF. */
  function CrLf(s: seq<byte>): (r: seq<byte>)
    ensures CR !in r
    ensures |r| <= |s|
    decreases |s|
  {
    if |s| == 0 then []
    else if s[0] == CR then
      if |s| > 1 && s[1] == LF then [LF] + CrLf(s[2..]) else [LF] + CrLf(s[1..])
    else [s[0]] + CrLf(s[1..])
  }

  lemma {:induction false} CrLfSkip(s: seq<byte>, n: nat)
    requires n <= |s| && forall i | 0 <= i < n :: s[i] != CR
    ensures CrLf(s) == s[..n] + CrLf(s[n..])
    decreases n
  {
    if n > 0 {
      CrLfSkip(s[1..], n - 1);
      assert s[1..][n - 1..] == s[n..];
      assert [s[0]] + s[1..][..n - 1] == s[..n];
    }
  }

  /** Without a CR there is nothing to normalise. */
  lemma CrLfNoCr(s: seq<byte>)
    requires CR !in s
    ensures CrLf(s) == s
  {
    CrLfSkip(s, |s|);
    assert s[..|s|] == s;
  }

  /** normalize_lines alone rewrites a well-framed input exactly as CrLf does,
      so its output holds no CR. */
  lemma {:induction false} LinesOnly(s: seq<byte>)
    requires WellFramed(s)
    ensures Apply(Only(NormalizeLines), s) == Some(CrLf(s))
    decreases |s|
  {
    if |s| > 0 {
      var out, k := LinesStep(s);
      if k < |s| {
        LinesOnly(s[k..]);
        assert Apply(Only(NormalizeLines), s) == Some(out + CrLf(s[k..]));
      } else {
        assert Apply(Only(NormalizeLines), s) == Some(out);
        assert CrLf(s[k..]) == [];
        assert out + [] == out;
      }
    }
  }

  /** One step of normalize_lines alone over a well-framed input writes
      what CrLf writes for the bytes it consumes. */
  lemma LinesStep(s: seq<byte>) returns (out: seq<byte>, k: nat)
    requires WellFramed(s) && |s| > 0
    ensures 0 < k <= |s| && FilterStep(Only(NormalizeLines), s) == Emit(out, k)
    ensures CrLf(s) == out + CrLf(s[k..])
    ensures WellFramed(s[k..])
  {
    var n := Utf8Length(s[0]);
    if s[0] == CR {
      k := if |s| > 1 && s[1] == LF then 2 else 1;
      out := [LF];
      assert FilterStep(Only(NormalizeLines), s) == Emit([LF], k);
      assert CrLf(s) == [LF] + CrLf(s[k..]);
      assert WellFramed(s[1..]);
      assert k == 2 ==> s[1..][1..] == s[2..];
    } else {
      k := n;
      out := s[..n];
      CrLfSkip(s, n);
      assert FilterStep(Only(NormalizeLines), s) == Emit(s[..n], n);
    }
  }

  // ---------------------------------------------------------------------------
  // unicode_substitutes.

  /** A listed three-byte sequence is replaced by its ASCII substitute whatever
      else is switched on. */
  lemma SubstitutionWins(flags: Flags, s: seq<byte>)
    requires Has(flags, UnicodeSubstitutes) && |s| >= 3 && Substitute(s[..3]).Some?
    ensures FilterStep(flags, s) == Emit([Substitute(s[..3]).value], 3)
  {
  }

  /** Any other unit is treated as if unicode_substitutes were off. */
  lemma NoSubstitutionNoEffect(flags: Flags, s: seq<byte>)
    requires |s| > 0
    requires Utf8Length(s[0]) != 3 || (|s| >= 3 && Substitute(s[..3]).None?)
    ensures FilterStep(flags, s) == FilterStep(With(flags, UnicodeSubstitutes, false), s)
  {
  }
}

=== FILE: initializer.dfy ===
/** The vocabulary seeding of tool/initializer.cpp: every file is cut into
    UTF-8 units, each file's units are collected in a sorted set, and the
    union is appended to the vocabulary in ascending order. */
module Initializer {
  import opened Bytes
  import Utf8
  import Model
  import Vocab

  /** One std::set per file, each a strictly sorted array. */
  type FileSets = seq<seq<seq<byte>>>

  predicate AllSorted(sets: FileSets)
  {
    forall f | 0 <= f < |sets| :: Model.Sorted(sets[f])
  }

  /** prepare: one empty set per file, whatever was there before. */
  function Prepare(sets: FileSets, numFiles: nat): (r: FileSets)
    ensures |r| == numFiles && AllSorted(r)
    ensures forall f | 0 <= f < numFiles :: |r[f]| == 0
  {
    seq(numFiles, f => [])
  }

  /** The sorted set `defs` with every one of `items` added. */
  function IncludeAll(defs: seq<seq<byte>>, items: seq<seq<byte>>): (r: seq<seq<byte>>)
    requires Model.Sorted(defs)
    ensures Model.Sorted(r)
    ensures forall x :: x in r <==> x in defs || x in items
    decreases |items|
  {
    if |items| == 0 then defs
    else
      var r := IncludeAll(Model.Include(defs, items[0]), items[1..]);
      assert forall x :: x in items <==> x == items[0] || x in items[1..];
      r
  }

  /** visitFile: the units of the file are added to its own set. */
  function VisitFile(sets: FileSets, data: seq<byte>, fileIndex: nat): (r: FileSets)
    requires fileIndex < |sets| && AllSorted(sets)
    ensures |r| == |sets| && AllSorted(r)
    ensures forall x :: x in r[fileIndex] <==> x in sets[fileIndex] || x in Utf8.Chunks(data)
    ensures forall f | 0 <= f < |sets| && f != fileIndex :: r[f] == sets[f]
  {
    sets[fileIndex := IncludeAll(sets[fileIndex], Utf8.Chunks(data))]
  }

  /** The union of the per-file sets, in ascending order. */
  function Combined(sets: FileSets): (r: seq<seq<byte>>)
    requires AllSorted(sets)
    ensures Model.Sorted(r)
    ensures forall x :: x in r <==> exists f | 0 <= f < |sets| :: x in sets[f]
    decreases |sets|
  {
    if |sets| == 0 then []
    else
      var rest := Combined(sets[1..]);
      assert forall f | 1 <= f < |sets| :: sets[f] == sets[1..][f - 1];
      var r := IncludeAll(rest, sets[0]);
      assert forall x :: (exists f | 0 <= f < |sets| :: x in sets[f]) <==>
        x in sets[0] || exists f | 0 <= f < |sets[1..]| :: x in sets[1..][f];
      r
  }

  /** finalize: each distinct unit seen in any file is defined once, in
      ascending byte order, after the definitions already there. */
  function Finalize(v: Vocab.Vocab, sets: FileSets): (r: Vocab.Vocab)
    requires AllSorted(sets)
    ensures r.filterConfig == v.filterConfig
    ensures |v.defs| <= |r.defs| && r.defs[..|v.defs|] == v.defs
    ensures Model.Sorted(r.defs[|v.defs|..])
    ensures forall x :: x in r.defs[|v.defs|..] <==> exists f | 0 <= f < |sets| :: x in sets[f]
  {
    var added := Combined(sets);
    assert (v.defs + added)[..|v.defs|] == v.defs;
    assert (v.defs + added)[|v.defs|..] == added;
    Vocab.Vocab(v.filterConfig, v.defs + added)
  }

  /** fileSet->accept(initializer): prepare, one visit per file, finalize. */
  function VisitAll(sets: FileSets, files: seq<seq<byte>>, from: nat): (r: FileSets)
    requires |sets| == |files| && from <= |files| && AllSorted(sets)
    ensures |r| == |files| && AllSorted(r)
    decreases |files| - from
  {
    if from == |files| then sets else VisitAll(VisitFile(sets, files[from], from), files, from + 1)
  }

  /** Seeding keeps the configuration and the definitions already there,
      and appends new ones in ascending byte order. */
  function Seed(v: Vocab.Vocab, files: seq<seq<byte>>): (r: Vocab.Vocab)
    ensures r.filterConfig == v.filterConfig
    ensures |v.defs| <= |r.defs| && r.defs[..|v.defs|] == v.defs
    ensures Model.Sorted(r.defs[|v.defs|..])
  {
    Finalize(v, VisitAll(Prepare([], |files|), files, 0))
  }

  /** After the visits, file f's set holds exactly its units (for files
      visited) and nothing else. */
  lemma {:induction false} VisitAllSets(sets: FileSets, files: seq<seq<byte>>, from: nat)
    requires |sets| == |files| && from <= |files| && AllSorted(sets)
    ensures forall f, x | 0 <= f < |files| :: x in VisitAll(sets, files, from)[f] <==>
      x in sets[f] || (from <= f && x in Utf8.Chunks(files[f]))
    decreases |files| - from
  {
    if from < |files| {
      VisitAllSets(VisitFile(sets, files[from], from), files, from + 1);
    }
  }

  /** Seeding appends, in strictly ascending order and each once, exactly
      the units found in the files; every one is a whole UTF-8 unit of 1 to
      4 bytes. */
  lemma SeedSpec(v: Vocab.Vocab, files: seq<seq<byte>>)
    ensures var r := Seed(v, files);
      && r.defs[..|v.defs|] == v.defs
      && Model.Sorted(r.defs[|v.defs|..])
      && (forall x :: x in r.defs[|v.defs|..] <==> exists f | 0 <= f < |files| :: x in Utf8.Chunks(files[f]))
      && (forall x | x in r.defs[|v.defs|..] :: Utf8.IsUnit(x) && |x| <= 4)
  {
    var empty := Prepare([], |files|);
    VisitAllSets(empty, files, 0);
    forall f | 0 <= f < |files| {
      Utf8.ChunksAreUnits(files[f]);
    }
  }
}

=== FILE: model.dfy ===
/** The model of src/model.c: a set of token definitions kept sorted,
    seeded from Unicode blocks through UTF-8 (section 3 of RFC 3629). */
module Model {
  import opened Wrappers
  import opened Bytes
  import Filter

  // ---------------------------------------------------------------------------
  // Ordering of definitions.

  /** memcmp over the first `n` bytes, as the sign of its result. */
  function MemCmp(a: seq<byte>, b: seq<byte>, n: nat): (c: int)
    requires n <= |a| && n <= |b|
    ensures -1 <= c <= 1
    ensures c == 0 <==> a[..n] == b[..n]
    decreases n
  {
    if n == 0 then 0
    else if a[0] != b[0] then (if a[0] < b[0] then -1 else 1)
    else
      var c := MemCmp(a[1..], b[1..], n - 1);
      assert a[..n] == [a[0]] + a[1..][..n - 1];
      assert b[..n] == [b[0]] + b[1..][..n - 1];
      c
  }

  /** cmp_token_defs: the shared bytes decide, and where one definition is a
      prefix of the other the shorter comes first. The source passes on
      memcmp's value, of which qsort and bsearch use only the sign; the
      model keeps just that sign, as -1, 0 or 1. */
  function Compare(l: seq<byte>, r: seq<byte>): (c: int)
    ensures -1 <= c <= 1
  {
    var n := if |l| < |r| then |l| else |r|;
    var c := MemCmp(l, r, n);
    if c != 0 then c
    else if |l| == |r| then 0
    else if |l| < |r| then -1 else 1
  }

  predicate Less(l: seq<byte>, r: seq<byte>)
  {
    Compare(l, r) < 0
  }

  /** Comparing two non-empty definitions looks at the first bytes, then at
      the rest. */
  lemma CompareStep(l: seq<byte>, r: seq<byte>)
    requires |l| > 0 && |r| > 0
    ensures Compare(l, r) ==
      if l[0] != r[0] then (if l[0] < r[0] then -1 else 1) else Compare(l[1..], r[1..])
  {
  }

  /** Compare is zero exactly on equal definitions. */
  lemma {:induction false} CompareEqual(l: seq<byte>, r: seq<byte>)
    ensures Compare(l, r) == 0 <==> l == r
    decreases |l|
  {
    if |l| > 0 && |r| > 0 {
      CompareStep(l, r);
      CompareEqual(l[1..], r[1..]);
      if l[0] == r[0] {
        assert l == [l[0]] + l[1..] && r == [r[0]] + r[1..];
      }
    }
  }

  /** A proper prefix comes before the definitions it starts: the shared
      bytes agree, so the shorter one is the smaller. */
  lemma PrefixFirst(l: seq<byte>, r: seq<byte>)
    requires |l| < |r| && r[..|l|] == l
    ensures Less(l, r)
  {
    assert l[..|l|] == l;
  }

  /** Swapping the operands negates the comparison. */
  lemma {:induction false} CompareAntisymmetric(l: seq<byte>, r: seq<byte>)
    ensures Compare(l, r) == -Compare(r, l)
    decreases |l|
  {
    if |l| > 0 && |r| > 0 {
      CompareStep(l, r);
      CompareStep(r, l);
      CompareAntisymmetric(l[1..], r[1..]);
    }
  }

  lemma {:induction false} LessTransitive(a: seq<byte>, b: seq<byte>, c: seq<byte>)
    requires Less(a, b) && Less(b, c)
    ensures Less(a, c)
    decreases |a|
  {
    if |a| > 0 {
      assert |b| > 0 && |c| > 0;
      CompareStep(a, b);
      CompareStep(b, c);
      CompareStep(a, c);
      if a[0] == b[0] && b[0] == c[0] {
        LessTransitive(a[1..], b[1..], c[1..]);
      }
    }
  }

  /** Any two different definitions are ordered one way or the other. */
  lemma LessTotal(l: seq<byte>, r: seq<byte>)
    ensures l == r || Less(l, r) || Less(r, l)
    ensures !(Less(l, r) && Less(r, l))
  {
    CompareEqual(l, r);
    CompareAntisymmetric(l, r);
  }

  /** The invariant of the definition array: strictly increasing, so free of
      duplicates. */
  predicate Sorted(defs: seq<seq<byte>>)
  {
    forall i, j | 0 <= i < j < |defs| :: Less(defs[i], defs[j])
  }

  datatype Model = Model(defs: seq<seq<byte>>)

  /** toke_model_new. */
  const NewModel: Model := Model([])

  /** toke_model_size. */
  function Size(m: Model): nat
  {
    |m.defs|
  }

  // ---------------------------------------------------------------------------
  // Lookup and insertion.

  /** find_token: bsearch over the sorted array. */
  method FindToken(m: Model, key: seq<byte>) returns (r: Option<nat>)
    requires Sorted(m.defs)
    ensures r.Some? ==> r.value < |m.defs| && m.defs[r.value] == key
    ensures r.None? <==> key !in m.defs
  {
    var lo, hi := 0, |m.defs|;
    while lo < hi
      invariant 0 <= lo <= hi <= |m.defs|
      invariant forall i | 0 <= i < lo :: Less(m.defs[i], key)
      invariant forall i | hi <= i < |m.defs| :: Less(key, m.defs[i])
      decreases hi - lo
    {
      var mid := lo + (hi - lo) / 2;
      var c := Compare(m.defs[mid], key);
      CompareEqual(m.defs[mid], key);
      if c == 0 {
        return Some(mid);
      } else if c < 0 {
        forall i | 0 <= i <= mid
          ensures Less(m.defs[i], key)
        {
          if i < mid {
            LessTransitive(m.defs[i], m.defs[mid], key);
          }
        }
        lo := mid + 1;
      } else {
        CompareAntisymmetric(m.defs[mid], key);
        forall i | mid <= i < |m.defs|
          ensures Less(key, m.defs[i])
        {
          if mid < i {
            LessTransitive(key, m.defs[mid], m.defs[i]);
          }
        }
        hi := mid;
      }
    }
    forall i | 0 <= i < |m.defs|
      ensures m.defs[i] != key
    {
      LessTotal(m.defs[i], key);
    }
    return None;
  }

  /** The number of definitions below `d`: where `d` goes in the array. */
  function Position(defs: seq<seq<byte>>, d: seq<byte>): (k: nat)
    ensures k <= |defs|
    decreases |defs|
  {
    if |defs| == 0 || !Less(defs[0], d) then 0 else 1 + Position(defs[1..], d)
  }

  /** In a sorted array, everything before the position is below `d` and
      everything from it on is above. */
  lemma {:induction false} PositionSplits(defs: seq<seq<byte>>, d: seq<byte>)
    requires Sorted(defs) && d !in defs
    ensures forall i | 0 <= i < Position(defs, d) :: Less(defs[i], d)
    ensures forall i | Position(defs, d) <= i < |defs| :: Less(d, defs[i])
    decreases |defs|
  {
    if |defs| > 0 {
      var k := Position(defs, d);
      if Less(defs[0], d) {
        assert Sorted(defs[1..]);
        PositionSplits(defs[1..], d);
        assert forall i | 1 <= i < |defs| :: defs[i] == defs[1..][i - 1];
      } else {
        LessTotal(defs[0], d);
        forall i | 0 < i < |defs|
          ensures Less(d, defs[i])
        {
          LessTransitive(d, defs[0], defs[i]);
        }
      }
    }
  }

  /** The sorted array with `d` added in its place. */
  function SortedInsert(defs: seq<seq<byte>>, d: seq<byte>): seq<seq<byte>>
  {
    var k := Position(defs, d);
    defs[..k] + [d] + defs[k..]
  }

  lemma InsertKeepsSorted(defs: seq<seq<byte>>, d: seq<byte>)
    requires Sorted(defs) && d !in defs
    ensures Sorted(SortedInsert(defs, d))
    ensures forall x :: x in SortedInsert(defs, d) <==> x in defs || x == d
    ensures |SortedInsert(defs, d)| == |defs| + 1
  {
    InsertSorted(defs, d);
    InsertMembers(defs, d);
  }

  /** Where each element of the insertion comes from. */
  lemma InsertAt(defs: seq<seq<byte>>, d: seq<byte>, i: nat)
    requires i <= |defs|
    ensures var k := Position(defs, d);
      SortedInsert(defs, d)[i] == if i < k then defs[i] else if i == k then d else defs[i - 1]
  {
  }

  lemma InsertSorted(defs: seq<seq<byte>>, d: seq<byte>)
    requires Sorted(defs) && d !in defs
    ensures Sorted(SortedInsert(defs, d))
  {
    var k := Position(defs, d);
    var r := SortedInsert(defs, d);
    PositionSplits(defs, d);
    forall i, j | 0 <= i < j < |r|
      ensures Less(r[i], r[j])
    {
      InsertAt(defs, d, i);
      InsertAt(defs, d, j);
      if i == k {
        assert Less(d, defs[j - 1]);
      } else if j == k {
        assert Less(defs[i], d);
      } else if i < k < j {
        assert Less(defs[i], defs[j - 1]);
      }
    }
  }

  lemma InsertMembers(defs: seq<seq<byte>>, d: seq<byte>)
    ensures forall x :: x in SortedInsert(defs, d) <==> x in defs || x == d
  {
    var k := Position(defs, d);
    calc {
      multiset(SortedInsert(defs, d));
      multiset(defs[..k]) + multiset{d} + multiset(defs[k..]);
      { assert defs == defs[..k] + defs[k..]; }
      multiset(defs) + multiset{d};
    }
  }

  /** A strictly sorted array is the only one of its elements: sorting the
      array after appending, as the source does with qsort, gives the same
      array as inserting in place. */
  lemma {:induction false} SortedUnique(a: seq<seq<byte>>, b: seq<seq<byte>>)
    requires Sorted(a) && Sorted(b)
    requires forall x :: x in a <==> x in b
    ensures a == b
    decreases |a|
  {
    if |a| > 0 {
      assert a[0] in b;
    }
    if |b| > 0 {
      assert b[0] in a;
    }
    if |a| > 0 && |b| > 0 {
      SmallestFirst(a, b);
      SmallestFirst(b, a);
      LessTotal(a[0], b[0]);
      assert a[0] == b[0];
      forall x
        ensures x in a[1..] <==> x in b[1..]
      {
        TailMembers(a, x);
        TailMembers(b, x);
      }
      SortedUnique(a[1..], b[1..]);
      assert a == [a[0]] + a[1..] && b == [b[0]] + b[1..];
    }
  }

  /** The head of a sorted array is at most every element of another array
      with the same elements. */
  lemma SmallestFirst(a: seq<seq<byte>>, b: seq<seq<byte>>)
    requires Sorted(a) && |a| > 0 && |b| > 0
    requires b[0] in a
    ensures a[0] == b[0] || Less(a[0], b[0])
  {
    var i :| 0 <= i < |a| && a[i] == b[0];
  }

  /** The members of a sorted array's tail are its members other than the
      head. */
  lemma TailMembers(a: seq<seq<byte>>, x: seq<byte>)
    requires Sorted(a) && |a| > 0
    ensures x in a[1..] <==> x in a && x != a[0]
  {
    if x in a[1..] {
      var i :| 1 <= i < |a| && a[i] == x;
      LessTotal(a[0], x);
    }
    if x in a && x != a[0] {
      var i :| 0 <= i < |a| && a[i] == x;
      assert a[1..][i - 1] == x;
    }
  }

  /** A sorted array of distinct definitions with `d` included: unchanged
      when `d` is there, one longer otherwise, and still sorted. */
  function Include(defs: seq<seq<byte>>, d: seq<byte>): (r: seq<seq<byte>>)
    requires Sorted(defs)
    ensures Sorted(r)
    ensures forall x :: x in r <==> x in defs || x == d
    ensures d in defs ==> r == defs
    ensures d !in defs ==> |r| == |defs| + 1
  {
    if d in defs then defs
    else
      InsertKeepsSorted(defs, d);
      SortedInsert(defs, d)
  }

  /** toke_model_add_token: a definition already present changes nothing;
      otherwise the definition is added and the array stays sorted. */
  method AddToken(m: Model, d: seq<byte>) returns (r: Model)
    requires Sorted(m.defs)
    ensures Sorted(r.defs)
    ensures d in m.defs ==> r == m
    ensures d !in m.defs ==> Size(r) == Size(m) + 1
    ensures forall x :: x in r.defs <==> x in m.defs || x == d
    ensures r.defs == Include(m.defs, d)
  {
    var found := FindToken(m, d);
    if found.Some? {
      return m;
    }
    InsertKeepsSorted(m.defs, d);
    r := Model(SortedInsert(m.defs, d));
  }

  // ---------------------------------------------------------------------------
  // UTF-8.

  /** to_utf8: the UTF-8 form of a code point, per section 3 of RFC 3629
      (surrogates included); empty above U+10FFFF. The high bits of each
      shifted part are clear, so the source's OR with the marker bits is an
      addition here. */
  function ToUtf8(cp: uint32): (r: seq<byte>)
    ensures |r| == (if cp <= 0x7F then 1 else if cp <= 0x7FF then 2
                    else if cp <= 0xFFFF then 3 else if cp <= 0x10FFFF then 4 else 0)
  {
    if cp <= 0x7F then [cp]
    else if cp <= 0x7FF then [0xC0 + cp / 0x40, 0x80 + cp % 0x40]
    else if cp <= 0xFFFF then [0xE0 + cp / 0x1000, 0x80 + (cp / 0x40) % 0x40, 0x80 + cp % 0x40]
    else if cp <= 0x10FFFF then
      [0xF0 + cp / 0x40000, 0x80 + (cp / 0x1000) % 0x40, 0x80 + (cp / 0x40) % 0x40, 0x80 + cp % 0x40]
    else []
  }

  /** The code point a well-formed UTF-8 sequence stands for. */
  function Utf8Value(s: seq<byte>): nat
  {
    if |s| == 1 then s[0]
    else if |s| == 2 then Bits(s[0], 0x20) * 0x40 + Bits(s[1], 0x40)
    else if |s| == 3 then Bits(s[0], 0x10) * 0x1000 + Bits(s[1], 0x40) * 0x40 + Bits(s[2], 0x40)
    else if |s| == 4 then
      Bits(s[0], 0x08) * 0x40000 + Bits(s[1], 0x40) * 0x1000 + Bits(s[2], 0x40) * 0x40 + Bits(s[3], 0x40)
    else 0
  }

  /** The low bits of a byte below `m`, a power of two. */
  function Bits(b: byte, m: nat): nat
    requires m > 0
  {
    b as int % m
  }

  /** The UTF-8 form decodes back to its code point, its continuation bytes
      are 10xxxxxx, and the filter's utf8_length reads from its lead byte
      the length to_utf8 produced. */
  lemma ToUtf8RoundTrip(cp: uint32)
    requires cp <= 0x10FFFF
    ensures Utf8Value(ToUtf8(cp)) == cp
    ensures forall i | 1 <= i < |ToUtf8(cp)| :: 0x80 <= ToUtf8(cp)[i] < 0xC0
    ensures Filter.Utf8Length(ToUtf8(cp)[0]) == |ToUtf8(cp)|
  {
    if cp <= 0x7F {
    } else if cp <= 0x7FF {
      TwoBytes(cp);
    } else if cp <= 0xFFFF {
      ThreeBytes(cp);
    } else {
      FourBytes(cp);
    }
  }

  lemma TwoBytes(cp: uint32)
    requires 0x7F < cp <= 0x7FF
    ensures Utf8Value(ToUtf8(cp)) == cp
    ensures Filter.Utf8Length(ToUtf8(cp)[0]) == 2
  {
    var hi, lo := cp / 0x40, cp % 0x40;
    assert cp == hi * 0x40 + lo;
    assert 2 <= hi < 0x20;
    assert Bits(0xC0 + hi, 0x20) == hi;
    assert Bits(0x80 + lo, 0x40) == lo;
  }

  lemma ThreeBytes(cp: uint32)
    requires 0x7FF < cp <= 0xFFFF
    ensures Utf8Value(ToUtf8(cp)) == cp
    ensures Filter.Utf8Length(ToUtf8(cp)[0]) == 3
  {
    var q := cp / 0x40;
    var hi, mid, lo := cp / 0x1000, q % 0x40, cp % 0x40;
    assert cp == q * 0x40 + lo;
    assert q == hi * 0x40 + mid by {
      assert cp / 0x1000 == (cp / 0x40) / 0x40;
    }
    assert hi < 0x10;
    assert Bits(0xE0 + hi, 0x10) == hi;
    assert Bits(0x80 + mid, 0x40) == mid;
    assert Bits(0x80 + lo, 0x40) == lo;
  }

  lemma FourBytes(cp: uint32)
    requires 0xFFFF < cp <= 0x10FFFF
    ensures Utf8Value(ToUtf8(cp)) == cp
    ensures Filter.Utf8Length(ToUtf8(cp)[0]) == 4
  {
    var q1 := cp / 0x40;
    var q2 := cp / 0x1000;
    var hi := cp / 0x40000;
    var b1, b2, b3 := q2 % 0x40, q1 % 0x40, cp % 0x40;
    assert cp == q1 * 0x40 + b3;
    assert q2 == q1 / 0x40;
    assert q1 == q2 * 0x40 + b2;
    assert hi == q2 / 0x40;
    assert q2 == hi * 0x40 + b1;
    assert hi < 0x08;
    assert Bits(0xF0 + hi, 0x08) == hi;
    assert Bits(0x80 + b1, 0x40) == b1;
    assert Bits(0x80 + b2, 0x40) == b2;
    assert Bits(0x80 + b3, 0x40) == b3;
  }

  /** Different code points have different UTF-8 forms. */
  lemma ToUtf8Injective(a: uint32, b: uint32)
    requires a <= 0x10FFFF && b <= 0x10FFFF && a != b
    ensures ToUtf8(a) != ToUtf8(b)
  {
    ToUtf8RoundTrip(a);
    ToUtf8RoundTrip(b);
  }

  /** toke_model_add_codepoint: a code point past U+10FFFF is refused and
      leaves the model as it was; any other adds its UTF-8 form. */
  method AddCodepoint(m: Model, cp: uint32) returns (r: Model, err: Outcome)
    requires Sorted(m.defs)
    ensures Sorted(r.defs)
    ensures cp > 0x10FFFF ==> r == m && err == Fail(InvalidUnicode)
    ensures cp <= 0x10FFFF ==> err == Pass && forall x :: x in r.defs <==> x in m.defs || x == ToUtf8(cp)
    ensures cp <= 0x10FFFF && ToUtf8(cp) !in m.defs ==> Size(r) == Size(m) + 1
  {
    var utf8 := ToUtf8(cp);
    if |utf8| == 0 {
      return m, Fail(InvalidUnicode);
    }
    r := AddToken(m, utf8);
    err := Pass;
  }

  datatype UnicodeBlock = BasicLatin | GeneralPunctuation

  /** The first and last code point of a block. */
  function BlockRange(block: UnicodeBlock): (r: (uint32, uint32))
    ensures r.0 <= r.1 <= 0x10FFFF
  {
    match block
    case BasicLatin => (0x0000, 0x007F)
    case GeneralPunctuation => (0x2000, 0x206F)
  }

  /** toke_model_add_unicode_block: the UTF-8 form of every code point of the
      block is added; on an empty model that gives one definition per code
      point (128 for Basic Latin, 112 for General Punctuation). */
  method AddUnicodeBlock(m: Model, block: UnicodeBlock) returns (r: Model, err: Outcome)
    requires Sorted(m.defs)
    ensures Sorted(r.defs) && err == Pass
    ensures forall x :: x in r.defs <==>
      x in m.defs || exists cp: uint32 | BlockRange(block).0 <= cp <= BlockRange(block).1 :: x == ToUtf8(cp)
    ensures m.defs == [] ==> Size(r) == BlockRange(block).1 - BlockRange(block).0 + 1
  {
    var (first, last) := BlockRange(block);
    r := m;
    err := Pass;
    var cp := first;
    while cp <= last
      invariant first <= cp <= last + 1
      invariant Sorted(r.defs) && err == Pass
      invariant forall x :: x in r.defs <==>
        x in m.defs || exists c: uint32 | first <= c < cp :: x == ToUtf8(c)
      invariant m.defs == [] ==> Size(r) == cp - first
    {
      if m.defs == [] {
        forall c: uint32 | first <= c < cp
          ensures ToUtf8(c) != ToUtf8(cp)
        {
          ToUtf8Injective(c, cp);
        }
      }
      r, err := AddCodepoint(r, cp);
      cp := cp + 1;
    }
  }


  // ---------------------------------------------------------------------------
  // Getters.

  /** toke_model_get_def: the definition at an index, none past the end. */
  function GetDef(m: Model, index: nat): (r: Option<seq<byte>>)
    ensures r.Some? <==> index < Size(m)
    ensures r.Some? ==> r.value == m.defs[index]
  {
    if index < |m.defs| then Some(m.defs[index]) else None
  }

  /** On a model kept sorted, the indices 0 to Size - 1 give every
      definition of the model, each once, in ascending order. */
  lemma GettersEnumerate(m: Model)
    requires Sorted(m.defs)
    ensures forall d :: d in m.defs <==> exists i | 0 <= i < Size(m) :: GetDef(m, i) == Some(d)
    ensures forall i, j | 0 <= i < j < Size(m) :: Less(GetDef(m, i).value, GetDef(m, j).value)
  {
    forall d | d in m.defs
      ensures exists i | 0 <= i < Size(m) :: GetDef(m, i) == Some(d)
    {
      var i :| 0 <= i < |m.defs| && m.defs[i] == d;
      assert GetDef(m, i) == Some(d);
    }
  }

  /** toke_model_get_size: the length of the definition at an index, 0 past
      the end. */
  function GetSize(m: Model, index: nat): (r: nat)
    ensures GetDef(m, index).Some? ==> r == |GetDef(m, index).value|
    ensures GetDef(m, index).None? ==> r == 0
  {
    if index < |m.defs| then |m.defs[index]| else 0
  }
}

=== FILE: pair_counter.dfy ===
/** The pair counter of tool/pair_counter.cpp: per-file counts of adjacent
    alphabetic token pairs, their sum over files, and the most frequent
    pair. */
module PairCounter {
  import opened Wrappers
  import opened Bytes
  import Vocab
  import Encoder

  const UNKNOWN: uint16 := 0xFFFF

  /** The map key of a pair: l | r << 16. */
  function Pack(l: uint16, r: uint16): (k: uint32)
    ensures k % 0x10000 == l && k / 0x10000 == r
  {
    l + r * 0x10000
  }

  /** getHighestFrequencyPair's decoding of a key: (k >> 0) & 0xffff and
      (k >> 16) & 0xffff. */
  function Unpack(k: uint32): (p: (uint16, uint16))
    ensures Pack(p.0, p.1) == k
  {
    (k % 0x10000, (k / 0x10000) % 0x10000)
  }

  /** Packing and unpacking are inverse both ways. */
  lemma PackUnpack(l: uint16, r: uint16, k: uint32)
    ensures Unpack(Pack(l, r)) == (l, r)
    ensures Pack(Unpack(k).0, Unpack(k).1) == k
  {
    var p := l + r * 0x10000;
    assert p / 0x10000 == r && p % 0x10000 == l;
    assert k / 0x10000 < 0x10000;
  }

  /** isAlpha on a byte: A-Z or a-z. */
  predicate IsAlpha(c: byte)
  {
    ('a' as int <= c <= 'z' as int) || ('A' as int <= c <= 'Z' as int)
  }

  /** isAlpha on a definition looks only at its first byte. The source
      reads that byte even from an empty definition; here an empty one is
      not alphabetic (training never creates one). An alphabetic
      definition starts with an ASCII byte, a UTF-8 unit of its own. */
  predicate IsAlphaDef(def: seq<byte>)
    ensures IsAlphaDef(def) ==> |def| > 0 && def[0] < 0x80
  {
    |def| > 0 && IsAlpha(def[0])
  }

  /** What visitFile does with one adjacent pair, in the order the code
      tests it: a pair holding the unknown ID is skipped; then
      `m_vocab->at(l)` is read, and `at(r)` only when the definition at `l`
      is alphabetic (the `||` short-circuits). `at` throws
      std::out_of_range on an ID past the vocabulary. */
  datatype PairCheck = Skip | Count | Throw

  function Check(defs: seq<seq<byte>>, l: uint16, r: uint16): (c: PairCheck)
    ensures c == Skip <==>
      || l == UNKNOWN || r == UNKNOWN
      || (l < |defs| && !IsAlphaDef(defs[l]))
      || (l < |defs| && IsAlphaDef(defs[l]) && r < |defs| && !IsAlphaDef(defs[r]))
  {
    if l == UNKNOWN || r == UNKNOWN then Skip
    else if l >= |defs| then Throw
    else if !IsAlphaDef(defs[l]) then Skip
    else if r >= |defs| then Throw
    else if !IsAlphaDef(defs[r]) then Skip
    else Count
  }

  /** A pair visitFile counts: neither ID is the unknown ID and both name
      alphabetic definitions. */
  predicate Eligible(defs: seq<seq<byte>>, l: uint16, r: uint16)
    ensures Eligible(defs, l, r) <==>
      l != UNKNOWN && r != UNKNOWN && l < |defs| && r < |defs| && IsAlphaDef(defs[l]) && IsAlphaDef(defs[r])
  {
    Check(defs, l, r) == Count
  }

  /** A pair on which `at` throws: neither ID is the unknown ID, and the left
      one is past the vocabulary, or the left one names an alphabetic
      definition and the right one is past the vocabulary. */
  predicate Throws(defs: seq<seq<byte>>, l: uint16, r: uint16)
    ensures Throws(defs, l, r) <==>
      l != UNKNOWN && r != UNKNOWN && (l >= |defs| || (IsAlphaDef(defs[l]) && r >= |defs|))
  {
    Check(defs, l, r) == Throw
  }

  /** Some adjacent pair of `tokens` makes `at` throw. */
  predicate ThrowsIn(defs: seq<seq<byte>>, tokens: seq<uint16>)
  {
    exists i | 1 <= i < |tokens| :: Throws(defs, tokens[i - 1], tokens[i])
  }

  type Table = map<uint32, nat>

  function Get(t: Table, k: uint32): nat
  {
    if k in t then t[k] else 0
  }

  /** The number of adjacent positions of `tokens` holding an eligible pair
      with key `key`: at most one per position. */
  function PairsIn(defs: seq<seq<byte>>, tokens: seq<uint16>, key: uint32): (count: nat)
    ensures count == 0 || count < |tokens|
    decreases |tokens|
  {
    if |tokens| < 2 then 0
    else
      var n := |tokens|;
      var l, r := tokens[n - 2], tokens[n - 1];
      PairsIn(defs, tokens[..n - 1], key) + (if Eligible(defs, l, r) && Pack(l, r) == key then 1 else 0)
  }

  /** Only eligible pairs that occur next to each other are ever counted. */
  lemma {:induction false} CountedPairsOccur(defs: seq<seq<byte>>, tokens: seq<uint16>, l: uint16, r: uint16)
    requires PairsIn(defs, tokens, Pack(l, r)) > 0
    ensures Eligible(defs, l, r)
    ensures exists i | 1 <= i < |tokens| :: tokens[i - 1] == l && tokens[i] == r
    decreases |tokens|
  {
    var n := |tokens|;
    var a, b := tokens[n - 2], tokens[n - 1];
    PackUnpack(l, r, 0);
    PackUnpack(a, b, 0);
    if Eligible(defs, a, b) && Pack(a, b) == Pack(l, r) {
      assert a == l && b == r;
    } else {
      CountedPairsOccur(defs, tokens[..n - 1], l, r);
      var i :| 1 <= i < n - 1 && tokens[..n - 1][i - 1] == l && tokens[..n - 1][i] == r;
      assert tokens[i - 1] == l && tokens[i] == r;
    }
  }

  /** visitFile's loop over adjacent tokens: each eligible pair adds one to
      its key's count in the file's table. `None` when some pair makes `at`
      throw: the exception leaves the parallel region, so the process
      terminates. */
  method CountPairs(table: Table, defs: seq<seq<byte>>, tokens: seq<uint16>) returns (r: Option<Table>)
    ensures r.None? <==> ThrowsIn(defs, tokens)
    ensures r.Some? ==> forall k :: Get(r.value, k) == Get(table, k) + PairsIn(defs, tokens, k)
  {
    var t: Table := table;
    if |tokens| < 2 {
      return Some(t);
    }
    var i := 1;
    while i < |tokens|
      invariant 1 <= i <= |tokens|
      invariant forall j | 1 <= j < i :: !Throws(defs, tokens[j - 1], tokens[j])
      invariant Tallied(t, table, defs, tokens[..i])
    {
      var next := CountAt(t, table, defs, tokens, i);
      if next.None? {
        return None;
      }
      t := next.value;
      i := i + 1;
    }
    assert tokens[..|tokens|] == tokens;
    r := Some(t);
  }

  /** One round of visitFile's loop, at the pair ending at position `i`:
      `None` when it throws, otherwise the table with the pair counted if
      it is eligible. */
  method CountAt(t: Table, table: Table, defs: seq<seq<byte>>, tokens: seq<uint16>, i: nat)
    returns (r: Option<Table>)
    requires 1 <= i < |tokens| && Tallied(t, table, defs, tokens[..i])
    ensures r.None? <==> Throws(defs, tokens[i - 1], tokens[i])
    ensures r.Some? ==> Tallied(r.value, table, defs, tokens[..i + 1])
  {
    var l, rt := tokens[i - 1], tokens[i];
    var check := Check(defs, l, rt);
    if check == Throw {
      return None;
    }
    if check == Count {
      var key := Pack(l, rt);
      CountOne(t, table, defs, tokens, i);
      r := Some(t[key := Get(t, key) + 1]);
    } else {
      SkipOne(t, table, defs, tokens, i);
      r := Some(t);
    }
  }

  /** `t` holds the counts of `table` plus the eligible pairs of `prefix`. */
  ghost predicate Tallied(t: Table, table: Table, defs: seq<seq<byte>>, prefix: seq<uint16>)
  {
    forall k :: Get(t, k) == Get(table, k) + PairsIn(defs, prefix, k)
  }

  /** An eligible pair at position `i` adds one to its key and to no other. */
  lemma CountOne(t: Table, table: Table, defs: seq<seq<byte>>, tokens: seq<uint16>, i: nat)
    requires 1 <= i < |tokens| && Eligible(defs, tokens[i - 1], tokens[i])
    requires Tallied(t, table, defs, tokens[..i])
    ensures var key := Pack(tokens[i - 1], tokens[i]);
      Tallied(t[key := Get(t, key) + 1], table, defs, tokens[..i + 1])
  {
    PairsInExtend(defs, tokens, i);
  }

  /** A pair that is not eligible leaves every count as it is. */
  lemma SkipOne(t: Table, table: Table, defs: seq<seq<byte>>, tokens: seq<uint16>, i: nat)
    requires 1 <= i < |tokens| && !Eligible(defs, tokens[i - 1], tokens[i])
    requires Tallied(t, table, defs, tokens[..i])
    ensures Tallied(t, table, defs, tokens[..i + 1])
  {
    PairsInExtend(defs, tokens, i);
  }

  /** One more position of `tokens` adds its pair, if eligible, to the count
      of its key. */
  lemma PairsInExtend(defs: seq<seq<byte>>, tokens: seq<uint16>, i: nat)
    requires 1 <= i < |tokens|
    ensures forall k ::
      PairsIn(defs, tokens[..i + 1], k) == PairsIn(defs, tokens[..i], k) +
        (if Eligible(defs, tokens[i - 1], tokens[i]) && Pack(tokens[i - 1], tokens[i]) == k then 1 else 0)
  {
    var p := tokens[..i + 1];
    assert p[..i] == tokens[..i];
    assert p[i - 1] == tokens[i - 1] && p[i] == tokens[i];
  }

  /** The state of the counter: the encoder built from the vocabulary being
      trained, one table per file, and their sum. */
  datatype Counter = Counter(defs: seq<seq<byte>>, encoder: Encoder.Encoder, tables: seq<Table>, result: Table)

  /** prepare: a fresh encoder reads the vocabulary's text form, and every
      file's table is emptied. The outcome is that of the vocabulary parse
      (the C++ wrapper throws on a failure). */
  function Prepare(v: Vocab.Vocab, numFiles: nat): (r: (Counter, Outcome))
    ensures |r.0.tables| == numFiles && forall f | 0 <= f < numFiles :: r.0.tables[f] == map[]
    ensures r.0.defs == v.defs
  {
    var parsed := Encoder.ParseVocab(Encoder.NewEncoder, Vocab.ToString(v));
    (Counter(v.defs, parsed.0, seq(numFiles, f => map[]), map[]), parsed.1)
  }

  /** How one visitFile ends: the counter with the file counted, a read
      past the text by the encoder's filter (undefined in C), or the throw
      of `at`. */
  datatype Visit = Visited(counter: Counter) | Overrun | Thrown

  /** visitFile: the file is encoded and its adjacent pairs counted into its
      own table. */
  method VisitFile(c: Counter, data: seq<byte>, fileIndex: nat) returns (r: Visit)
    requires fileIndex < |c.tables|
    ensures r.Overrun? <==> Encoder.Encode(c.encoder, data).None?
    ensures r.Thrown? <==> Encoder.Encode(c.encoder, data).Some? && ThrowsIn(c.defs, Encoder.Encode(c.encoder, data).value)
    ensures r.Visited? ==> |r.counter.tables| == |c.tables| && r.counter.defs == c.defs && r.counter.encoder == c.encoder
    ensures r.Visited? ==> forall k ::
      Get(r.counter.tables[fileIndex], k) == Get(c.tables[fileIndex], k) + PairsIn(c.defs, Encoder.Encode(c.encoder, data).value, k)
    ensures r.Visited? ==> forall f | 0 <= f < |c.tables| && f != fileIndex :: r.counter.tables[f] == c.tables[f]
  {
    var tokens := Encoder.Encode(c.encoder, data);
    if tokens.None? {
      return Overrun;
    }
    var table := CountPairs(c.tables[fileIndex], c.defs, tokens.value);
    if table.None? {
      return Thrown;
    }
    r := Visited(c.(tables := c.tables[fileIndex := table.value]));
  }

  /** The sum of one key's counts over the files. */
  function Total(tables: seq<Table>, k: uint32): nat
    decreases |tables|
  {
    if |tables| == 0 then 0 else Total(tables[..|tables| - 1], k) + Get(tables[|tables| - 1], k)
  }

  /** Adding one file's counts into the running result. */
  function Merge(acc: Table, t: Table): (r: Table)
    ensures forall k :: Get(r, k) == Get(acc, k) + Get(t, k)
  {
    map k | k in acc.Keys + t.Keys :: Get(acc, k) + Get(t, k)
  }

  /** finalize's loop over the files, in file order. */
  function MergeAll(tables: seq<Table>): (r: Table)
    decreases |tables|
  {
    if |tables| == 0 then map[] else Merge(MergeAll(tables[..|tables| - 1]), tables[|tables| - 1])
  }

  /** finalize: the combined count of a key is the sum of its per-file
      counts. */
  lemma {:induction false} MergeAllTotal(tables: seq<Table>, k: uint32)
    ensures Get(MergeAll(tables), k) == Total(tables, k)
    decreases |tables|
  {
    if |tables| > 0 {
      MergeAllTotal(tables[..|tables| - 1], k);
    }
  }

  lemma {:induction false} TotalAppend(a: seq<Table>, b: seq<Table>, k: uint32)
    ensures Total(a + b, k) == Total(a, k) + Total(b, k)
    decreases |b|
  {
    if |b| == 0 {
      assert a + b == a;
    } else {
      assert (a + b)[..|a + b| - 1] == a + b[..|b| - 1];
      TotalAppend(a, b[..|b| - 1], k);
    }
  }

  /** The combined counts do not depend on the order the files come in. */
  lemma MergeOrderIndependent(a: seq<Table>, b: seq<Table>, k: uint32)
    ensures Get(MergeAll(a + b), k) == Get(MergeAll(b + a), k)
  {
    MergeAllTotal(a + b, k);
    MergeAllTotal(b + a, k);
    TotalAppend(a, b, k);
    TotalAppend(b, a, k);
  }

  method Finalize(c: Counter) returns (r: Counter)
    ensures r == c.(result := MergeAll(c.tables))
    ensures forall k :: Get(r.result, k) == Total(c.tables, k)
  {
    r := c.(result := MergeAll(c.tables));
    forall k {
      MergeAllTotal(c.tables, k);
    }
  }

  datatype PairResult = PairResult(left: uint16, right: uint16, count: nat)

  /** What getHighestFrequencyPair promises: a pair of maximal count, the
      smallest key among those tied, and (0, 0, 0) when no count is
      positive. */
  predicate IsHighest(m: Table, res: PairResult)
  {
    BestOver(m, m.Keys, res)
  }

  /** `res` is the best pair among the keys `seen`. */
  predicate BestOver(m: Table, seen: set<uint32>, res: PairResult)
    requires seen <= m.Keys
  {
    && (res.count == 0 ==> res.left == 0 && res.right == 0 && forall k | k in seen :: m[k] == 0)
    && (res.count > 0 ==>
          var key := Pack(res.left, res.right);
          && key in seen && m[key] == res.count
          && (forall k | k in seen :: m[k] <= res.count)
          && (forall k | k in seen && m[k] == res.count :: key <= k))
  }

  /** One step of the scan: the key `k` replaces the best when its count
      is strictly greater. */
  function Consider(res: PairResult, k: uint32, count: nat): PairResult
  {
    if count > res.count then PairResult(Unpack(k).0, Unpack(k).1, count) else res
  }

  lemma ConsiderStep(m: Table, seen: set<uint32>, res: PairResult, k: uint32)
    requires seen <= m.Keys && k in m && k !in seen
    requires forall v | v in seen :: v < k
    requires BestOver(m, seen, res)
    ensures BestOver(m, seen + {k}, Consider(res, k, m[k]))
  {
    PackUnpack(0, 0, k);
  }

  lemma MinExists(s: set<uint32>)
    requires s != {}
    ensures exists k :: k in s && forall j | j in s :: k <= j
    decreases |s|
  {
    var x :| x in s;
    var rest := s - {x};
    if rest != {} {
      MinExists(rest);
      var y :| y in rest && forall j | j in rest :: y <= j;
      MinOfTwo(s, x, rest, y);
    } else {
      MinOfOne(s, x);
    }
  }

  lemma MinOfOne(s: set<uint32>, x: uint32)
    requires x in s && s - {x} == {}
    ensures forall j | j in s :: x <= j
  {
    assert forall j | j in s :: j == x || j in s - {x};
  }

  lemma MinOfTwo(s: set<uint32>, x: uint32, rest: set<uint32>, y: uint32)
    requires x in s && rest == s - {x}
    requires y in rest && forall j | j in rest :: y <= j
    ensures exists k :: k in s && forall j | j in s :: k <= j
  {
    var k := if x < y then x else y;
    assert k in s;
    forall j | j in s
      ensures k <= j
    {
      if j != x {
        assert j in rest;
      }
    }
  }

  /** The state of the ascending scan: the keys seen so far all come before
      the remaining ones, and `res` is the best among them. */
  predicate ScanState(m: Table, seen: set<uint32>, remaining: set<uint32>, res: PairResult)
  {
    && seen + remaining == m.Keys && seen !! remaining
    && (forall v, j | v in seen && j in remaining :: v < j)
    && BestOver(m, seen, res)
  }

  /** One step of the scan keeps its state. */
  lemma ScanStep(m: Table, seen: set<uint32>, remaining: set<uint32>, res: PairResult, k: uint32)
    requires ScanState(m, seen, remaining, res)
    requires k in remaining && forall j | j in remaining :: k <= j
    ensures ScanState(m, seen + {k}, remaining - {k}, Consider(res, k, m[k]))
  {
    ConsiderStep(m, seen, res, k);
  }

  /** The scan is over when nothing remains. */
  lemma ScanDone(m: Table, seen: set<uint32>, res: PairResult)
    requires ScanState(m, seen, {}, res)
    ensures IsHighest(m, res)
  {
    assert seen == m.Keys;
  }

  /** The smallest of a non-empty set of keys. */
  function MinKey(s: set<uint32>): (k: uint32)
    requires s != {}
    ensures k in s && forall j | j in s :: k <= j
  {
    MinExists(s);
    var k :| k in s && forall j | j in s :: k <= j;
    k
  }

  /** The scan of getHighestFrequencyPair over the keys not yet seen, in
      ascending order. */
  function Scan(m: Table, remaining: set<uint32>, res: PairResult): PairResult
    requires remaining <= m.Keys
    decreases |remaining|
  {
    if remaining == {} then res
    else
      var k := MinKey(remaining);
      Scan(m, remaining - {k}, Consider(res, k, m[k]))
  }

  lemma {:induction false} ScanFinds(m: Table, seen: set<uint32>, remaining: set<uint32>, res: PairResult)
    requires ScanState(m, seen, remaining, res)
    ensures IsHighest(m, Scan(m, remaining, res))
    decreases |remaining|
  {
    if remaining == {} {
      ScanDone(m, seen, res);
    } else {
      var k := MinKey(remaining);
      ScanStep(m, seen, remaining, res, k);
      ScanFinds(m, seen + {k}, remaining - {k}, Consider(res, k, m[k]));
    }
  }

  /** getHighestFrequencyPair: the keys in ascending order, and a strictly
      greater count replaces the best so far. */
  function GetHighest(m: Table): (res: PairResult)
    ensures IsHighest(m, res)
  {
    ScanFinds(m, {}, m.Keys, PairResult(0, 0, 0));
    Scan(m, m.Keys, PairResult(0, 0, 0))
  }
}

=== FILE: roundtrip.dfy ===
/** What the encoder reads back from a vocabulary the trainer wrote
    (Vocab::toString in tool/vocab.cpp, read by
    toke_encoder_parse_vocab in src/encoder.c). */
module RoundTrip {
  import opened Wrappers
  import opened Bytes
  import opened Trie
  import Filter
  import Unescape
  import Vocab
  import opened Encoder

  function Min(a: nat, b: nat): nat
  {
    if a <= b then a else b
  }

  /** The definition lines of a vocabulary, one escaped definition each. */
  function EscapedLines(defs: seq<seq<byte>>): (r: seq<seq<byte>>)
    ensures |r| == |defs|
    ensures forall i | 0 <= i < |defs| :: r[i] == Vocab.Escape(defs[i])
    decreases |defs|
  {
    if |defs| == 0 then [] else [Vocab.Escape(defs[0])] + EscapedLines(defs[1..])
  }

  lemma EscapedLinesAsSeq(defs: seq<seq<byte>>)
    ensures EscapedLines(defs) == seq(|defs|, i requires 0 <= i < |defs| => Vocab.Escape(defs[i]))
  {
  }

  /** What reading back escaped definitions from `tokenId` should give:
      one ID each, from `tokenId` up, until the IDs run out; the
      unknown-token ID is the next one. */
  function ReadBackResult(e: Encoder, defs: seq<seq<byte>>, tokenId: nat): (Encoder, Outcome)
    requires tokenId < MAX_TOKEN_ID - 1
  {
    var k := Min(|defs|, MAX_TOKEN_ID - 1 - tokenId);
    (e.(trie := InsertAll(e.trie, defs[..k], tokenId), unknownTokenId := tokenId + k), Pass)
  }

  predicate ReadsBackFrom(e: Encoder, defs: seq<seq<byte>>, tokenId: nat)
    requires tokenId < MAX_TOKEN_ID - 1
  {
    ParseLines(e, EscapedLines(defs), tokenId) == ReadBackResult(e, defs, tokenId)
  }

  lemma {:induction false} ParseEscaped(e: Encoder, defs: seq<seq<byte>>, tokenId: nat)
    requires tokenId < MAX_TOKEN_ID - 1
    ensures ReadsBackFrom(e, defs, tokenId)
    decreases |defs|
  {
    if |defs| == 0 {
      EscapedNone(e, defs, tokenId);
    } else {
      if tokenId + 1 < MAX_TOKEN_ID - 1 {
        ParseEscaped(e.(trie := Insert(e.trie, defs[0], tokenId)), defs[1..], tokenId + 1);
      }
      EscapedCons(e, defs, tokenId);
    }
  }

  /** No definitions read back as nothing, and the unknown-token ID is
      `tokenId` itself. */
  lemma EscapedNone(e: Encoder, defs: seq<seq<byte>>, tokenId: nat)
    requires tokenId < MAX_TOKEN_ID - 1 && |defs| == 0
    ensures ReadsBackFrom(e, defs, tokenId)
  {
    assert EscapedLines(defs) == [] && defs[..0] == [];
  }

  /** The first escaped definition, then the rest read back from the next ID. */
  lemma EscapedCons(e: Encoder, defs: seq<seq<byte>>, tokenId: nat)
    requires tokenId < MAX_TOKEN_ID - 1 && |defs| > 0
    requires tokenId + 1 < MAX_TOKEN_ID - 1 ==>
      ReadsBackFrom(e.(trie := Insert(e.trie, defs[0], tokenId)), defs[1..], tokenId + 1)
    ensures ReadsBackFrom(e, defs, tokenId)
  {
    EscapedStep(e, defs, tokenId);
    if tokenId + 1 < MAX_TOKEN_ID - 1 {
      EscapedMore(e, defs, tokenId);
    } else {
      EscapedLast(e, defs, tokenId);
    }
  }

  /** With IDs to spare, the first definition takes `tokenId` and the rest
      continue from the next ID. */
  lemma EscapedMore(e: Encoder, defs: seq<seq<byte>>, tokenId: nat)
    requires tokenId + 1 < MAX_TOKEN_ID - 1 && |defs| > 0
    requires ReadsBackFrom(e.(trie := Insert(e.trie, defs[0], tokenId)), defs[1..], tokenId + 1)
    requires ParseLines(e, EscapedLines(defs), tokenId) ==
      ParseLines(e.(trie := Insert(e.trie, defs[0], tokenId)), EscapedLines(defs[1..]), tokenId + 1)
    ensures ReadsBackFrom(e, defs, tokenId)
  {
    ReadBackShift(e, defs, tokenId);
  }

  /** Reading back the first definition at `tokenId` and the rest from the
      next ID is reading them all back from `tokenId`. */
  lemma ReadBackShift(e: Encoder, defs: seq<seq<byte>>, tokenId: nat)
    requires tokenId + 1 < MAX_TOKEN_ID - 1 && |defs| > 0
    ensures ReadBackResult(e, defs, tokenId) ==
      ReadBackResult(e.(trie := Insert(e.trie, defs[0], tokenId)), defs[1..], tokenId + 1)
  {
    var k := Min(|defs|, MAX_TOKEN_ID - 1 - tokenId);
    var e' := e.(trie := Insert(e.trie, defs[0], tokenId));
    assert Min(|defs[1..]|, MAX_TOKEN_ID - 1 - (tokenId + 1)) == k - 1;
    InsertAllPrefix(e.trie, defs, tokenId, k);
    var trie := InsertAll(e'.trie, defs[1..][..k - 1], tokenId + 1);
    assert e'.(trie := trie, unknownTokenId := tokenId + k) == e.(trie := trie, unknownTokenId := tokenId + k);
  }

  /** The definition that takes the last ID ends the reading. */
  lemma EscapedLast(e: Encoder, defs: seq<seq<byte>>, tokenId: nat)
    requires tokenId + 1 == MAX_TOKEN_ID - 1 && |defs| > 0
    requires ParseLines(e, EscapedLines(defs), tokenId) ==
      (e.(trie := Insert(e.trie, defs[0], tokenId), unknownTokenId := tokenId + 1), Pass)
    ensures ReadsBackFrom(e, defs, tokenId)
  {
    InsertAllPrefix(e.trie, defs, tokenId, 1);
    assert defs[1..][..0] == [];
  }

  /** One escaped definition is read as a definition, not a directive. */
  lemma EscapedStep(e: Encoder, defs: seq<seq<byte>>, tokenId: nat)
    requires tokenId < MAX_TOKEN_ID - 1 && |defs| > 0
    ensures var e' := e.(trie := Insert(e.trie, defs[0], tokenId));
      ParseLines(e, EscapedLines(defs), tokenId) ==
        if tokenId + 1 == MAX_TOKEN_ID - 1 then (e'.(unknownTokenId := tokenId + 1), Pass)
        else ParseLines(e', EscapedLines(defs[1..]), tokenId + 1)
  {
    var line := Vocab.Escape(defs[0]);
    assert EscapedLines(defs) == [line] + EscapedLines(defs[1..]);
    Vocab.EscapeAlphabet(defs[0]);
    Vocab.UnescapeEscape(defs[0]);
    assert !IsDirective(line);
    ParseLinesCons(e, line, EscapedLines(defs[1..]), tokenId);
  }

  lemma InsertAllPrefix(t: Trie, defs: seq<seq<byte>>, firstId: nat, k: nat)
    requires 0 < k <= |defs| && firstId + k <= MAX_TOKEN_ID
    ensures InsertAll(t, defs[..k], firstId) == InsertAll(Insert(t, defs[0], firstId), defs[1..][..k - 1], firstId + 1)
  {
    assert defs[..k][0] == defs[0];
    assert defs[..k][1..] == defs[1..][..k - 1];
  }

  /** The header line "#version:1" is accepted and changes nothing. */
  lemma VersionLine(e: Encoder)
    ensures Directive(e, Vocab.VERSION_LINE[1..]) == (e, Pass)
  {
    var line := Vocab.VERSION_LINE[1..];
    FindFirst(line, 0, COLON, 7);
    assert DirectiveName(line) == VERSION;
  }

  /** The header line "#filter:<config>" installs the filter its
      configuration describes. */
  lemma FilterLine(e: Encoder, config: seq<byte>)
    ensures var p := Filter.ParseConfig(config);
      Directive(e, (Vocab.FILTER_PREFIX + config)[1..]) == (e.(filter := Some(p.0)), p.1)
  {
    var line := (Vocab.FILTER_PREFIX + config)[1..];
    FindFirst(line, 0, COLON, 6);
    assert DirectiveName(line) == FILTER;
    assert DirectiveValue(line) == config;
  }

  /** Reading back a written vocabulary: its filter is installed; when its
      configuration is accepted, the definitions take IDs 0, 1, ... in order
      (the first 65534 of them, the rest being ignored) and the unknown-token
      ID is the number read. Whatever the encoder held before stays unless a
      definition overrides it. */
  lemma ParseToString(e: Encoder, v: Vocab.Vocab)
    requires LF !in v.filterConfig
    ensures var p := Filter.ParseConfig(v.filterConfig);
      var k := Min(|v.defs|, MAX_TOKEN_ID - 1);
      ParseVocab(e, Vocab.ToString(v)) ==
        if p.1.Fail? then (e.(filter := Some(p.0)), p.1)
        else (e.(filter := Some(p.0), trie := InsertAll(e.trie, v.defs[..k], 0), unknownTokenId := k), Pass)
  {
    var p := Filter.ParseConfig(v.filterConfig);
    var escaped := EscapedLines(v.defs);
    ParseVocabByLines(e, Vocab.ToString(v));
    ToStringLines(v);
    HeaderLines(e, v.filterConfig, escaped);
    if p.1.Pass? {
      ParseEscaped(e.(filter := Some(p.0)), v.defs, 0);
    }
  }

  /** The lines of a written vocabulary: the two header lines, then one
      escaped definition per line. */
  lemma ToStringLines(v: Vocab.Vocab)
    requires LF !in v.filterConfig
    ensures Lines(Vocab.ToString(v)) == [Vocab.VERSION_LINE, Vocab.FILTER_PREFIX + v.filterConfig] + EscapedLines(v.defs)
  {
    EscapedLinesAsSeq(v.defs);
  }

  /** The two header lines install the filter and take no ID. */
  lemma HeaderLines(e: Encoder, config: seq<byte>, rest: seq<seq<byte>>)
    ensures var p := Filter.ParseConfig(config);
      ParseLines(e, [Vocab.VERSION_LINE, Vocab.FILTER_PREFIX + config] + rest, 0) ==
        if p.1.Fail? then (e.(filter := Some(p.0)), p.1) else ParseLines(e.(filter := Some(p.0)), rest, 0)
  {
    var header := Vocab.FILTER_PREFIX + config;
    var p := Filter.ParseConfig(config);
    assert [Vocab.VERSION_LINE, header] + rest == [Vocab.VERSION_LINE] + ([header] + rest);
    VersionLine(e);
    assert LineStep(e, Vocab.VERSION_LINE, 0) == Continue(e, 0);
    ParseLinesCons(e, Vocab.VERSION_LINE, [header] + rest, 0);
    FilterLine(e, config);
    assert IsDirective(header);
    assert LineStep(e, header, 0) ==
      if p.1.Fail? then Stop((e.(filter := Some(p.0)), p.1)) else Continue(e.(filter := Some(p.0)), 0);
    ParseLinesCons(e, header, rest, 0);
  }

  /** A vocabulary of distinct non-empty definitions, read into an empty
      encoder, maps each definition to its index. */
  lemma ReadBack(v: Vocab.Vocab, i: nat)
    requires LF !in v.filterConfig && Filter.ParseConfig(v.filterConfig).1.Pass?
    requires |v.defs| <= MAX_TOKEN_ID - 1
    requires i < |v.defs| && |v.defs[i]| > 0
    requires forall j | 0 <= j < |v.defs| && j != i :: v.defs[j] != v.defs[i]
    ensures var r := ParseVocab(NewEncoder, Vocab.ToString(v)).0;
      v.defs[i] in r.trie && r.trie[v.defs[i]] == i && r.unknownTokenId == |v.defs|
  {
    ParseToString(NewEncoder, v);
    assert v.defs[..|v.defs|] == v.defs;
    InsertAllLookup(map[], v.defs, 0, i);
  }
}

=== FILE: training.dfy ===
/** The training tool's driver (tool/main.cpp): seed the vocabulary with the
    corpus's UTF-8 units, then repeatedly count adjacent token pairs over the
    corpus and define the most frequent pair as a new token, until the
    vocabulary reaches the requested size or no pair occurs twice. */
module Training {
  import opened Wrappers
  import opened Bytes
  import Filter
  import Vocab
  import Encoder
  import Initializer
  import PairCounter
  import FilterLaws
  import Trie
  import Unescape
  import RoundTrip
  import Utf8
  import Model

  /** How the tool ends: its exit status, or an uncaught exception (a
      failed parse), or the std::out_of_range of `Vocab::at` thrown inside
      the pair counter's parallel region (which terminates the process), or
      behaviour the C code leaves undefined (the encoder's filter reading
      past a file's text). */
  datatype Exit = Success | Failure | Aborted(error: Error) | OutOfRange | Undefined

  /** The end state: how the tool exits, the vocabulary it holds, and what
      it writes to the output file, if anything. */
  datatype Run = Run(exit: Exit, vocab: Vocab.Vocab, written: Option<seq<byte>>)

  /** Every file's text is encoded without reading past it. */
  predicate Encodable(enc: Encoder.Encoder, files: seq<seq<byte>>)
  {
    forall f | 0 <= f < |files| :: Encoder.Encode(enc, files[f]).Some?
  }

  /** The first round on `v` throws: the vocabulary parses, every file
      encodes, and some file's encoding holds a pair on which `at` throws. */
  predicate ThrowsFirst(v: Vocab.Vocab, files: seq<seq<byte>>)
  {
    RoundParse(v).1.Pass? && Encodable(RoundParse(v).0, files) && !NoThrow(v.defs, RoundParse(v).0, files)
  }

  /** No file's encoding holds a pair on which `at` throws. */
  predicate NoThrow(defs: seq<seq<byte>>, enc: Encoder.Encoder, files: seq<seq<byte>>)
    requires Encodable(enc, files)
  {
    forall f | 0 <= f < |files| :: !PairCounter.ThrowsIn(defs, Encoder.Encode(enc, files[f]).value)
  }

  /** The number of times the pair with key `k` is counted in the corpus,
      each file encoded with `enc`. */
  function CorpusCount(defs: seq<seq<byte>>, enc: Encoder.Encoder, files: seq<seq<byte>>, k: uint32): nat
    requires Encodable(enc, files)
    decreases |files|
  {
    if |files| == 0 then 0
    else
      var n := |files|;
      CorpusCount(defs, enc, files[..n - 1], k) + PairCounter.PairsIn(defs, Encoder.Encode(enc, files[n - 1]).value, k)
  }

  /** The encoder the pair counter builds at each round: a fresh encoder
      that has read the text form of the vocabulary. */
  function RoundParse(v: Vocab.Vocab): (Encoder.Encoder, Outcome)
  {
    Encoder.ParseVocab(Encoder.NewEncoder, Vocab.ToString(v))
  }

  /** What one `fileSet->accept(*pairCounter)` produces. */
  datatype Round = Counted(counts: PairCounter.Table) | ParseFailed(error: Error) | ReadPastEnd | Thrown

  /** The per-file tables add up to the corpus count. */
  lemma {:induction false} TotalIsCorpusCount(tables: seq<PairCounter.Table>, defs: seq<seq<byte>>,
                                              enc: Encoder.Encoder, files: seq<seq<byte>>, k: uint32)
    requires |tables| == |files| && Encodable(enc, files)
    requires forall f | 0 <= f < |files| :: PairCounter.Get(tables[f], k) == PairCounter.PairsIn(defs, Encoder.Encode(enc, files[f]).value, k)
    ensures PairCounter.Total(tables, k) == CorpusCount(defs, enc, files, k)
    decreases |files|
  {
    if |files| > 0 {
      var n := |files|;
      TotalIsCorpusCount(tables[..n - 1], defs, enc, files[..n - 1], k);
    }
  }

  /** A pair counted anywhere in the corpus names two alphabetic
      definitions of the vocabulary. */
  lemma {:induction false} CountedIsEligible(defs: seq<seq<byte>>, enc: Encoder.Encoder, files: seq<seq<byte>>, l: uint16, r: uint16)
    requires Encodable(enc, files)
    requires CorpusCount(defs, enc, files, PairCounter.Pack(l, r)) > 0
    ensures PairCounter.Eligible(defs, l, r)
    decreases |files|
  {
    var n := |files|;
    var tokens := Encoder.Encode(enc, files[n - 1]).value;
    if PairCounter.PairsIn(defs, tokens, PairCounter.Pack(l, r)) > 0 {
      PairCounter.CountedPairsOccur(defs, tokens, l, r);
    } else {
      CountedIsEligible(defs, enc, files[..n - 1], l, r);
    }
  }

  /** The parallel loop of accept: each file is visited once and counted
      into its own table. A file whose encoding reads past its text makes
      the whole loop undefined, even when another file throws. */
  method VisitAll(c: PairCounter.Counter, files: seq<seq<byte>>) returns (r: PairCounter.Visit)
    requires |c.tables| == |files| && forall f | 0 <= f < |files| :: c.tables[f] == map[]
    ensures r.Overrun? <==> !Encodable(c.encoder, files)
    ensures r.Thrown? <==> Encodable(c.encoder, files) && !NoThrow(c.defs, c.encoder, files)
    ensures r.Visited? ==> r.counter.defs == c.defs && r.counter.encoder == c.encoder && |r.counter.tables| == |files|
    ensures r.Visited? ==> forall f, k | 0 <= f < |files| ::
      PairCounter.Get(r.counter.tables[f], k) == PairCounter.PairsIn(c.defs, Encoder.Encode(c.encoder, files[f]).value, k)
  {
    var d := c;
    var thrown := false;
    var i := 0;
    while i < |files|
      invariant 0 <= i <= |files|
      invariant d.defs == c.defs && d.encoder == c.encoder && |d.tables| == |files|
      invariant forall f | 0 <= f < i :: Encoder.Encode(c.encoder, files[f]).Some?
      invariant thrown <==> exists f | 0 <= f < i :: PairCounter.ThrowsIn(c.defs, Encoder.Encode(c.encoder, files[f]).value)
      invariant !thrown ==> forall f, k | 0 <= f < i ::
        PairCounter.Get(d.tables[f], k) == PairCounter.PairsIn(c.defs, Encoder.Encode(c.encoder, files[f]).value, k)
      invariant forall f | i <= f < |files| :: d.tables[f] == map[]
    {
      var next := PairCounter.VisitFile(d, files[i], i);
      if next.Overrun? {
        return PairCounter.Overrun;
      }
      if next.Thrown? {
        thrown := true;
      } else {
        d := next.counter;
      }
      i := i + 1;
    }
    if thrown {
      return PairCounter.Thrown;
    }
    r := PairCounter.Visited(d);
  }

  /** One accept of the pair counter: prepare, visit every file, finalize.
      The parse failure is the exception the C++ wrapper throws; a file
      whose encoding reads past its text makes the whole round undefined;
      otherwise a pair on which `at` throws terminates it. */
  method CountRound(v: Vocab.Vocab, files: seq<seq<byte>>) returns (r: Round)
    ensures r.ParseFailed? <==> RoundParse(v).1.Fail?
    ensures r.ParseFailed? ==> r.error == RoundParse(v).1.error
    ensures r.ReadPastEnd? <==> RoundParse(v).1.Pass? && !Encodable(RoundParse(v).0, files)
    ensures r.Thrown? <==> RoundParse(v).1.Pass? && Encodable(RoundParse(v).0, files) && !NoThrow(v.defs, RoundParse(v).0, files)
    ensures r.Counted? ==> Encodable(RoundParse(v).0, files) && NoThrow(v.defs, RoundParse(v).0, files)
    ensures r.Counted? ==> forall k :: PairCounter.Get(r.counts, k) == CorpusCount(v.defs, RoundParse(v).0, files, k)
  {
    var prepared := PairCounter.Prepare(v, |files|);
    if prepared.1.Fail? {
      return ParseFailed(prepared.1.error);
    }
    var enc := RoundParse(v).0;
    var visited := VisitAll(prepared.0, files);
    if visited.Overrun? {
      return ReadPastEnd;
    }
    if visited.Thrown? {
      return Thrown;
    }
    var c := visited.counter;
    c := PairCounter.Finalize(c);
    forall k | true
      ensures PairCounter.Get(c.result, k) == CorpusCount(v.defs, enc, files, k)
    {
      TotalIsCorpusCount(c.tables, v.defs, enc, files, k);
    }
    r := Counted(c.result);
  }

  /** Definition `i` joins two earlier definitions that both start with a
      letter. */
  predicate MergedAt(defs: seq<seq<byte>>, i: nat)
    requires i < |defs|
  {
    exists a, b | 0 <= a < i && 0 <= b < i ::
      defs[i] == defs[a] + defs[b] && PairCounter.IsAlphaDef(defs[a]) && PairCounter.IsAlphaDef(defs[b])
  }

  /** Every definition from `base` on joins two earlier ones. */
  predicate Merged(defs: seq<seq<byte>>, base: nat)
  {
    forall i | base <= i < |defs| :: MergedAt(defs, i)
  }

  lemma MergedAppend(defs: seq<seq<byte>>, base: nat, a: nat, b: nat)
    requires Merged(defs, base) && a < |defs| && b < |defs|
    requires PairCounter.IsAlphaDef(defs[a]) && PairCounter.IsAlphaDef(defs[b])
    ensures Merged(defs + [defs[a] + defs[b]], base)
  {
    var next := defs + [defs[a] + defs[b]];
    forall i | base <= i < |next|
      ensures MergedAt(next, i)
    {
      if i < |defs| {
        assert MergedAt(defs, i);
        var x, y :| 0 <= x < i && 0 <= y < i &&
          defs[i] == defs[x] + defs[y] && PairCounter.IsAlphaDef(defs[x]) && PairCounter.IsAlphaDef(defs[y]);
        assert next[i] == next[x] + next[y] && next[x] == defs[x] && next[y] == defs[y];
      } else {
        assert next[i] == next[a] + next[b] && next[a] == defs[a] && next[b] == defs[b];
      }
    }
  }

  function Max(a: nat, b: nat): nat
  {
    if a < b then b else a
  }

  /** The pair with key Pack(l, r) is counted `count` times in the corpus,
      no pair more often, and no pair as often has a smaller key. */
  predicate MostFrequent(defs: seq<seq<byte>>, enc: Encoder.Encoder, files: seq<seq<byte>>, l: uint16, r: uint16, count: nat)
    requires Encodable(enc, files)
  {
    && CorpusCount(defs, enc, files, PairCounter.Pack(l, r)) == count
    && forall k :: CorpusCount(defs, enc, files, k) <= count &&
         (CorpusCount(defs, enc, files, k) == count ==> PairCounter.Pack(l, r) <= k)
  }

  /** How one round of the merge loop ends: the loop stops with an exit,
      or the vocabulary grows by the best pair. */
  datatype Step = Stop(exit: Exit) | Grow(next: Vocab.Vocab, left: uint16, right: uint16, count: nat)

  /** One round of main's merge loop: count the pairs of the corpus, stop
      when the best count is at most one, else define the concatenation of
      the best pair's two definitions. */
  method MergeRound(v: Vocab.Vocab, files: seq<seq<byte>>) returns (s: Step)
    ensures RoundParse(v).1.Fail? <==> s.Stop? && s.exit.Aborted?
    ensures RoundParse(v).1.Fail? ==> s.exit.error == RoundParse(v).1.error
    ensures RoundParse(v).1.Pass? && !Encodable(RoundParse(v).0, files) <==> s.Stop? && s.exit.Undefined?
    ensures (RoundParse(v).1.Pass? && Encodable(RoundParse(v).0, files) && !NoThrow(v.defs, RoundParse(v).0, files))
      <==> s.Stop? && s.exit.OutOfRange?
    ensures s.Stop? ==> !s.exit.Failure?
    ensures s.Stop? && s.exit.Success? ==>
      && RoundParse(v).1.Pass? && Encodable(RoundParse(v).0, files) && NoThrow(v.defs, RoundParse(v).0, files)
      && forall k :: CorpusCount(v.defs, RoundParse(v).0, files, k) <= 1
    ensures s.Grow? ==>
      && RoundParse(v).1.Pass? && Encodable(RoundParse(v).0, files) && NoThrow(v.defs, RoundParse(v).0, files) && 1 < s.count
      && PairCounter.Eligible(v.defs, s.left, s.right)
      && MostFrequent(v.defs, RoundParse(v).0, files, s.left, s.right, s.count)
    ensures s.Grow? ==>
      && s.next.filterConfig == v.filterConfig
      && s.next.defs == v.defs + [v.defs[s.left] + v.defs[s.right]]
  {
    var round := CountRound(v, files);
    if round.ParseFailed? {
      return Stop(Aborted(round.error));
    }
    if round.ReadPastEnd? {
      return Stop(Undefined);
    }
    if round.Thrown? {
      return Stop(OutOfRange);
    }
    var best := PairCounter.GetHighest(round.counts);
    var enc := RoundParse(v).0;
    forall k | true
      ensures CorpusCount(v.defs, enc, files, k) <= Max(best.count, 1)
      ensures best.count > 0 && CorpusCount(v.defs, enc, files, k) == best.count ==> PairCounter.Pack(best.left, best.right) <= k
    {
      HighestBounds(round.counts, best, k);
    }
    if best.count <= 1 {
      return Stop(Success);
    }
    HighestBounds(round.counts, best, PairCounter.Pack(best.left, best.right));
    CountedIsEligible(v.defs, enc, files, best.left, best.right);
    var token := Vocab.Concat(v.defs[best.left], v.defs[best.right]);
    s := Grow(Vocab.Define(v, token), best.left, best.right, best.count);
  }

  /** The merge loop of main: while the vocabulary is below `numTokens`,
      run a round. The best pair is counted, so it names two definitions
      and the `vocab.at` calls that join them do not throw. */
  method MergeLoop(v0: Vocab.Vocab, files: seq<seq<byte>>, numTokens: nat) returns (exit: Exit, v: Vocab.Vocab)
    ensures !exit.Failure?
    ensures v.filterConfig == v0.filterConfig
    ensures |v0.defs| <= |v.defs| <= Max(numTokens, |v0.defs|) && v.defs[..|v0.defs|] == v0.defs
    ensures Merged(v.defs, |v0.defs|)
    ensures exit.Aborted? ==> RoundParse(v).1 == Fail(exit.error)
    ensures exit.Undefined? ==> RoundParse(v).1.Pass? && !Encodable(RoundParse(v).0, files)
    ensures exit.OutOfRange? ==>
      RoundParse(v).1.Pass? && Encodable(RoundParse(v).0, files) && !NoThrow(v.defs, RoundParse(v).0, files)
    ensures exit.Success? && |v.defs| < numTokens ==>
      && RoundParse(v).1.Pass? && Encodable(RoundParse(v).0, files) && NoThrow(v.defs, RoundParse(v).0, files)
      && forall k :: CorpusCount(v.defs, RoundParse(v).0, files, k) <= 1
    ensures |v0.defs| < numTokens && ThrowsFirst(v0, files) ==> exit == OutOfRange && v == v0
  {
    v := v0;
    while |v.defs| < numTokens
      invariant v.filterConfig == v0.filterConfig
      invariant |v0.defs| < numTokens && ThrowsFirst(v0, files) ==> v == v0
      invariant |v0.defs| <= |v.defs| <= Max(numTokens, |v0.defs|) && v.defs[..|v0.defs|] == v0.defs
      invariant Merged(v.defs, |v0.defs|)
      decreases numTokens - |v.defs|
    {
      var s := MergeRound(v, files);
      if s.Stop? {
        return s.exit, v;
      }
      MergedAppend(v.defs, |v0.defs|, s.left, s.right);
      assert s.next.defs[..|v0.defs|] == v.defs[..|v0.defs|];
      v := s.next;
    }
    exit := Success;
  }

  /** What the scan's result says about any one key's count. */
  lemma HighestBounds(m: PairCounter.Table, best: PairCounter.PairResult, k: uint32)
    requires PairCounter.IsHighest(m, best)
    ensures PairCounter.Get(m, k) <= Max(best.count, 1)
    ensures best.count > 0 ==> PairCounter.Get(m, PairCounter.Pack(best.left, best.right)) == best.count
    ensures best.count > 0 && PairCounter.Get(m, k) == best.count ==> PairCounter.Pack(best.left, best.right) <= k
  {
  }

  /** main from the file set on: the file set parses the filter
      configuration (the wrapper throws on a bad one), the initializer seeds
      the vocabulary, an empty vocabulary exits with failure, a vocabulary
      already at the requested size is written out, and otherwise the merge
      loop runs. `files` are the texts the file set hands to its visitors:
      each corpus file after the file set's own pass of the filter, before
      the pair counter's encoder filters it again. The merge path never
      writes the vocabulary it trained. */
  method Train(filterConfig: seq<byte>, files: seq<seq<byte>>, numTokens: nat) returns (r: Run)
    ensures var parsed := Filter.ParseConfig(filterConfig).1;
      parsed.Fail? ==> r == Run(Aborted(parsed.error), Vocab.Vocab(filterConfig, []), None)
    ensures var seed := Initializer.Seed(Vocab.Vocab(filterConfig, []), files);
      Filter.ParseConfig(filterConfig).1.Pass? ==>
        && (|seed.defs| == 0 ==> r == Run(Failure, seed, None))
        && (0 < |seed.defs| && numTokens <= |seed.defs| ==> r == Run(Success, seed, Some(Vocab.ToString(seed))))
        && (0 < |seed.defs| < numTokens ==>
              && r.written == None
              && !r.exit.Failure?
              && (r.exit.Aborted? ==> RoundParse(r.vocab).1 == Fail(r.exit.error))
              && (r.exit.Undefined? ==> RoundParse(r.vocab).1.Pass? && !Encodable(RoundParse(r.vocab).0, files))
              && (r.exit.OutOfRange? ==>
                    && RoundParse(r.vocab).1.Pass? && Encodable(RoundParse(r.vocab).0, files)
                    && !NoThrow(r.vocab.defs, RoundParse(r.vocab).0, files))
              && (r.exit.Success? && |r.vocab.defs| < numTokens ==>
                    && RoundParse(r.vocab).1.Pass? && Encodable(RoundParse(r.vocab).0, files)
                    && NoThrow(r.vocab.defs, RoundParse(r.vocab).0, files)
                    && forall k :: CorpusCount(r.vocab.defs, RoundParse(r.vocab).0, files, k) <= 1)
              && (ThrowsFirst(seed, files) ==> r.exit == OutOfRange && r.vocab == seed)
              && r.vocab.filterConfig == filterConfig
              && |seed.defs| <= |r.vocab.defs| <= numTokens && r.vocab.defs[..|seed.defs|] == seed.defs
              && Merged(r.vocab.defs, |seed.defs|))
  {
    var parsed := Filter.ParseConfig(filterConfig);
    var v := Vocab.Vocab(filterConfig, []);
    if parsed.1.Fail? {
      return Run(Aborted(parsed.1.error), v, None);
    }
    v := Initializer.Seed(v, files);
    if |v.defs| == 0 {
      return Run(Failure, v, None);
    }
    if |v.defs| >= numTokens {
      return Run(Success, v, Some(Vocab.ToString(v)));
    }
    var exit, trained := MergeLoop(v, files, numTokens);
    r := Run(exit, trained, None);
  }

  /** main with the trained vocabulary written out when the tool succeeds,
      which is what the tool is for. */
  method TrainAndSave(filterConfig: seq<byte>, files: seq<seq<byte>>, numTokens: nat) returns (r: Run)
    ensures r.exit.Success? <==> r.written.Some?
    ensures r.written.Some? ==> r.written.value == Vocab.ToString(r.vocab)
    ensures var seed := Initializer.Seed(Vocab.Vocab(filterConfig, []), files);
      Filter.ParseConfig(filterConfig).1.Pass? && 0 < |seed.defs| && r.exit.Success? ==>
        && |seed.defs| <= |r.vocab.defs| <= Max(numTokens, |seed.defs|)
        && r.vocab.defs[..|seed.defs|] == seed.defs
        && Merged(r.vocab.defs, |seed.defs|)
    ensures var seed := Initializer.Seed(Vocab.Vocab(filterConfig, []), files);
      Filter.ParseConfig(filterConfig).1.Pass? && 0 < |seed.defs| < numTokens && ThrowsFirst(seed, files) ==>
        r == Run(OutOfRange, seed, None)
  {
    r := Train(filterConfig, files, numTokens);
    if r.exit.Success? {
      r := r.(written := Some(Vocab.ToString(r.vocab)));
    }
  }

  /** "x\nq": a filter configuration holding a '\n'. The file set accepts
      it (the unknown key "x\nq" is ignored), but Vocab::toString writes it
      unescaped, so the pair counter's encoder reads "q" as definition 0 and
      every seeded definition one ID later than its index. */
  const NEWLINE_CONFIG: seq<byte> := [0x78, LF, 0x71]

  /** The tool on that configuration, the one file "ab" and a target of
      10 tokens terminates with std::out_of_range. */
  method NewlineConfigRun() returns (r: Run)
    ensures r.exit == OutOfRange && r.written == None
  {
    NewlineConfigThrows();
    r := Train(NEWLINE_CONFIG, [[0x61, 0x62]], 10);
  }

  /** The corpus of the one file "ab" seeds the vocabulary with "a", "b". */
  lemma SeedOfAb(config: seq<byte>)
    ensures Initializer.Seed(Vocab.Vocab(config, []), [[0x61, 0x62]]).defs == [[0x61], [0x62]]
  {
    var ab: seq<byte> := [0x61, 0x62];
    var v := Vocab.Vocab(config, []);
    var defs := Initializer.Seed(v, [ab]).defs;
    assert Model.Sorted(defs) && forall w :: w in defs <==> w in Utf8.Chunks(ab) by {
      Initializer.SeedSpec(v, [ab]);
      assert defs[|v.defs|..] == defs;
      assert forall w :: (exists f | 0 <= f < 1 :: w in Utf8.Chunks([ab][f])) <==> w in Utf8.Chunks(ab);
    }
    ChunksOfAb();
    SortedAb();
    Model.SortedUnique(defs, [[0x61], [0x62]]);
  }

  lemma ChunksOfAb()
    ensures Utf8.Chunks([0x61, 0x62]) == [[0x61], [0x62]]
  {
    var ab: seq<byte> := [0x61, 0x62];
    var b: seq<byte> := [0x62];
    assert Utf8.LeadLength(0x61) == 1 && Utf8.LeadLength(0x62) == 1;
    assert ab[..1] == [0x61] && ab[1..] == b && b[..1] == b && b[1..] == [];
    assert Utf8.Chunks(b) == [b];
  }

  lemma SortedAb()
    ensures Model.Sorted([[0x61], [0x62]])
  {
    var a, b: seq<byte> := [0x61], [0x62];
    Model.CompareStep(a, b);
    assert Model.Less(a, b);
  }

  /** Train on that configuration and the one file "ab": the configuration
      is accepted, the seed is "a", "b", the pair counter's encoder reads
      "ab" as IDs 1 and 2, and `at(2)` throws, so the first merge round ends
      in OutOfRange. */
  lemma NewlineConfigThrows()
    ensures Filter.ParseConfig(NEWLINE_CONFIG).1.Pass?
    ensures var v := Initializer.Seed(Vocab.Vocab(NEWLINE_CONFIG, []), [[0x61, 0x62]]);
      && v == Vocab.Vocab(NEWLINE_CONFIG, [[0x61], [0x62]])
      && RoundParse(v).1.Pass?
      && Encoder.Encode(RoundParse(v).0, [0x61, 0x62]) == Some([1, 2])
      && Encodable(RoundParse(v).0, [[0x61, 0x62]])
      && !NoThrow(v.defs, RoundParse(v).0, [[0x61, 0x62]])
  {
    NewlineConfigSeed();
    NewlineConfigRound();
    NewlineConfigPairThrows();
  }

  /** The seeded vocabulary of that run. */
  const NEWLINE_SEED: Vocab.Vocab := Vocab.Vocab(NEWLINE_CONFIG, [[0x61], [0x62]])

  lemma NewlineConfigRound()
    ensures RoundParse(NEWLINE_SEED) == (NEWLINE_ENCODER, Pass)
    ensures Encoder.Encode(NEWLINE_ENCODER, [0x61, 0x62]) == Some([1, 2])
    ensures Encodable(NEWLINE_ENCODER, [[0x61, 0x62]])
  {
    NewlineConfigRoundParse();
    NewlineConfigEncode(NEWLINE_ENCODER);
    var files: seq<seq<byte>> := [[0x61, 0x62]];
    assert Encoder.Encode(NEWLINE_ENCODER, files[0]).Some?;
  }

  lemma NewlineConfigPairThrows()
    requires Encoder.Encode(NEWLINE_ENCODER, [0x61, 0x62]) == Some([1, 2])
    requires Encodable(NEWLINE_ENCODER, [[0x61, 0x62]])
    ensures !NoThrow(NEWLINE_SEED.defs, NEWLINE_ENCODER, [[0x61, 0x62]])
  {
    var files: seq<seq<byte>> := [[0x61, 0x62]];
    var ids: seq<uint16> := [1, 2];
    assert Encoder.Encode(NEWLINE_ENCODER, files[0]) == Some(ids);
    assert PairCounter.Throws(NEWLINE_SEED.defs, ids[0], ids[1]);
    assert PairCounter.ThrowsIn(NEWLINE_SEED.defs, Encoder.Encode(NEWLINE_ENCODER, files[0]).value);
  }

  /** The encoder the pair counter builds from that vocabulary: "q", "a"
      and "b" at IDs 0, 1 and 2, and a filter with every flag off. */
  const NEWLINE_ENCODER: Encoder.Encoder :=
    Encoder.Encoder(map[[0x71] := 0, [0x61] := 1, [0x62] := 2], 3, Some(Filter.NoFlags))

  lemma NewlineConfigSeed()
    ensures Filter.ParseConfig(NEWLINE_CONFIG).1.Pass?
    ensures Initializer.Seed(Vocab.Vocab(NEWLINE_CONFIG, []), [[0x61, 0x62]]) == NEWLINE_SEED
  {
    NewlineConfigAccepted();
    SeedOfAb(NEWLINE_CONFIG);
  }

  lemma NewlineConfigRoundParse()
    ensures RoundParse(NEWLINE_SEED) == (NEWLINE_ENCODER, Pass)
  {
    var v := NEWLINE_SEED;
    NewlineConfigLines();
    Encoder.ParseVocabByLines(Encoder.NewEncoder, Vocab.ToString(v));
    NewlineConfigParse();
  }

  /** The text form of that vocabulary has five lines: the version line, the
      filter line cut at the '\n', then "q", "a" and "b". */
  lemma NewlineConfigLines()
    ensures Lines(Vocab.ToString(NEWLINE_SEED)) ==
      [Vocab.VERSION_LINE, Vocab.FILTER_PREFIX + [0x78], [0x71], [0x61], [0x62]]
  {
    var x, q, a, b: seq<byte> := [0x78], [0x71], [0x61], [0x62];
    var w := Vocab.Vocab(x, [q, a, b]);
    NewlineConfigSameText();
    assert Vocab.Escape(q) == q && Vocab.Escape(a) == a && Vocab.Escape(b) == b;
    assert seq(3, i requires 0 <= i < 3 => Vocab.Escape(w.defs[i])) == [q, a, b];
  }

  /** The '\n' of the configuration makes the text the one written for the
      configuration "x" with "q" as an extra first definition. */
  lemma NewlineConfigSameText()
    ensures Vocab.ToString(NEWLINE_SEED) == Vocab.ToString(Vocab.Vocab([0x78], [[0x71], [0x61], [0x62]]))
  {
    var x, q, a, b: seq<byte> := [0x78], [0x71], [0x61], [0x62];
    assert Vocab.Escape(q) == q;
    assert [q, a, b][1..] == [a, b];
    var rest := Vocab.DefLines([a, b]);
    assert Vocab.DefLines([q, a, b]) == q + [LF] + rest;
    assert NEWLINE_CONFIG + [LF] + rest == x + [LF] + (q + [LF] + rest);
  }

  /** Reading those lines installs a filter with every flag off and gives
      "q", "a" and "b" the IDs 0, 1 and 2. */
  lemma NewlineConfigParse()
    ensures Encoder.ParseLines(Encoder.NewEncoder, [Vocab.VERSION_LINE, Vocab.FILTER_PREFIX + [0x78], [0x71], [0x61], [0x62]], 0)
      == (Encoder.Encoder(map[[0x71] := 0, [0x61] := 1, [0x62] := 2], 3, Some(Filter.NoFlags)), Pass)
  {
    var x, q, a, b: seq<byte> := [0x78], [0x71], [0x61], [0x62];
    var e0 := Encoder.NewEncoder;
    var e1 := e0.(filter := Some(Filter.NoFlags));
    var lines := [Vocab.VERSION_LINE, Vocab.FILTER_PREFIX + x, q, a, b];
    assert Encoder.LineStep(e0, lines[0], 0) == Encoder.Continue(e0, 0) by {
      RoundTrip.VersionLine(e0);
    }
    assert Encoder.LineStep(e0, lines[1], 0) == Encoder.Continue(e1, 0) by {
      RoundTrip.FilterLine(e0, x);
      ConfigX();
    }
    Encoder.ParseLinesCons(e0, lines[0], lines[1..], 0);
    Encoder.ParseLinesCons(e0, lines[1], lines[2..], 0);
    assert lines[2..] == [q, a, b];
    DefinitionLines(e1);
  }

  lemma ConfigX()
    ensures Filter.ParseConfig([0x78]) == (Filter.NoFlags, Pass)
  {
    var x: seq<byte> := [0x78];
    assert Find(x, 1, COMMA) == 1 && Find(x, 0, COMMA) == 1;
    assert Find(x, 1, EQUALS) == 1 && Find(x, 0, EQUALS) == 1;
    assert x[0..1] == x;
  }

  lemma DefinitionLines(e1: Encoder.Encoder)
    requires e1 == Encoder.NewEncoder.(filter := Some(Filter.NoFlags))
    ensures Encoder.ParseLines(e1, [[0x71], [0x61], [0x62]], 0)
      == (Encoder.Encoder(map[[0x71] := 0, [0x61] := 1, [0x62] := 2], 3, Some(Filter.NoFlags)), Pass)
  {
    var q, a, b: seq<byte> := [0x71], [0x61], [0x62];
    var e2 := e1.(trie := map[q := 0]);
    var e3 := e2.(trie := map[q := 0, a := 1]);
    var e4 := e3.(trie := map[q := 0, a := 1, b := 2]);
    assert q[1..] == [] && a[1..] == [] && b[1..] == [];
    assert Unescape.ProcessTokenDef(q) == q && Unescape.ProcessTokenDef(a) == a && Unescape.ProcessTokenDef(b) == b;
    assert Encoder.LineStep(e1, q, 0) == Encoder.Continue(e2, 1);
    assert Encoder.LineStep(e2, a, 1) == Encoder.Continue(e3, 2);
    assert Encoder.LineStep(e3, b, 2) == Encoder.Continue(e4, 3);
    Encoder.ParseLinesCons(e1, q, [a, b], 0);
    Encoder.ParseLinesCons(e2, a, [b], 1);
    Encoder.ParseLinesCons(e3, b, [], 2);
    assert [q] + [a, b] == [q, a, b] && [a] + [b] == [a, b] && [b] + [] == [b];
  }

  /** That encoder reads "ab" as "a" then "b". */
  lemma NewlineConfigEncode(e: Encoder.Encoder)
    requires e == Encoder.Encoder(map[[0x71] := 0, [0x61] := 1, [0x62] := 2], 3, Some(Filter.NoFlags))
    ensures Encoder.Encode(e, [0x61, 0x62]) == Some([1, 2])
  {
    var ab: seq<byte> := [0x61, 0x62];
    assert Encoder.Encode(e, ab) == Some(Trie.EncodeRaw(e.trie, ab)) by {
      AbComplete();
      FilterLaws.ApplyNoFlags(ab);
    }
    var ids: seq<uint16> := [1, 2];
    assert Trie.EncodeRaw(e.trie, ab) == ids by {
      EncodeAb(e.trie);
    }
  }

  lemma AbComplete()
    ensures FilterLaws.Complete([0x61, 0x62])
  {
    var ab: seq<byte> := [0x61, 0x62];
    assert ab[1..] == [0x62] && ab[1..][1..] == [];
    assert Filter.Utf8Length(0x61) == 1 && Filter.Utf8Length(0x62) == 1;
    assert FilterLaws.Complete(ab[1..][1..]);
    assert FilterLaws.Complete(ab[1..]);
  }

  /** The greedy split of "ab" over the definitions "q", "a", "b". */
  lemma EncodeAb(t: Trie.Trie)
    requires t == map[[0x71] := 0, [0x61] := 1, [0x62] := 2]
    ensures Trie.EncodeRaw(t, [0x61, 0x62]) == [1, 2]
  {
    var ab: seq<byte> := [0x61, 0x62];
    var b: seq<byte> := [0x62];
    assert Trie.TokenizeOnce(t, ab) == Trie.Match(1, 1) by {
      Trie.TokenizeOnceSpec(t, ab);
      assert ab[..1] == [0x61] && ab[..2] == ab;
      assert ab !in t;
      assert Trie.Defined(t, ab[..1]) && [0x61] <= ab;
    }
    assert Trie.TokenizeOnce(t, b) == Trie.Match(2, 1) by {
      Trie.TokenizeOnceSpec(t, b);
      assert b[..1] == b;
      assert Trie.Defined(t, b[..1]);
    }
    Trie.EncodeRawCons(t, ab);
    Trie.EncodeRawCons(t, b);
    assert ab[1..] == b && b[1..] == [] && Trie.EncodeRaw(t, []) == [];
    assert Trie.EncodeRaw(t, b) == [2];
  }

  lemma NewlineConfigAccepted()
    ensures Filter.ParseConfig(NEWLINE_CONFIG) == (Filter.NoFlags, Pass)
  {
    var c := NEWLINE_CONFIG;
    assert Find(c, 3, COMMA) == 3 && Find(c, 2, COMMA) == 3 && Find(c, 1, COMMA) == 3 && Find(c, 0, COMMA) == 3;
    assert Find(c, 3, EQUALS) == 3 && Find(c, 2, EQUALS) == 3 && Find(c, 1, EQUALS) == 3 && Find(c, 0, EQUALS) == 3;
    assert c[0..3] == c;
    assert Filter.KeyFlag(c) == None;
    assert Filter.ParseFrom(c, 4, Filter.NoFlags) == (Filter.NoFlags, Pass);
    assert Filter.ParseProperty(c, 0, Filter.NoFlags) == (Filter.NoFlags, Pass);
  }
}

=== FILE: trie.dfy ===
/** The encoder's trie (struct trie_node in src/encoder.c) and the greedy
    longest-match step tokenize_once. A node is identified by the byte path
    that leads to it from the root; the trie is the map from the paths of
    nodes given a token ID to that ID. */
module Trie {
  import opened Bytes

  /** INVALID_TOKEN_ID: the ID of a node no definition ends at, and the ID
      written for input no definition matches. */
  const INVALID_TOKEN_ID: uint16 := 65535

  type Trie = map<seq<byte>, uint16>

  /** add_token_def: the empty word is ignored; otherwise the node at the end
      of the word's path gets the ID, replacing any earlier one. */
  function Insert(t: Trie, word: seq<byte>, id: uint16): (r: Trie)
    ensures |word| == 0 ==> r == t
    ensures |word| > 0 ==> word in r && r[word] == id
    ensures forall w | w != word :: (w in r <==> w in t) && (w in t ==> r[w] == t[w])
  {
    if |word| == 0 then t else t[word := id]
  }

  /** A node exists for every non-empty prefix of an inserted word: add_token_def
      allocates the missing nodes along the path. */
  predicate HasNode(t: Trie, path: seq<byte>)
  {
    exists w | w in t :: path <= w
  }

  /** A node whose token_id is set. */
  predicate Defined(t: Trie, w: seq<byte>)
  {
    w in t && t[w] != INVALID_TOKEN_ID
  }

  /** The result of one step: the ID written and the bytes consumed. */
  datatype Match = Match(id: uint16, size: nat)

  /** The descent of tokenize_once below the node at path rest[..depth]: go on
      while a child for the next byte exists, remembering the deepest node
      with a token ID. */
  function Walk(t: Trie, rest: seq<byte>, depth: nat, best: Match): (r: Match)
    requires depth <= |rest|
    ensures r == best || (depth < r.size <= |rest| && Defined(t, rest[..r.size]) && t[rest[..r.size]] == r.id)
    decreases |rest| - depth
  {
    if depth < |rest| && HasNode(t, rest[..depth + 1]) then
      var path := rest[..depth + 1];
      Walk(t, rest, depth + 1, if Defined(t, path) then Match(t[path], depth + 1) else best)
    else best
  }

  /** tokenize_once on the remaining input: the deepest token found, or
      INVALID_TOKEN_ID and one byte when there is none. */
  function TokenizeOnce(t: Trie, rest: seq<byte>): (m: Match)
    requires |rest| > 0
    ensures 1 <= m.size <= |rest|
  {
    var best := Walk(t, rest, 0, Match(INVALID_TOKEN_ID, 0));
    WalkBounds(t, rest, 0, Match(INVALID_TOKEN_ID, 0));
    if best.id == INVALID_TOKEN_ID then Match(INVALID_TOKEN_ID, 1) else best
  }

  /** What the walk has found after reaching depth `depth`: nothing, or the
      longest defined prefix of length at most `depth`. */
  predicate FoundUpTo(t: Trie, rest: seq<byte>, depth: nat, best: Match)
    requires depth <= |rest|
  {
    && (best.id == INVALID_TOKEN_ID <==> forall j | 1 <= j <= depth :: !Defined(t, rest[..j]))
    && (best.id != INVALID_TOKEN_ID ==>
          && 1 <= best.size <= depth
          && Defined(t, rest[..best.size]) && t[rest[..best.size]] == best.id
          && forall j | best.size < j <= depth :: !Defined(t, rest[..j]))
  }

  lemma {:induction false} WalkBounds(t: Trie, rest: seq<byte>, depth: nat, best: Match)
    requires depth <= |rest| && best.size <= depth
    requires best.id != INVALID_TOKEN_ID ==> best.size >= 1
    ensures Walk(t, rest, depth, best).size <= |rest|
    ensures Walk(t, rest, depth, best).id != INVALID_TOKEN_ID ==> Walk(t, rest, depth, best).size >= 1
    decreases |rest| - depth
  {
    if depth < |rest| && HasNode(t, rest[..depth + 1]) {
      var path := rest[..depth + 1];
      WalkBounds(t, rest, depth + 1, if Defined(t, path) then Match(t[path], depth + 1) else best);
    }
  }

  /** A defined prefix longer than `depth` has a node at every depth on
      its path, so the walk cannot stop at `depth` before reaching it. */
  lemma DeeperTokenHasNode(t: Trie, rest: seq<byte>, depth: nat)
    requires depth < |rest|
    ensures forall j | depth < j <= |rest| :: Defined(t, rest[..j]) ==> HasNode(t, rest[..depth + 1])
  {
    forall j | depth < j <= |rest|
      ensures Defined(t, rest[..j]) ==> HasNode(t, rest[..depth + 1])
    {
      assert rest[..depth + 1] <= rest[..j];
    }
  }

  lemma {:induction false} WalkFinds(t: Trie, rest: seq<byte>, depth: nat, best: Match)
    requires depth <= |rest| && FoundUpTo(t, rest, depth, best)
    ensures FoundUpTo(t, rest, |rest|, Walk(t, rest, depth, best))
    decreases |rest| - depth
  {
    if depth < |rest| && HasNode(t, rest[..depth + 1]) {
      var path := rest[..depth + 1];
      var best' := if Defined(t, path) then Match(t[path], depth + 1) else best;
      assert FoundUpTo(t, rest, depth + 1, best');
      WalkFinds(t, rest, depth + 1, best');
    } else if depth < |rest| {
      DeeperTokenHasNode(t, rest, depth);
    }
  }

  /** Longest match: the step writes the ID of the longest defined prefix of
      the remaining input and consumes it, or writes INVALID_TOKEN_ID and
      consumes one byte exactly when no prefix is defined. */
  lemma TokenizeOnceSpec(t: Trie, rest: seq<byte>)
    requires |rest| > 0
    ensures var m := TokenizeOnce(t, rest);
      && (m.id == INVALID_TOKEN_ID <==> forall j | 1 <= j <= |rest| :: !Defined(t, rest[..j]))
      && (m.id == INVALID_TOKEN_ID ==> m.size == 1)
      && (m.id != INVALID_TOKEN_ID ==>
            && Defined(t, rest[..m.size]) && t[rest[..m.size]] == m.id
            && forall w | Defined(t, w) && w <= rest :: |w| <= m.size)
  {
    var start := Match(INVALID_TOKEN_ID, 0);
    WalkFinds(t, rest, 0, start);
    var m := TokenizeOnce(t, rest);
    if m.id != INVALID_TOKEN_ID {
      forall w | Defined(t, w) && w <= rest
        ensures |w| <= m.size
      {
        assert w == rest[..|w|];
      }
    }
  }

  /** The tokens of a text, step after step (encode in src/encoder.c). */
  function EncodeRaw(t: Trie, text: seq<byte>): (r: seq<uint16>)
    ensures |r| <= |text|
    decreases |text|
  {
    if |text| == 0 then []
    else
      var m := TokenizeOnce(t, text);
      [m.id] + EncodeRaw(t, text[m.size..])
  }

  /** The pieces of the text the steps consume. */
  function Pieces(t: Trie, text: seq<byte>): seq<seq<byte>>
    decreases |text|
  {
    if |text| == 0 then []
    else
      var m := TokenizeOnce(t, text);
      [text[..m.size]] + Pieces(t, text[m.size..])
  }

  /** `ps` partitions `text` into one non-empty piece per token of `ids`: a
      defined token's piece is its definition, and an INVALID_TOKEN_ID
      piece is a single byte. */
  predicate Partition(t: Trie, ids: seq<uint16>, ps: seq<seq<byte>>, text: seq<byte>)
  {
    && |ps| == |ids|
    && Flatten(ps) == text
    && (forall i | 0 <= i < |ids| :: |ps[i]| > 0)
    && (forall i | 0 <= i < |ids| :: ids[i] != INVALID_TOKEN_ID ==> Defined(t, ps[i]) && t[ps[i]] == ids[i])
    && (forall i | 0 <= i < |ids| :: ids[i] == INVALID_TOKEN_ID ==> |ps[i]| == 1)
  }

  /** The pieces the steps consume partition the text, one per token. */
  lemma {:induction false} EncodeRawPieces(t: Trie, text: seq<byte>)
    ensures Partition(t, EncodeRaw(t, text), Pieces(t, text), text)
    decreases |text|
  {
    if |text| > 0 {
      var m := TokenizeOnce(t, text);
      EncodeRawPieces(t, text[m.size..]);
      TokenizeOnceSpec(t, text);
      EncodeRawCons(t, text);
      assert text == text[..m.size] + text[m.size..];
      PartitionCons(t, m.id, text[..m.size], EncodeRaw(t, text[m.size..]), Pieces(t, text[m.size..]), text[m.size..]);
    }
  }

  /** One step, then the steps on the rest. */
  lemma EncodeRawCons(t: Trie, text: seq<byte>)
    requires |text| > 0
    ensures var m := TokenizeOnce(t, text);
      && EncodeRaw(t, text) == [m.id] + EncodeRaw(t, text[m.size..])
      && Pieces(t, text) == [text[..m.size]] + Pieces(t, text[m.size..])
  {
  }

  /** A partition of the rest, after one more token and its piece. */
  lemma PartitionCons(t: Trie, id: uint16, p: seq<byte>, ids: seq<uint16>, ps: seq<seq<byte>>, rest: seq<byte>)
    requires Partition(t, ids, ps, rest)
    requires |p| > 0
    requires id != INVALID_TOKEN_ID ==> Defined(t, p) && t[p] == id
    requires id == INVALID_TOKEN_ID ==> |p| == 1
    ensures Partition(t, [id] + ids, [p] + ps, p + rest)
  {
    var ids', ps' := [id] + ids, [p] + ps;
    assert ps'[0] == p && ps'[1..] == ps;
    assert forall i | 1 <= i < |ids'| :: ids'[i] == ids[i - 1] && ps'[i] == ps[i - 1];
  }
}

=== FILE: unescape.dfy ===
/** The unescaping of token-definition lines in src/vocab.c
    (toke_process_token_def), which the encoder applies to every line of a
    vocabulary before inserting it. */
module Unescape {
  import opened Bytes

  /** hex_to_value: lower-case hex digits only; every other byte counts as 0. */
  function HexValue(c: byte): (r: nat)
    ensures r < 16
    ensures 'a' as int <= c <= 'f' as int ==> r == c - 'a' as int + 10
    ensures '0' as int <= c <= '9' as int ==> r == c - '0' as int
    ensures !('a' as int <= c <= 'f' as int || '0' as int <= c <= '9' as int) ==> r == 0
  {
    if 'a' as int <= c <= 'f' as int then 10 + (c - 'a' as int)
    else if '0' as int <= c <= '9' as int then c - '0' as int
    else 0
  }

  /** The uint8_t accumulator after `value <<= 4; value |= h`: the shift
      drops the high nibble, and or-ing a digit below 16 into the cleared low
      nibble adds it. */
  function ShiftIn(value: byte, h: nat): (r: byte)
    requires h < 16
    ensures r / 16 == value % 16 && r % 16 == h
  {
    ShiftNibble(value, h);
    (value * 16) % 0x100 + h
  }

  /** Shifting a byte left by four keeps its low nibble, now high. */
  lemma ShiftNibble(value: byte, h: nat)
    requires h < 16
    ensures (value * 16) % 0x100 == (value % 16) * 16
    ensures ((value % 16) * 16 + h) / 16 == value % 16 && ((value % 16) * 16 + h) % 16 == h
  {
    var q, m := value / 16, value % 16;
    assert value * 16 == 0x100 * q + 16 * m;
  }

  /** toke_process_token_def: a byte other than '\' is copied; '\' takes up to
      two following characters as hex digits into an 8-bit accumulator that
      starts at 0, and writes the accumulator as one byte. */
  function ProcessTokenDef(word: seq<byte>): (r: seq<byte>)
    ensures |r| <= |word|
    decreases |word|
  {
    if |word| == 0 then []
    else if word[0] != BACKSLASH then [word[0]] + ProcessTokenDef(word[1..])
    else if |word| == 1 then [0]
    else
      var first := ShiftIn(0, HexValue(word[1]));
      if |word| == 2 then [first]
      else [ShiftIn(first, HexValue(word[2]))] + ProcessTokenDef(word[3..])
  }

  /** The accumulator holds one digit as is, and two digits as 16·h1 + h2. */
  lemma ShiftInDigits(h1: nat, h2: nat)
    requires h1 < 16 && h2 < 16
    ensures ShiftIn(0, h1) == h1
    ensures ShiftIn(ShiftIn(0, h1), h2) == 16 * h1 + h2
  {
  }

  /** Text without '\' is copied unchanged, one byte per character. */
  lemma {:induction false} PlainText(word: seq<byte>)
    requires BACKSLASH !in word
    ensures ProcessTokenDef(word) == word
    decreases |word|
  {
    if |word| > 0 {
      assert BACKSLASH !in word[1..];
      PlainText(word[1..]);
    }
  }

  /** A '\' and two characters become the one byte 16·hex(c1) + hex(c2). */
  lemma EscapePair(c1: byte, c2: byte, rest: seq<byte>)
    ensures ProcessTokenDef([BACKSLASH, c1, c2] + rest) ==
      [16 * HexValue(c1) + HexValue(c2)] + ProcessTokenDef(rest)
  {
    ShiftInDigits(HexValue(c1), HexValue(c2));
    assert ([BACKSLASH, c1, c2] + rest)[3..] == rest;
  }

  /** Cut-short escapes: '\' with one character left gives hex(c1), and a '\'
      at the very end gives 0. */
  lemma ShortEscapes(c1: byte)
    ensures ProcessTokenDef([BACKSLASH, c1]) == [HexValue(c1)]
    ensures ProcessTokenDef([BACKSLASH]) == [0]
  {
    ShiftInDigits(HexValue(c1), 0);
  }

  /** The text backslash-n is the byte 0x00, not a newline: 'n' is no hex digit. */
  lemma BackslashN()
    ensures ProcessTokenDef([BACKSLASH, 'n' as int]) == [0]
  {
    ShortEscapes('n' as int);
  }
}

=== FILE: utf8.dfy ===
/** The lead-byte classifier of tool/utf8.h, written with the same right
    shifts as the source, and the split of a byte string into the units it
    announces (the chunking of tool/initializer.cpp). */
module Utf8 {
  import opened Bytes
  import Filter

  /** utf8Length: 2 for 110xxxxx, 3 for 1110xxxx, 4 for 11110xxx, else 1.
      A unit is 1 to 4 bytes long, and an ASCII byte is a unit of its own. */
  function LeadLength(lead: byte): (r: nat)
    ensures 1 <= r <= 4
    ensures lead < 0x80 ==> r == 1
  {
    var b := lead as bv8;
    if b >> 5 == 0x06 then 2
    else if b >> 4 == 0x0E then 3
    else if b >> 3 == 0x1E then 4
    else 1
  }

  /** The length classes by byte range: ASCII and continuation bytes (below
      0xC0) and the bytes 0xF8 to 0xFF all count as one-byte units. */
  lemma LeadLengthRanges(lead: byte)
    ensures 1 <= LeadLength(lead) <= 4
    ensures LeadLength(lead) == 2 <==> 0xC0 <= lead < 0xE0
    ensures LeadLength(lead) == 3 <==> 0xE0 <= lead < 0xF0
    ensures LeadLength(lead) == 4 <==> 0xF0 <= lead < 0xF8
    ensures LeadLength(lead) == 1 <==> lead < 0xC0 || 0xF8 <= lead
  {
    var b := lead as bv8;
    assert b >> 5 == 0x06 <==> 0xC0 <= lead < 0xE0;
    assert b >> 4 == 0x0E <==> 0xE0 <= lead < 0xF0;
    assert b >> 3 == 0x1E <==> 0xF0 <= lead < 0xF8;
  }

  /** The copy of the classifier in src/filter.c agrees on every byte. */
  lemma AgreesWithFilter(lead: byte)
    ensures LeadLength(lead) == Filter.Utf8Length(lead)
  {
    LeadLengthRanges(lead);
  }

  /** visitFile's scan: consecutive units from the start of `data`, stopping
      at the end or before a unit that does not fit. There are never more
      chunks than bytes, and ASCII data has one chunk per byte. */
  function Chunks(data: seq<byte>): (r: seq<seq<byte>>)
    ensures |r| <= |data|
    ensures (forall i | 0 <= i < |data| :: data[i] < 0x80) ==> |r| == |data|
    decreases |data|
  {
    if |data| == 0 then []
    else
      var n := LeadLength(data[0]);
      if n > |data| then []
      else [data[..n]] + Chunks(data[n..])
  }

  /** The chunks concatenate to a prefix of the data, and that prefix stops
      short of the end only where a unit does not fit in what remains. */
  lemma {:induction false} ChunksPrefix(data: seq<byte>)
    ensures Flatten(Chunks(data)) <= data
    ensures var k := |Flatten(Chunks(data))|; k < |data| ==> LeadLength(data[k]) > |data| - k
    decreases |data|
  {
    if |data| > 0 && LeadLength(data[0]) <= |data| {
      ChunksPrefix(data[LeadLength(data[0])..]);
      UnitThenRest(data);
    }
  }

  /** One unit followed by the chunks of the rest keeps both properties. */
  lemma UnitThenRest(data: seq<byte>)
    requires |data| > 0 && LeadLength(data[0]) <= |data|
    requires var rest := data[LeadLength(data[0])..];
      Flatten(Chunks(rest)) <= rest
      && (|Flatten(Chunks(rest))| < |rest| ==>
            LeadLength(rest[|Flatten(Chunks(rest))|]) > |rest| - |Flatten(Chunks(rest))|)
    ensures Flatten(Chunks(data)) <= data
    ensures var k := |Flatten(Chunks(data))|; k < |data| ==> LeadLength(data[k]) > |data| - k
  {
    var n := LeadLength(data[0]);
    ChunksCons(data);
    PrefixAfter(data, n, Flatten(Chunks(data[n..])));
  }

  lemma ChunksCons(data: seq<byte>)
    requires |data| > 0 && LeadLength(data[0]) <= |data|
    ensures Flatten(Chunks(data)) == data[..LeadLength(data[0])] + Flatten(Chunks(data[LeadLength(data[0])..]))
  {
    var n := LeadLength(data[0]);
    var r := Chunks(data);
    assert r == [data[..n]] + Chunks(data[n..]);
    assert r[0] == data[..n] && r[1..] == Chunks(data[n..]);
  }

  /** A prefix of the data after its first `n` bytes, put after those bytes. */
  lemma PrefixAfter(data: seq<byte>, n: nat, f: seq<byte>)
    requires n <= |data| && f <= data[n..]
    ensures data[..n] + f <= data
    ensures n + |f| < |data| ==> data[n + |f|] == data[n..][|f|]
  {
    assert data == data[..n] + data[n..];
  }

  /** One whole unit: as many bytes as its lead announces. */
  predicate IsUnit(c: seq<byte>)
  {
    |c| > 0 && |c| == LeadLength(c[0])
  }

  /** Each chunk is one whole unit of 1 to 4 bytes. */
  lemma {:induction false} ChunksAreUnits(data: seq<byte>)
    ensures forall i | 0 <= i < |Chunks(data)| :: IsUnit(Chunks(data)[i]) && |Chunks(data)[i]| <= 4
    decreases |data|
  {
    if |data| > 0 {
      var n := LeadLength(data[0]);
      LeadLengthRanges(data[0]);
      if n <= |data| {
        var rest := Chunks(data[n..]);
        ChunksAreUnits(data[n..]);
        var r := Chunks(data);
        assert r == [data[..n]] + rest;
        assert r[0][0] == data[0];
        assert forall i | 1 <= i < |r| :: r[i] == rest[i - 1];
      }
    }
  }
}

=== FILE: vocab.dfy ===
/** The training tool's vocabulary (tool/vocab.cpp, tool/vocab.h): a filter
    configuration and an ordered list of token definitions, and its text form. */
module Vocab {
  import opened Bytes
  import Unescape

  /** TokenDef::concat: the bytes of `l` followed by those of `r`, copied by
      two index loops into a buffer of the summed size. */
  method Concat(l: seq<byte>, r: seq<byte>) returns (result: seq<byte>)
    ensures result == l + r
  {
    result := seq(|l| + |r|, _ => 0);
    var i := 0;
    while i < |l|
      invariant 0 <= i <= |l| && |result| == |l| + |r|
      invariant forall k | 0 <= k < i :: result[k] == l[k]
    {
      result := result[i := l[i]];
      i := i + 1;
    }
    var offset := |l|;
    i := 0;
    while i < |r|
      invariant 0 <= i <= |r| && |result| == |l| + |r|
      invariant forall k | 0 <= k < |l| :: result[k] == l[k]
      invariant forall k | 0 <= k < i :: result[offset + k] == r[k]
    {
      result := result[i + offset := r[i]];
      i := i + 1;
    }
    assert forall k | |l| <= k < |result| :: result[k] == r[k - |l|];
  }

  datatype Vocab = Vocab(filterConfig: seq<byte>, defs: seq<seq<byte>>)
  {
    /** Vocab::size */
    function Size(): nat
    {
      |defs|
    }
  }

  /** Vocab::define: one more definition, at the end. */
  function Define(v: Vocab, def: seq<byte>): (r: Vocab)
    ensures r.filterConfig == v.filterConfig
    ensures r.Size() == v.Size() + 1 && r.defs[v.Size()] == def
    ensures forall i | 0 <= i < v.Size() :: r.defs[i] == v.defs[i]
  {
    v.(defs := v.defs + [def])
  }

  /** A byte that escape writes as itself: 0x21 to 0x7E other than '\' and '#'. */
  predicate Printable(b: byte)
  {
    33 <= b <= 126 && b != BACKSLASH && b != HASH
  }

  /** The lower-case hex digit of a value below 16 (std::hex). */
  function HexDigit(n: nat): (r: byte)
    requires n < 16
    ensures Unescape.HexValue(r) == n
    ensures 0x30 <= r <= 0x39 || 0x61 <= r <= 0x66
  {
    if n < 10 then '0' as int + n else 'a' as int + (n - 10)
  }

  /** escape, one byte at a time: a printable byte stays, any other becomes
      '\' and two lower-case hex digits, zero-padded. */
  function EscapeByte(b: byte): (r: seq<byte>)
  {
    if Printable(b) then [b] else [BACKSLASH, HexDigit(b / 16), HexDigit(b % 16)]
  }

  /** escape: never shorter than the definition, and a definition made of
      printable bytes only is written as it is. */
  function Escape(def: seq<byte>): (r: seq<byte>)
    ensures |r| >= |def|
    ensures (forall i | 0 <= i < |def| :: Printable(def[i])) ==> r == def
    decreases |def|
  {
    if |def| == 0 then [] else EscapeByte(def[0]) + Escape(def[1..])
  }

  /** How many bytes escape writes in hex form. */
  function EscapedCount(def: seq<byte>): nat
    decreases |def|
  {
    if |def| == 0 then 0 else (if Printable(def[0]) then 0 else 1) + EscapedCount(def[1..])
  }

  /** Every escaped byte costs two more characters. */
  lemma {:induction false} EscapeLength(def: seq<byte>)
    ensures |Escape(def)| == |def| + 2 * EscapedCount(def)
    decreases |def|
  {
    if |def| > 0 {
      EscapeLength(def[1..]);
    }
  }

  /** Escaped text is visible ASCII only (so no '\n'), and it never starts
      with '#': each definition is one line that is not a directive. */
  lemma {:induction false} EscapeAlphabet(def: seq<byte>)
    ensures forall i | 0 <= i < |Escape(def)| :: 0x21 <= Escape(def)[i] <= 0x7E
    ensures LF !in Escape(def)
    ensures |Escape(def)| > 0 ==> Escape(def)[0] != HASH
    decreases |def|
  {
    if |def| > 0 {
      var e := EscapeByte(def[0]);
      var rest := Escape(def[1..]);
      EscapeAlphabet(def[1..]);
      assert Escape(def) == e + rest;
      assert forall i | 0 <= i < |e| :: 0x21 <= e[i] <= 0x7E;
      forall i | |e| <= i < |e + rest|
        ensures 0x21 <= (e + rest)[i] <= 0x7E
      {
        assert (e + rest)[i] == rest[i - |e|];
      }
    }
  }

  /** The unescaper of src/vocab.c undoes escape: every byte string comes back. */
  lemma {:induction false} UnescapeEscape(def: seq<byte>)
    ensures Unescape.ProcessTokenDef(Escape(def)) == def
    decreases |def|
  {
    if |def| > 0 {
      var b := def[0];
      var rest := Escape(def[1..]);
      UnescapeEscape(def[1..]);
      assert Escape(def) == EscapeByte(b) + rest;
      UnescapeByte(b, rest);
      assert def == [b] + def[1..];
    }
  }

  /** The unescaper reads one escaped byte back, whatever follows it. */
  lemma UnescapeByte(b: byte, rest: seq<byte>)
    ensures Unescape.ProcessTokenDef(EscapeByte(b) + rest) == [b] + Unescape.ProcessTokenDef(rest)
  {
    if Printable(b) {
      assert ([b] + rest)[1..] == rest;
    } else {
      Unescape.EscapePair(HexDigit(b / 16), HexDigit(b % 16), rest);
    }
  }

  /** The definition lines: each escaped definition followed by '\n'. */
  function DefLines(defs: seq<seq<byte>>): seq<byte>
    decreases |defs|
  {
    if |defs| == 0 then [] else Escape(defs[0]) + [LF] + DefLines(defs[1..])
  }

  /** "#version:1" */
  const VERSION_LINE: seq<byte> := [0x23, 0x76, 0x65, 0x72, 0x73, 0x69, 0x6f, 0x6e, 0x3a, 0x31]
  /** "#filter:" */
  const FILTER_PREFIX: seq<byte> := [0x23, 0x66, 0x69, 0x6c, 0x74, 0x65, 0x72, 0x3a]

  /** Vocab::toString. Line by line, the text is the version directive, the
      filter directive, then one escaped definition per line in ID order
      (when the configuration holds no newline of its own). */
  function ToString(v: Vocab): (r: seq<byte>)
    ensures LF !in v.filterConfig ==>
      Lines(r) == [VERSION_LINE, FILTER_PREFIX + v.filterConfig] +
        seq(|v.defs|, i requires 0 <= i < |v.defs| => Escape(v.defs[i]))
  {
    var text := VERSION_LINE + [LF] + FILTER_PREFIX + v.filterConfig + [LF] + DefLines(v.defs);
    assert LF !in v.filterConfig ==>
      Lines(text) == [VERSION_LINE, FILTER_PREFIX + v.filterConfig] +
        seq(|v.defs|, i requires 0 <= i < |v.defs| => Escape(v.defs[i])) by {
      if LF !in v.filterConfig {
        LinesAfterHeader(v.filterConfig, DefLines(v.defs));
        LinesOfDefLines(v.defs);
      }
    }
    text
  }

  lemma HeaderWithoutLF()
    ensures LF !in VERSION_LINE && LF !in FILTER_PREFIX
  {
  }

  /** The lines of a definition block are the escaped definitions, in order. */
  lemma {:induction false} LinesOfDefLines(defs: seq<seq<byte>>)
    ensures Lines(DefLines(defs)) == seq(|defs|, i requires 0 <= i < |defs| => Escape(defs[i]))
    decreases |defs|
  {
    if |defs| > 0 {
      var head := Escape(defs[0]);
      var rest := defs[1..];
      EscapeAlphabet(defs[0]);
      LinesOfDefLines(rest);
      LinesOfLine(head, DefLines(rest));
      assert DefLines(defs) == head + [LF] + DefLines(rest);
      EscapedSeqCons(defs);
    }
  }

  /** The escaped definitions, first one apart. */
  lemma EscapedSeqCons(defs: seq<seq<byte>>)
    requires |defs| > 0
    ensures seq(|defs|, i requires 0 <= i < |defs| => Escape(defs[i])) ==
      [Escape(defs[0])] + seq(|defs| - 1, i requires 0 <= i < |defs| - 1 => Escape(defs[1..][i]))
  {
  }

  /** The two directive lines come first, whatever follows them. */
  lemma LinesAfterHeader(config: seq<byte>, rest: seq<byte>)
    requires LF !in config
    ensures Lines(VERSION_LINE + [LF] + FILTER_PREFIX + config + [LF] + rest) ==
      [VERSION_LINE, FILTER_PREFIX + config] + Lines(rest)
  {
    HeaderWithoutLF();
    var body := FILTER_PREFIX + config + [LF] + rest;
    assert VERSION_LINE + [LF] + FILTER_PREFIX + config + [LF] + rest == VERSION_LINE + [LF] + body;
    LinesOfLine(VERSION_LINE, body);
    assert body == (FILTER_PREFIX + config) + [LF] + rest;
    NotInAppend(FILTER_PREFIX, config, LF);
    LinesOfLine(FILTER_PREFIX + config, rest);
  }
}

=== FILE: wrappers.dfy ===
/** Failure-carrying result types shared by every module, and the error codes
    of include/toke/error.h. */
module Wrappers {

  /** An optional value. */
  datatype Option<+T> = None | Some(value: T)

  /** The error codes a parsing or loading operation can report. */
  datatype Error =
    | MemoryAllocation
    | FileNotFound
    | FileIo
    | VocabSyntax
    | FilterSyntax
    | InvalidUnicode

  /** The status an in-place operation returns: the C functions mutate their
      object and then report `TOKE_ERROR_NONE` or the first error met. */
  datatype Outcome = Pass | Fail(error: Error)
}
